=== FILE: README.md ===
# parseport core in Dafny

parseport statically evaluates a JavaScript or TypeScript module from its Babel syntax tree. It
reports the value the module exports and never executes the module's own code. Anything it cannot
work out becomes the sentinel `PARSEPORT_UNKNOWN`. A caller-supplied or built-in function is
invoked only if it is on a *safe set*. A function defined in the module is never executed by the evaluator. Instead, it
stands for the value of its body through a *related map*.

This project models the three files that make up that engine:

* the scope analyser (`src/scope.ts`). It turns each declaration into bindings from a name to an
  initialising node plus a path of projection steps. It places each binding in the right
  function, block or catch scope, and resolves a name through the chain of enclosing scopes.
* the value and safety model (`src/reflect.ts`, together with the related map of `src/node.ts`).
  This covers `markAsSafe`, `isMarkedAsSafe`, and the gated `get`, `apply` and `construct`.
* the evaluator (`src/node.ts`). It is a memoised recursive evaluation over the syntax tree. It
  covers operators, literals, functions, calls, member access, `await`, and imports and exports.

The modules follow that structure:

| module | file | what it holds |
|---|---|---|
| `Optional` | optional.dfy | the `Option` type |
| `Numerals` | numerals.dfy | decimal rendering and canonical array-index parsing of property keys |
| `Syntax` | syntax.dfy | the syntax tree, with node identity, children and static key resolution |
| `Values` | values.dfy | values, the heap of objects, `typeof`, truthiness and 32-bit integer conversion |
| `Hosting` | host.dfy | the host: function invocation, operator cases outside the modelled subset, deep imports |
| `Objects` | objects.dfy | property reads, own enumerable entries, `Object.assign` sources, promises |
| `Reflect` | reflect.dfy | the safe set and the gated `get`, `apply` and `construct` |
| `Related` | related.dfy | the related map |
| `Operators` | operators.dfy | the unary and binary operator tables and their application |
| `Paths` | paths.dfy | the projection steps a destructuring pattern applies to its initialiser |
| `Scopes` | scopes.dfy | reference resolution, scopes and lookup |
| `ScopeWalk` | scope_walk.dfy | the scope analysis pass over the whole tree |
| `Aggregate` | aggregate.dfy | building arrays, objects, enums and template strings from evaluated parts |
| `Evaluator` | evaluator.dfy | the memoised evaluator |
| `EvaluatorLaws` | evaluator_laws.dfy | properties of the evaluator, one node kind at a time |
| `WellFormed` | wellformed.dfy | the state invariant: no handle dangles, so a new object is never already safe or linked |

The original shares mutable state between evaluations: the memo table, the heap, the safe set and
the related map. Here that state is threaded through every evaluation step as a `State` value.
The original evaluates siblings concurrently with `Promise.all`. Here they are evaluated left to
right, and an exception anywhere ends the evaluation (`Abrupt`).

## Model

| member | source | states |
|---|---|---|
| Numerals.NatToString | src/node.ts:330-335 | the decimal text of a number is non-empty, all digits, and has no leading zero |
| Numerals.IntToString | src/node.ts:330-335 | the text of any integer is non-empty |
| Numerals.ParseIndex | src/scope.ts:45 | a key parses as an array index exactly when it is canonical decimal text |
| Numerals.DigitsValueOfNatToString | src/node.ts:330-335 | reading the decimal text of n back gives n |
| Numerals.IndexRoundTrip | src/scope.ts:45 | the text of a non-negative number is the array index of that number |
| Numerals.NatToStringInjective | src/node.ts:330-335 | two numbers have the same text exactly when they are equal, so enum keys never collide |
| Numerals.NegativeIsNotIndex | src/scope.ts:45 | the text of a negative number never addresses an array slot |
| Syntax.ResolveObjectKey | src/node.ts:607-612 | a property key resolves statically unless it is computed |
| Syntax.PropertyKeyOf | src/node.ts:628-631 | only object and class properties and methods have a key |
| Syntax.Children | src/scope.ts:201-202 | every child of a node is strictly smaller, so the tree walk terminates |
| Syntax.Ids | src/scope.ts:271 | a node's identifiers include its own |
| Values.Alloc | src/node.ts:383 | allocation returns a fresh handle and leaves every existing object untouched |
| Values.ObjAt | src/reflect.ts:9-11 | a value names a heap object exactly when it is a handle in range |
| Values.TypeOf | src/node.ts:82-83 | `typeof` yields one of the eight type names, and "function" exactly for callable values |
| Values.ToInt32 | src/node.ts:80-81 | 32-bit conversion lands in the signed 32-bit range and agrees with its input modulo 2^32 |
| Values.ToInt32OfInt32 | src/node.ts:80-81 | 32-bit conversion leaves a value already in range unchanged |
| Objects.KeyText | src/node.ts:620-623 | a string key is its own text and a numeric key is the index text of the number |
| Objects.ToText | src/node.ts:355-369 | the sentinel has no text, a string is its own text and a number is its decimal text |
| Objects.SlotEntries | src/node.ts:614-616 | an array's own entries are exactly its filled slots, keyed by index text |
| Objects.AssignSource | src/node.ts:614-616 | `Object.assign` copies nothing from null or undefined and the own entries of anything else |
| Objects.SlotGet | src/scope.ts:45 | an array read gives the length for "length" and the slot for an index, with holes read as undefined |
| Objects.RawGet | src/reflect.ts:28-30 | a property read throws exactly when the target is null or undefined |
| Objects.PromiseResolve | src/node.ts:398-401 | `Promise.resolve` yields a promise object and keeps the existing heap |
| Objects.CallFunction | src/node.ts:577-588 | calling a stand-in from source runs its `return body`: its body's value, or a new promise settling on it when async; a class throws without `new`; any other function is the host's call |
| Objects.ConstructFunction | src/node.ts:583-588 | `new` of an arrow or async stand-in throws; another stand-in gives its body when that is an object and a new empty object otherwise; any other function is the host's construction |
| Objects.EntriesAgreeWithGet | src/scope.ts:60-62 | every own entry is what a property read of that key returns |
| Objects.AwaitResolvedPromise | src/node.ts:189-191 | awaiting a resolved promise gives what awaiting the value itself gives |
| Reflect.IsObjectCharacterised | src/reflect.ts:9-11 | a value is an object exactly when it is truthy and its type is "object" or "function" |
| Reflect.MarkAsSafe | src/reflect.ts:13-18 | marking only adds, and adds nothing but the value's own handle |
| Reflect.MarkAsSafeExactly | src/reflect.ts:13-26 | after marking v, a value is safe exactly when it was safe before or is v |
| Reflect.SafeUnderLargerSet | src/reflect.ts:20-26 | safety persists as the safe set grows, and primitives are always safe |
| Reflect.Get | src/reflect.ts:28-30 | a gated read returns the raw read; it marks the result safe when the target is safe and changes nothing otherwise |
| Reflect.Invoked | src/reflect.ts:32-38 | the result of a permitted host invocation is marked safe |
| Reflect.Apply | src/reflect.ts:32-34 | calling an unsafe function gives the sentinel and changes nothing; a safe one is `target.call(thisArg, ...args)` with exactly those arguments, and its result is marked safe |
| Reflect.Construct | src/reflect.ts:36-38 | constructing from an unsafe function gives the sentinel and changes nothing; a safe one is `new target(...args)`, and its result is marked safe |
| Related.AttachRelated | src/node.ts:26-31 | attaching adds exactly the object's handle to the map and ignores primitives |
| Related.ExtractRelated | src/node.ts:33-38 | a primitive or an object with nothing attached yields the sentinel |
| Related.ExtractAttached | src/node.ts:26-38 | extracting what was just attached to an object gives it back |
| Related.AttachIsLocal | src/node.ts:26-38 | attaching to one object leaves what every other value extracts unchanged |
| Operators.UnaryOperator | src/node.ts:70-93 | exactly the eight supported unary operators have an implementation, and updates keep their prefix flag |
| Operators.ApplyUnary | src/node.ts:70-93 | `void` gives undefined, `!` negates truthiness and `typeof` gives the type name |
| Operators.CallUnary | src/node.ts:54-57 | the sentinel absorbs every unary operator, and other operands are applied |
| Operators.ApplyBinary | src/node.ts:97-170 | strict equality compares values, the logical operators pick an operand, and a pipeline into a non-function throws |
| Operators.CallBinary | src/node.ts:59-62 | the sentinel on either side absorbs every binary operator |
| Operators.BinaryOperatorDomain | src/node.ts:97-170 | an operator has an implementation exactly when it is in the supported table |
| Operators.CompoundAssignmentUsesPlainOperator | src/node.ts:97-170 | each compound assignment operator uses the same function as its plain operator |
| Operators.RemainderIsDivision | src/node.ts:108-110 | `%` is given the division function: a number that divides exactly gives the quotient (so 6 % 2 is 3), and a bigint the truncated quotient |
| Operators.PrefixUpdateSteps | src/node.ts:84-87 | prefix `++` and `--` step a number or bigint by one |
| Operators.PostfixUpdateIsIdentity | src/node.ts:84-87 | postfix `++` and `--` yield the operand unchanged |
| Operators.DecrementUndoesIncrement | src/node.ts:84-87 | a prefix decrement undoes a prefix increment |
| Operators.BitNotInvolution | src/node.ts:80-81 | bitwise not is an involution on 32-bit integers |
| Operators.DoubleNotIsTruthiness | src/node.ts:78-79 | `!!v` is the truthiness of v |
| Operators.LogicalPicksAnOperand | src/node.ts:155-163 | `\|\|`, `&&` and `??` never throw and always yield one of their operands |
| Operators.StrictInequalityNegates | src/node.ts:137-142 | `!==` is the negation of `===` |
| Paths.Omit | src/scope.ts:60-62 | a rest pattern keeps a subset of the entries and changes none of the kept values |
| Paths.ApplyStep | src/scope.ts:40-87 | one projection step never disturbs existing heap objects |
| Paths.Visit | src/node.ts:222-229 | a projection of the sentinel is the sentinel |
| Paths.ApplySteps | src/node.ts:222-229 | a projection path never disturbs existing heap objects |
| Paths.UnknownAbsorbs | src/node.ts:222-223 | once a projection yields the sentinel it stays the sentinel |
| Paths.StepsCompose | src/node.ts:222-229 | projecting along a joined path is projecting along the first part and then the second |
| Paths.ThrowingStepGivesUnknown | src/node.ts:224-228 | a step that throws makes the whole projection the sentinel |
| Paths.IndexReadsSlot | src/scope.ts:45 | an element pattern reads the array slot at its position |
| Paths.SliceThenIndex | src/scope.ts:43-45 | indexing after a rest slice at i reads the slot at i plus the offset |
| Paths.SliceOfArray | src/scope.ts:44 | a rest element is a fresh array holding the tail from its position |
| Paths.OmitKeysKeepsTheOthers | src/scope.ts:60-62 | an object rest pattern keeps exactly the own entries whose keys its siblings do not name |
| Scopes.NamesAppend | src/scope.ts:24-92 | the names of joined binding lists are the joined names |
| Scopes.SiblingKeys | src/scope.ts:53-54 | a rest pattern sees at most one key per sibling property |
| Scopes.ResolveChildReferences | src/scope.ts:24-92 | every binding a pattern produces starts from the pattern's initialiser and extends its path |
| Scopes.ArrayElementReferences | src/scope.ts:40-51 | every binding of an array pattern starts from its initialiser and extends its path |
| Scopes.ObjectPropertyReferences | src/scope.ts:52-83 | every binding of an object pattern starts from its initialiser and extends its path |
| Scopes.ResolvedNamesAreBoundNames | src/scope.ts:24-92 | a pattern binds exactly its identifiers, in source order |
| Scopes.ElementNamesAreBoundNames | src/scope.ts:40-51 | an array pattern binds exactly the identifiers of its elements, in order |
| Scopes.PropertyNamesAreBoundNames | src/scope.ts:52-83 | an object pattern binds exactly the identifiers of its properties, in order |
| Scopes.ArrayElementIdentifier | src/scope.ts:41-50 | an identifier at position i of an array pattern is bound to the initialiser projected at index i |
| Scopes.ElementsContain | src/scope.ts:40-51 | each element's bindings appear among the bindings of the whole array pattern |
| Scopes.ElementSuffixIncluded | src/scope.ts:41-51 | the bindings of the elements from a later position on are among those from any earlier position on |
| Scopes.PropertySuffixIncluded | src/scope.ts:55-82 | the bindings of the properties from a later position on are among those from any earlier position on |
| Scopes.ArrayElementProjection | src/scope.ts:41-50 | element i of an array pattern binds against the initialiser read at index i, or sliced from i when it is a rest element |
| Scopes.ArrayRestIdentifier | src/scope.ts:43-44 | a rest identifier at position i is bound to the initialiser sliced from i |
| Scopes.ObjectPropertyProjection | src/scope.ts:68-80 | a property whose key resolves to the string k binds against the initialiser's property k; a numeric or computed key binds with no initialiser |
| Scopes.ObjectPropertyIdentifier | src/scope.ts:68-76 | an identifier under a string key k is bound to the initialiser's property k |
| Scopes.ObjectPropertyUnresolved | src/scope.ts:77-79 | an identifier under a numeric or computed key is bound with no initialiser |
| Scopes.ObjectRestProjection | src/scope.ts:53-67 | an object rest element binds against the initialiser without the sibling keys when every sibling key resolves, and with no initialiser otherwise |
| Scopes.ObjectRestIdentifier | src/scope.ts:53-67 | a rest identifier is bound to the initialiser without its siblings' keys, or with no initialiser when a sibling key is computed |
| Scopes.ResolveReferences | src/scope.ts:94-154 | imports bind each specifier, parameters bind names with no initialiser, named declarations bind their own name, and declarators bind their pattern's names |
| Scopes.SameShapeTransitive | src/scope.ts:176-187 | adding declarations never changes the scope tree's shape, across any number of additions |
| Scopes.SameShapeWellFormed | src/scope.ts:162-174 | a scope tree with the same shape as a well-formed one is well-formed |
| Scopes.Register | src/scope.ts:182-185 | registering bindings adds exactly their names |
| Scopes.RegisterKeepsLastBinding | src/scope.ts:182-185 | when a name is bound twice, the later binding wins |
| Scopes.RegisterLeavesOthers | src/scope.ts:182-185 | names that are not rebound keep their reference |
| Scopes.Target | src/scope.ts:176-181 | a declaration lands in the scope itself or an enclosing one |
| Scopes.Add | src/scope.ts:176-187 | adding touches only the target scope, keeps the tree's shape, and registers the declaration's bindings there |
| Scopes.Chain | src/scope.ts:189-191 | the lookup chain starts at the scope and never goes below it |
| Scopes.ChainDescends | src/scope.ts:189-191 | the lookup chain climbs strictly outwards, so it visits no scope twice |
| Scopes.TargetIsNearestNonBlock | src/scope.ts:176-181 | a non-block declaration lands in the nearest enclosing non-block scope, and is dropped when there is none |
| Scopes.GetFindsInnermost | src/scope.ts:189-191 | lookup returns the reference held by the innermost scope that binds the name |
| Scopes.GetFailsWhenUnbound | src/scope.ts:189-191 | lookup fails exactly when no scope on the chain binds the name |
| ScopeWalk.GrownTransitive | src/scope.ts:201-277 | scope trees only grow during the walk |
| ScopeWalk.TargetOfSameShape | src/scope.ts:176-181 | the target of a declaration depends only on the tree's shape |
| ScopeWalk.AddRegisters | src/scope.ts:182-185 | after an add, the target scope binds every name the declaration resolves to |
| ScopeWalk.AddGrows | src/scope.ts:176-187 | an add grows the tree, and a declaration with no target changes nothing |
| ScopeWalk.AddAll | src/scope.ts:214-217 | adding a list of declarators grows the tree and changes nothing when there is no target |
| ScopeWalk.Declare | src/scope.ts:205-220 | a variable declaration adds each declarator, with `var` in function scope and `let` and `const` in block scope; imports, functions and classes add themselves; other nodes add nothing |
| ScopeWalk.Push | src/scope.ts:221-271 | functions, loops, catch clauses and non-function-body blocks open a new child scope; other nodes keep the current one |
| ScopeWalk.Enter | src/scope.ts:202-272 | entering a node records its scope and opens a scope exactly when required |
| ScopeWalk.Leave | src/scope.ts:273-277 | leaving the owner of the current scope returns to its parent, and leaving any other node stays |
| ScopeWalk.Walk | src/scope.ts:201-278 | the walk assigns a scope to every node of the subtree and only grows the tree |
| ScopeWalk.WalkAll | src/scope.ts:201-278 | walking a list of siblings assigns a scope to every node in them |
| ScopeWalk.AnalyzeScopes | src/scope.ts:195-280 | every node of the tree gets a scope, and the root scope is a parentless function scope owned by the root |
| ScopeWalk.WalkBalanced | src/scope.ts:273-277 | walking a subtree returns to the scope current before it |
| ScopeWalk.WalkAllBalanced | src/scope.ts:273-277 | walking a list of siblings returns to the scope current before it |
| ScopeWalk.VariableDeclarationRegisters | src/scope.ts:213-217 | `let` and `const` bind in the current block and `var` binds in the nearest function scope |
| ScopeWalk.FunctionEntry | src/scope.ts:224-234 | a function opens a non-block scope that binds its parameters |
| ScopeWalk.CatchParameterLandsOutside | src/scope.ts:255-264 | a catch parameter is added as a non-block declaration, so it is registered outside the catch scope |
| Aggregate.ConcatSlots | src/node.ts:386-388 | spreading an array adds its slots, and spreading anything else adds it as one element |
| Aggregate.BuildArray | src/node.ts:383-392 | building an array only appends to what is already built |
| Aggregate.BuildArrayAppend | src/node.ts:383-392 | building from joined element lists is building from the first and then the second |
| Aggregate.BuildArrayFrom | src/node.ts:383-392 | building onto a prefix is that prefix followed by building from scratch |
| Aggregate.UnknownSpreadVanishes | src/node.ts:385-388 | spreading the sentinel contributes nothing |
| Aggregate.ArrayWithoutSpreads | src/node.ts:376-392 | without spreads, the array has one slot per element, a hole for an elision and the value otherwise |
| Aggregate.AssignWrites | src/node.ts:613-624 | a member writes its key or its source's entries, and every other key keeps its value |
| Aggregate.UnwrittenNameKept | src/node.ts:613-624 | a key no member writes keeps its initial presence and value |
| Aggregate.LastWriteWins | src/node.ts:613-624 | a key holds the value of the last member that writes it |
| Aggregate.LastWriter | src/node.ts:613-624 | when some member writes a key, one of them is the last to do so |
| Aggregate.SpreadsMerge | src/node.ts:286-288 | merging chunks in order: a key is present exactly when some chunk other than the sentinel has it, and holds that key of the last such chunk |
| Aggregate.BuildObjectAppend | src/node.ts:613-624 | building from joined member lists is building from the first and then the second |
| Aggregate.InertMemberVanishes | src/node.ts:615-622 | a spread of the sentinel or a member with an unresolvable key contributes nothing |
| Aggregate.EntriesLastWins | src/node.ts:530-543 | in an object built from entries, a name holds the value of its last entry |
| Aggregate.EntriesOnlyTheirNames | src/node.ts:530-543 | an object built from entries has no key that is not one of their names |
| Aggregate.EnumStep | src/node.ts:331-337 | an enum member is keyed by its name and holds its initializer or the running counter |
| Aggregate.EnumCountsOn | src/node.ts:329-338 | members without initializers count up from the current value, with reverse keys from number to name |
| Aggregate.EnumCountsFromZero | src/node.ts:329-338 | an enum without initializers numbers its members 0, 1, 2 and so on |
| Aggregate.EnumInitializerRestarts | src/node.ts:332-338 | an initializer restarts the counter: its member maps to the value and back, and the following members count on from it, both ways round |
| Aggregate.EnumInitializedStep | src/node.ts:333-338 | a member initialized with n maps n to its name and its name to n, and the counter moves to n + 1 |
| Aggregate.IndexKeyKept | src/node.ts:332-339 | the reverse key and the name written by an initialized member survive the members that count on after it |
| Aggregate.EnumAfterUnknown | src/node.ts:333-338 | after an unknown initializer the counter is undefined, so the next member is written under the key "undefined" |
| Aggregate.TemplateFromStrings | src/node.ts:359-367 | with string interpolations, a template is its parts interleaved with those strings |
| Aggregate.TemplateOfStrings | src/node.ts:355-369 | with string interpolations, a template evaluates to the interleaving of its parts and those strings |
| Aggregate.TemplateRejectsUnknown | src/node.ts:362-363 | a sentinel interpolation makes the template throw |
| Evaluator.EvalNode | src/node.ts:40-52 | a memoised node returns its stored value unchanged, and a freshly evaluated node's value is stored under it |
| Evaluator.EvalAll | src/node.ts:284 | evaluating a list gives one value per node, each stored in the memo |
| Evaluator.Deep | src/node.ts:185-199 | a supplied module wins: its value is the definition, called first when it is a function, awaited and marked safe, and a throwing call throws; an unsupplied one is the deep evaluation when on and the sentinel when off |
| Evaluator.EvaluateReference | src/node.ts:200-231 | a supplied variable wins and is marked safe; an unbound name is a built-in global or the sentinel; a bound name without initialiser is the sentinel; otherwise the initialiser's value projected along the reference's path, and a throwing initialiser throws |
| Evaluator.Read | src/reflect.ts:28-30 | a gated read is the raw read and passes safety from target to result |
| Evaluator.EvaluateProperty | src/node.ts:253-276 | a static key reads that key; a private name is the sentinel; a computed key that throws throws, that is the sentinel gives the sentinel, and otherwise is turned into text and read, throwing when it has no text; for every kind of key, what a safe object yields is marked safe |
| Evaluator.EvalArgs | src/node.ts:239-242 | evaluating arguments gives one value per argument, and each expression argument's value is the one stored for its node |
| Evaluator.Emulate | src/node.ts:232-252 | an unsafe callee stands for its related value and nothing is evaluated; a safe callee is called (or constructed) as Objects.CallFunction and Objects.ConstructFunction state, with the evaluated receiver and arguments; a throwing receiver or argument throws, and the result is marked safe |
| Evaluator.ExportStatements | src/node.ts:278-283 | the export statements are exactly the body's statements of the four export kinds |
| Evaluator.FunctionValue | src/node.ts:569-590 | a function is a fresh stand-in object that returns its body, linked to its body, or to a promise linked to its body when async; the safe set and memo are unchanged |
| Evaluator.FirstExit | src/node.ts:442-445 | the first return or throw statement of a block, and none when there is none |
| Evaluator.EvalElements | src/node.ts:376-382 | an elision is a hole, a spread records its value, and any other element records its memoised value |
| Evaluator.StaticMembers | src/node.ts:471-473 | only static class methods and properties take part |
| Evaluator.EvalEnumMembers | src/node.ts:324-329 | one chunk per enum member, carrying the member's name and, exactly when it has an initializer, the initializer's stored value |
| Evaluator.Binary | src/node.ts:431-440 | an unsupported binary operator is the sentinel without evaluating its operands; a supported one evaluates both operands, throws when one throws, and is otherwise `CallBinary` of the operator and the two values, leaving the memo as the operands left it |
| Evaluator.Unary | src/node.ts:684-690 | an unsupported unary operator is the sentinel without evaluating its argument; a supported one throws when its argument throws and is otherwise `CallUnary` of the operator and the argument's stored value |
| Evaluator.ThisOf | src/node.ts:456-459 | a call receives a receiver exactly when its callee is a member expression |
| Evaluator.ReferenceAll | src/node.ts:513-516 | one value per exported name, each the value that name has at the statement: the supplied variable, a built-in global or the sentinel when unbound, the sentinel without an initialiser, and otherwise the initialiser's stored value projected along its path over the heap that name's read saw (`Evaluator.ReadHeaps`: the heap its initialiser's evaluation leaves, from the state the earlier names' reads leave) |
| Evaluator.ReExported | src/node.ts:529-543 | a namespace specifier gives the module, a default specifier its `default` property and a named one the property of its local name; reading from a nullish module throws exactly when some specifier is not a namespace specifier |
| Evaluator.EvalSpecifiers | src/node.ts:545-557 | a plain specifier gives the stored value of its local, and a namespace or default specifier the sentinel |
| Evaluator.ParseportNode | src/node.ts:16-20 | evaluating a module only adds to the safe set and the related map, and stores the root's value |
| WellFormed.ParseportNodeKeepsValid | src/node.ts:16-20 | under a lawful host, a run from a valid state ends in a valid state: the heap only grows, every handle in it, the memo, the safe set and the related map names an object, and so does the result |
| WellFormed.EvalNodeKeepsValid | src/node.ts:40-52 | evaluating any node keeps the state valid and yields a value that names an object of the heap |
| WellFormed.AnalyzeKeepsValid | src/node.ts:374-693 | every node kind the evaluator dispatches on keeps the state valid |
| WellFormed.EmulateKeepsValid | src/node.ts:232-252 | an emulated call keeps the state valid, whichever callee it invokes |
| WellFormed.DeepKeepsValid | src/node.ts:185-199 | reading a supplied or deeply evaluated module keeps the state valid |
| WellFormed.FreshHandleIsUnmarked | src/reflect.ts:7 | in a valid state the next new object is neither marked safe nor linked, as a new object is absent from the weak set and the weak map |
| WellFormed.EvaluatedFunctionCallIsBody | src/node.ts:569-590 | a function node evaluated from a valid state is never run when called or constructed: the call is its body's value |
| WellFormed.EvaluatedAsyncCallAwaitsBody | src/node.ts:574-582 | calling an async function node evaluated from a valid state gives a promise whose related value is its body's value |
| EvaluatorLaws.EvaluatedOnce | src/node.ts:46-51 | re-evaluating a node returns its first value with no further effect, whatever the fuel |
| EvaluatorLaws.EvalAllMemoised | src/node.ts:46-48 | a list of memoised nodes evaluates to their stored values with no effect |
| EvaluatorLaws.PlainAssignmentIsRightHandSide | src/node.ts:405-407 | a plain assignment is its right-hand side |
| EvaluatorLaws.CompoundAssignmentIsBinary | src/node.ts:408-414 | a compound assignment evaluates as the binary operation of its plain operator |
| EvaluatorLaws.CompoundOperationIsPlain | src/node.ts:408-414 | a compound operator behaves as its plain operator |
| EvaluatorLaws.UnsupportedBinaryIsUnknown | src/node.ts:433-434 | an unsupported binary or logical operator is the sentinel with no effect |
| EvaluatorLaws.UnsupportedUnaryIsUnknown | src/node.ts:686-687 | an unsupported unary operator is the sentinel with no effect |
| EvaluatorLaws.UnknownOperandAbsorbs | src/node.ts:435-439 | a sentinel left operand makes the binary operation the sentinel |
| EvaluatorLaws.UnknownArgumentAbsorbs | src/node.ts:688-689 | a sentinel argument makes the unary operation the sentinel |
| EvaluatorLaws.LogicalExpressionPicksAnOperand | src/node.ts:431-440 | an evaluated `a \|\| b`, `a && b` or `a ?? b` never throws once its operands are evaluated, and is one of their stored values (the sentinel when either is); `??` keeps a non-nullish left operand |
| EvaluatorLaws.StrictInequalityIsNegatedEquality | src/node.ts:431-440 | `a !== b` and `a === b` over the same operands and state both throw or both complete, and are the sentinel together or each other's boolean negation |
| EvaluatorLaws.DoubleNegationIsTruthiness | src/node.ts:684-690 | an evaluated `!!e` throws when `e` throws, and is otherwise the truthiness of the value of `e`, or the sentinel |
| EvaluatorLaws.ConditionalPicksOneBranch | src/node.ts:493-497 | a sentinel test gives the sentinel, and otherwise the truthiness of the test selects the branch |
| EvaluatorLaws.SequenceIsLastExpression | src/node.ts:656-659 | a sequence is its last expression, and an empty one is the sentinel |
| EvaluatorLaws.FirstExitIsEarliest | src/node.ts:442-445 | the first exit is the earliest return or throw statement |
| EvaluatorLaws.BlockReturnsFirstExit | src/node.ts:441-448 | a block whose first exit is a return evaluates that return, and one whose first exit is a throw is the sentinel |
| EvaluatorLaws.BlockWithoutExitIsUnknown | src/node.ts:446 | a block with no return or throw is the sentinel with no effect |
| EvaluatorLaws.VariablesComeFirst | src/node.ts:201-205 | a supplied variable is the identifier's value and is marked safe |
| EvaluatorLaws.UndeclaredNameIsGlobalOrUnknown | src/node.ts:208-217 | an unbound identifier is a built-in global or the sentinel |
| EvaluatorLaws.DeclaredNameFollowsInitializer | src/node.ts:218-230 | a bound identifier is its initialiser projected along its path |
| EvaluatorLaws.UnsafeFunctionCallIsBody | src/node.ts:581-588 | calling a source function that is not marked safe gives its body's value |
| EvaluatorLaws.UnsafeAsyncCallAwaitsBody | src/node.ts:574-580 | calling an async source function gives a promise whose awaited value is its body's value |
| EvaluatorLaws.SafeStandInCallIsBody | src/node.ts:577-588 | a stand-in that became safe and is called gives its body's value, or a new promise settling where its body does when async, marked safe |
| EvaluatorLaws.SafeStandInConstruct | src/node.ts:583-588 | `new` of a safe stand-in throws when it is arrow or async, and otherwise gives its body when that is an object or a new empty object |
| EvaluatorLaws.StandInAgreesWithItsLink | src/node.ts:574-589 | calling a stand-in and following its related link agree: the body itself, or a promise settling where the linked promise leads |
| EvaluatorLaws.CallIsGated | src/node.ts:460-466 | calling something that is not a function is the sentinel, an unsafe function gives its related value, and a safe function's result is marked safe |
| EvaluatorLaws.SafeCallInvokesTheCallee | src/node.ts:238-247 | a safe callee is called with the callee's object (or undefined) as receiver and the arguments' values in order; a throwing receiver or argument makes the call throw |
| EvaluatorLaws.NewIsGated | src/node.ts:599-605 | `new` of a non-function is the sentinel, of an unsafe function its related value, and of a safe one the host's construction with the arguments' values |
| EvaluatorLaws.TaggedTemplateIsGated | src/node.ts:449-466 | a tagged template of a non-function is the sentinel, and otherwise an emulated call with the quasis array followed by the expressions |
| EvaluatorLaws.ShallowDynamicImportIsUnknown | src/node.ts:451-458 | without deep evaluation, a dynamic import is a promise of the sentinel |
| EvaluatorLaws.AwaitLaws | src/node.ts:416-430 | awaiting the sentinel gives the sentinel, a thenable gives its related value, and anything else is itself |
| EvaluatorLaws.NullishMemberAccess | src/node.ts:594-598 | a member of null or undefined throws, for a static key and for a computed key other than the sentinel; the optional form gives undefined |
| EvaluatorLaws.MemberOfNullish | src/node.ts:594-598 | reading any member of a nullish object follows the same cases, for every kind of key |
| EvaluatorLaws.UnknownHasUnknownMembers | src/node.ts:596 | every member of the sentinel is the sentinel |
| EvaluatorLaws.OptionalCallOnNullish | src/node.ts:632-642 | an optional call of null or undefined gives undefined |
| EvaluatorLaws.ObjectLiteralLastWriteWins | src/node.ts:606-627 | in an object literal, a key holds the value of the last property that writes it |
| EvaluatorLaws.ArrayLiteralKeepsHoles | src/node.ts:375-394 | an array literal without spreads keeps one slot per element, with holes for elisions |
| EvaluatorLaws.ExportStatementsIdempotent | src/node.ts:278-283 | filtering the export statements twice is filtering them once |
| EvaluatorLaws.ExportStatementsAppend | src/node.ts:278-283 | filtering distributes over joined bodies |
| EvaluatorLaws.NothingToExport | src/node.ts:278-283 | a body with no export statement yields none |
| EvaluatorLaws.NonExportsAreIgnored | src/node.ts:277-290 | only the export statements of a body affect its exports |
| EvaluatorLaws.ExportsMergeInOrder | src/node.ts:277-289 | a module's value is a fresh object merging its export statements' values in order: a name is exported exactly when a non-sentinel value has it, holding the last such value's entry |
| EvaluatorLaws.NoExportsIsEmptyObject | src/node.ts:649-651 | a program with no exports evaluates to a fresh empty object |
| EvaluatorLaws.SuppliedModuleWins | src/node.ts:186-193 | an import from a supplied module gives that module marked safe: the definition awaited, or the awaited result of calling it when it is a function |
| EvaluatorLaws.DefaultExportRecord | src/node.ts:504-509 | a default export is an object whose only key is "default", holding the declaration's value |
| EvaluatorLaws.RecordShape | src/node.ts:530-543 | an object built from entries is a fresh plain object whose keys are the entry names, each holding its last value |
| EvaluatorLaws.LocalSpecifiersExportTheirLocals | src/node.ts:545-560 | `export {a as b}` is a fresh object whose `b` is the value of `a`, the sentinel for other specifiers, with no other keys |
| EvaluatorLaws.ShallowReExport | src/node.ts:528-543 | a shallow re-export reads from the sentinel: a namespace specifier is the sentinel and the others are undefined, except a named `description` |
| EvaluatorLaws.ReExportReadsTheModule | src/node.ts:528-543 | `export {a as b} from 'm'` is a fresh object whose `b` is the module for a namespace specifier and the module's property otherwise, and a nullish module throws |
| EvaluatorLaws.DestructuredExportIsProjection | src/node.ts:511-518 | `export const {a} = e`: the exported `a` is the value of `e` projected along the binding's steps over the heap the evaluation of `e` leaves |
| EvaluatorLaws.ExportedVariablesAreReferences | src/node.ts:511-521 | `export const x = e` is a fresh object whose key x holds the value x has at the statement: supplied, global or sentinel when unbound, and the initialiser's value projected over the heap its read saw when bound |
| EvaluatorLaws.ExportedDeclarationUnderItsName | src/node.ts:522-526 | an exported function or class is an object holding its value under its name, and an empty object when it has no name |
| EvaluatorLaws.ClassStaticLastWriteWins | src/node.ts:469-486 | a class is a fresh function object whose key holds the value of the last static member with that key |
| EvaluatorLaws.EnumDeclarationIsItsRecord | src/node.ts:323-341 | an enum declaration is a fresh object holding the enum record of its members, and throws when a member or the record throws |
| EvaluatorLaws.TemplateLiteralIsItsText | src/node.ts:355-369 | a template literal is the text of its quasis interleaved with its expressions' texts, and throws when one has no text |

## Left out

- The parser, the public `parseport` entry point, file reading and the `code.ts` and `file.ts` wrappers are not part of this model. The caller supplies the syntax tree.
- Deep evaluation of another module is a host function (`Host.deep`). It returns the module's value and what it added to the safe set and the related map.
- Calling and constructing host functions, `String(object)`, and operator cases outside integers, booleans and strict equality are host functions too. These cover string and floating-point arithmetic, string comparison, `in`, `instanceof`, shifts and exponentiation. The model computes only `+ - *` on integers, `/` and `%` when exact, and integer comparisons.
- Numbers are integers. Fractional values, NaN, the infinities and negative zero are not modelled.
- Concurrency: `Promise.all` is evaluated left to right. The first exception ends the whole evaluation, where the original rejects the `Promise.all`.
- Stack depth: the evaluation carries fuel. Running out of fuel stands for the `RangeError` a self-referential initialiser such as `const a = a` raises in the original.
- Prototype members are not modelled: reading a property that is not an own property gives undefined.
- A class body is a fresh function object with its statics written as own properties. Statics named `prototype`, `name` or `length`, which would hit read-only properties, are not modelled. Neither is the `__proto__` setter of object literals.
- Generator functions are evaluated as plain functions, as in the code. JSX nodes, TypeScript declarations outside the handled ones (`TSOther`) and every node kind outside the evaluator's switch are the sentinel. TypeScript and Flow expression wrappers are one kind, `TSExpression`, that evaluates its inner expression.
- An enum member whose initializer is the sentinel writes `value[PARSEPORT_UNKNOWN] = name` in the original, a symbol key. The model leaves that key out, since no string lookup can see it. The member's own name maps to the sentinel, and the counter becomes `undefined`, so the next member without an initializer is written under the key "undefined" (Aggregate.EnumAfterUnknown).
- Resolving a name stops at the root scope. The walk does not model `leave` at the root, which would step to a missing parent.
- Identifier resolution follows the code: caller-supplied `variables` come first, then the scope chain, then built-in globals. The options type documents this field as `context`, but the code reads `variables`, and the model follows the code.
- Built-in globals are returned unmarked, as in the code. A global function is therefore never invoked, only its related value is used.
- A default import reads the imported module's `default` property (src/scope.ts:106-112). For `import interop from 'bar'` with `bar` supplied as `{named: 3}`, that is undefined. tests/parseport.test.ts:433-470 expects `interop` to be `{named: 3}`, an interop default the code does not perform. The model follows the code.
- Membership in `variables`, `modules` and the built-in globals (src/node.ts:186, 201, 209) uses the JavaScript `in` operator, which also sees inherited keys: an unbound `toString` resolves through `Object.prototype` in the original. The model uses map membership, so only the keys the caller supplied count.
- The stand-in function objects (src/node.ts:577-588) have own `name`, `length` and `prototype` properties in the original. The model's stand-ins have no own properties, so reading any of the three gives undefined.
- Objects.Settle, the value an `await` inside the engine settles on (a supplied module at src/node.ts:189-191, and the promise an async stand-in returns), follows only the model's promise objects. A thenable that is not a promise settles on itself here, where the original would call its `then`.
- The scope walk does not register `TSEnumDeclaration`. A name declared by an enum is therefore resolved outside the module, as in the code, although tests/parseport.test.ts:85-101 expects the enum's record.
- `%` is evaluated as division, following node.ts:108-110.
- A catch parameter is added as a non-block declaration from inside the catch scope, so it is registered in the nearest enclosing function scope. A function expression's name is registered in the scope around it. Arrow functions and object and class methods open no function scope of their own. All of this follows the code.
- `export *` re-exports every key of the imported module, including `default`. A shallow re-export with `from` reads its specifiers from the sentinel: a namespace specifier is the sentinel, a default or named specifier is undefined, and a specifier named `description` is the sentinel's description (EvaluatorLaws.ShallowReExport).
- The pipeline operator calls its right operand without consulting the safe set, as in the code.
- `TSExportAssignment` counts as an export statement but evaluates to the sentinel, so it contributes nothing.
- Numbers are exact integers. The original's numbers are doubles, which lose precision above 2^53, so enum counters, `+ - *` and `++` on large values are exact here where the original rounds.
- Objects are maps from keys to values, so the insertion order of their properties is not modelled. The order in which `Object.keys` or a spread would list an object's properties is therefore not stated.
- Scopes.ResolveChildReferences, Scopes.ArrayElementReferences and Scopes.ObjectPropertyReferences: their own contracts state only that every binding starts from the pattern's initialiser and extends its path. The projection step each element or property adds is stated by ArrayElementProjection, ObjectPropertyProjection and ObjectRestProjection and their identifier corollaries.
- Evaluator.Grows: the evaluator's own contracts state only that the memo, the safe set and the related map grow. That the heap only grows and that no handle dangles is stated separately by WellFormed.Valid and the WellFormed lemmas, because it needs two hypotheses the evaluator itself does not check.
- Host lawfulness (Hosting.Lawful) is a hypothesis: a host call, construction, operator case or deep import never frees an object and returns and stores only handles of the heap. A JavaScript engine gives this for free. The starting options, safe set and related map must also name only objects of the starting heap. The freshness of a newly created function object (WellFormed.FreshHandleIsUnmarked) is proved under these two hypotheses only.
- Evaluator.Exports, Evaluator.ArrayValue, Evaluator.ObjectValue, Evaluator.ClassValue, Evaluator.EnumValue, Evaluator.TemplateValue, Evaluator.Call, Evaluator.OptionalCall, Evaluator.New, Evaluator.Tagged, Evaluator.MemberAccess, Evaluator.Await, Evaluator.Conditional, Evaluator.Record, Evaluator.ExportNamed, Evaluator.FunctionNode, Evaluator.DefaultExport, Evaluator.UnfollowedImport and Evaluator.Analyze: their own contracts state only state growth. What they compute is stated by lemmas about the node kinds that reach them:
  - Exports: ExportsMergeInOrder, NonExportsAreIgnored and NoExportsIsEmptyObject.
  - ArrayValue and ObjectValue: ArrayLiteralKeepsHoles and ObjectLiteralLastWriteWins.
  - ClassValue: ClassStaticLastWriteWins.
  - EnumValue: EnumDeclarationIsItsRecord, with the Aggregate enum lemmas.
  - TemplateValue: TemplateLiteralIsItsText, with the Aggregate template lemmas.
  - Call, New and Tagged: CallIsGated, SafeCallInvokesTheCallee, NewIsGated, TaggedTemplateIsGated and ShallowDynamicImportIsUnknown.
  - OptionalCall: OptionalCallOnNullish only. A non-nullish optional call has no law of its own.
  - MemberAccess: NullishMemberAccess, MemberOfNullish and UnknownHasUnknownMembers. A read of any other object goes through Evaluator.EvaluateProperty, whose contract states every key kind, and Evaluator.Read. Both state the safety passed on, for every kind of key.
  - Await and Conditional: AwaitLaws and ConditionalPicksOneBranch.
  - Record and ExportNamed: RecordShape, LocalSpecifiersExportTheirLocals, ReExportReadsTheModule, ShallowReExport, ExportedVariablesAreReferences, DestructuredExportIsProjection and ExportedDeclarationUnderItsName.
  - FunctionNode: Evaluator.FunctionValue, UnsafeFunctionCallIsBody, UnsafeAsyncCallAwaitsBody, WellFormed.EvaluatedFunctionCallIsBody and WellFormed.EvaluatedAsyncCallAwaitsBody.
  - DefaultExport: DefaultExportRecord.
  - UnfollowedImport: ShallowDynamicImportIsUnknown.
  - Analyze: the dispatch lemmas of EvaluatorLaws.

=== FILE: aggregate.dfy ===
/**
 * The folds the evaluator uses to assemble composite values once the parts are evaluated:
 * array literals (`concat` per element), object literals, class statics and module exports
 * (keyed writes and spreads, later writes winning), enums (a running counter), and template
 * literals (left-to-right string concatenation).
 */
module Aggregate {
  import opened Optional
  import opened Numerals
  import opened Values
  import opened Objects
  import opened Hosting
  import opened Syntax

  // ---------------------------------------------------------------------------------------
  // Array literals

  /** One element of an array literal after evaluation: a hole, a spread, or a plain value. */
  datatype Element = Gap | Spread(v: Val) | Single(v: Val)

  /** What `concat(v)` appends: an array's slots, holes included, or `v` itself as one item. */
  function ConcatSlots(heap: Heap, v: Val): (r: seq<Slot>)
    ensures ObjAt(heap, v).Some? && ObjAt(heap, v).value.ArrayObj? ==> r == heap[v.h].slots
    ensures !(ObjAt(heap, v).Some? && ObjAt(heap, v).value.ArrayObj?) ==> r == [Item(v)]
  {
    match ObjAt(heap, v)
    case Some(ArrayObj(slots)) => slots
    case _ => [Item(v)]
  }

  /**
   * The slots one element contributes: a hole is spread as a one-hole array, a spread of the
   * sentinel contributes nothing, any other spread is concatenated, a plain value is pushed.
   */
  function ElementSlots(heap: Heap, e: Element): seq<Slot> {
    match e
    case Gap => [Hole]
    case Spread(v) => if v == Unknown then [] else ConcatSlots(heap, v)
    case Single(v) => [Item(v)]
  }

  /** The literal's loop: the slots so far, extended element by element. */
  function BuildArray(heap: Heap, acc: seq<Slot>, es: seq<Element>): (r: seq<Slot>)
    ensures acc <= r
    decreases |es|
  {
    if |es| == 0 then acc
    else BuildArray(heap, acc + ElementSlots(heap, es[0]), es[1..])
  }

  /** Building from `a + b` is building from `a`, then from `b` starting where `a` ended. */
  lemma {:induction false} BuildArrayAppend(heap: Heap, acc: seq<Slot>, a: seq<Element>, b: seq<Element>)
    ensures BuildArray(heap, acc, a + b) == BuildArray(heap, BuildArray(heap, acc, a), b)
    decreases |a|
  {
    if |a| == 0 {
      assert a + b == b;
    } else {
      assert (a + b)[0] == a[0];
      assert (a + b)[1..] == a[1..] + b;
      BuildArrayAppend(heap, acc + ElementSlots(heap, a[0]), a[1..], b);
    }
  }

  /** The fold keeps what it started with and appends each element's contribution. */
  lemma {:induction false} BuildArrayFrom(heap: Heap, acc: seq<Slot>, es: seq<Element>)
    ensures BuildArray(heap, acc, es) == acc + BuildArray(heap, [], es)
    decreases |es|
  {
    if |es| > 0 {
      var first := ElementSlots(heap, es[0]);
      var rest := BuildArray(heap, [], es[1..]);
      BuildArrayFrom(heap, acc + first, es[1..]);
      BuildArrayFrom(heap, first, es[1..]);
      assert [] + first == first;
      assert BuildArray(heap, [], es) == first + rest;
      assert BuildArray(heap, acc, es) == (acc + first) + rest;
      assert (acc + first) + rest == acc + (first + rest);
    }
  }

  /** A spread of the sentinel contributes nothing wherever it stands. */
  lemma UnknownSpreadVanishes(heap: Heap, a: seq<Element>, b: seq<Element>)
    ensures BuildArray(heap, [], a + [Spread(Unknown)] + b) == BuildArray(heap, [], a + b)
  {
    BuildArrayAppend(heap, [], a + [Spread(Unknown)], b);
    BuildArrayAppend(heap, [], a, [Spread(Unknown)]);
    BuildArrayAppend(heap, [], a, b);
    var x := BuildArray(heap, [], a);
    assert [Spread(Unknown)][1..] == [];
    assert ElementSlots(heap, Spread(Unknown)) == [];
    assert BuildArray(heap, x, [Spread(Unknown)]) == BuildArray(heap, x + [], []);
    assert x + [] == x;
  }

  /** Without spreads every element takes exactly one slot: holes stay holes, in order. */
  lemma {:induction false} ArrayWithoutSpreads(heap: Heap, es: seq<Element>)
    requires forall i :: 0 <= i < |es| ==> !es[i].Spread?
    ensures |BuildArray(heap, [], es)| == |es|
    ensures forall i :: 0 <= i < |es| ==>
      BuildArray(heap, [], es)[i] == (if es[i].Gap? then Hole else Item(es[i].v))
    decreases |es|
  {
    if |es| > 0 {
      var last := es[|es| - 1];
      var init := es[..|es| - 1];
      assert es == init + [last];
      ArrayWithoutSpreads(heap, init);
      BuildArrayAppend(heap, [], init, [last]);
      assert [last][1..] == [];
      BuildArrayFrom(heap, BuildArray(heap, [], init), [last]);
    }
  }

  // ---------------------------------------------------------------------------------------
  // Object literals, class statics, exports and `Object.fromEntries`

  /** One member after evaluation: a spread, or a write under a key that may not resolve. */
  datatype Member = SpreadMember(v: Val) | KeyedMember(key: Option<ObjKey>, v: Val)

  /** A keyed write under a plain name, as `Object.fromEntries` and computed exports make. */
  function Entry(name: string, v: Val): Member {
    KeyedMember(Some(StrKey(name)), v)
  }

  /**
   * One member applied: a spread copies the source's own entries (`Object.assign`, or `...` in
   * a literal) unless it is the sentinel; a resolved key writes; an unresolved key is dropped.
   */
  function Assign(heap: Heap, m: map<string, Val>, member: Member): map<string, Val> {
    match member
    case SpreadMember(v) => if v == Unknown then m else m + AssignSource(heap, v)
    case KeyedMember(key, v) =>
      match key
      case Some(k) => m[KeyText(k) := v]
      case None => m
  }

  /** The member writes the property named `t`. */
  predicate Writes(heap: Heap, member: Member, t: string) {
    match member
    case SpreadMember(v) => v != Unknown && t in AssignSource(heap, v)
    case KeyedMember(key, _) => key.Some? && KeyText(key.value) == t
  }

  /** The value the member writes under `t`. */
  function Written(heap: Heap, member: Member, t: string): Val
    requires Writes(heap, member, t)
  {
    match member
    case SpreadMember(v) => AssignSource(heap, v)[t]
    case KeyedMember(_, v) => v
  }

  function BuildObject(heap: Heap, m: map<string, Val>, ms: seq<Member>): map<string, Val>
    decreases |ms|
  {
    if |ms| == 0 then m
    else BuildObject(heap, Assign(heap, m, ms[0]), ms[1..])
  }

  /** One member changes exactly the names it writes, to what it writes. */
  lemma AssignWrites(heap: Heap, m: map<string, Val>, member: Member, t: string)
    ensures Writes(heap, member, t) ==> t in Assign(heap, m, member) && Assign(heap, m, member)[t] == Written(heap, member, t)
    ensures !Writes(heap, member, t) ==> (t in Assign(heap, m, member) <==> t in m)
    ensures !Writes(heap, member, t) && t in m ==> Assign(heap, m, member)[t] == m[t]
  {
  }

  /** A name no member writes is left as it was before the fold. */
  lemma {:induction false} UnwrittenNameKept(heap: Heap, m: map<string, Val>, ms: seq<Member>, t: string)
    requires forall j :: 0 <= j < |ms| ==> !Writes(heap, ms[j], t)
    ensures t in BuildObject(heap, m, ms) <==> t in m
    ensures t in m ==> BuildObject(heap, m, ms)[t] == m[t]
    decreases |ms|
  {
    if |ms| > 0 {
      AssignWrites(heap, m, ms[0], t);
      assert forall j :: 0 <= j < |ms[1..]| ==> ms[1..][j] == ms[j + 1];
      UnwrittenNameKept(heap, Assign(heap, m, ms[0]), ms[1..], t);
    }
  }

  /** The property named `t` holds what the last member writing it wrote. */
  lemma {:induction false} LastWriteWins(heap: Heap, m: map<string, Val>, ms: seq<Member>, i: nat, t: string)
    requires i < |ms| && Writes(heap, ms[i], t)
    requires forall j :: i < j < |ms| ==> !Writes(heap, ms[j], t)
    ensures t in BuildObject(heap, m, ms) && BuildObject(heap, m, ms)[t] == Written(heap, ms[i], t)
    decreases |ms|
  {
    var next := Assign(heap, m, ms[0]);
    AssignWrites(heap, m, ms[0], t);
    assert forall j :: 0 <= j < |ms[1..]| ==> ms[1..][j] == ms[j + 1];
    if i > 0 {
      LastWriteWins(heap, next, ms[1..], i - 1, t);
    } else {
      UnwrittenNameKept(heap, next, ms[1..], t);
    }
  }

  /** Folding `a + b` is folding `a`, then `b` from where `a` left off. */
  lemma {:induction false} BuildObjectAppend(heap: Heap, m: map<string, Val>, a: seq<Member>, b: seq<Member>)
    ensures BuildObject(heap, m, a + b) == BuildObject(heap, BuildObject(heap, m, a), b)
    decreases |a|
  {
    if |a| == 0 {
      assert a + b == b;
    } else {
      assert (a + b)[0] == a[0];
      assert (a + b)[1..] == a[1..] + b;
      BuildObjectAppend(heap, Assign(heap, m, a[0]), a[1..], b);
    }
  }

  /** A member whose key does not resolve, or a spread of the sentinel, changes nothing. */
  lemma InertMemberVanishes(heap: Heap, m: map<string, Val>, a: seq<Member>, member: Member, b: seq<Member>)
    requires member == SpreadMember(Unknown) || (member.KeyedMember? && member.key.None?)
    ensures BuildObject(heap, m, a + [member] + b) == BuildObject(heap, m, a + b)
  {
    BuildObjectAppend(heap, m, a + [member], b);
    BuildObjectAppend(heap, m, a, [member]);
    BuildObjectAppend(heap, m, a, b);
    assert [member][1..] == [];
  }

  /** `Object.fromEntries` over name and value pairs: later pairs overwrite earlier ones. */
  function FromEntries(names: seq<string>, vals: seq<Val>): (r: seq<Member>)
    requires |names| == |vals|
    ensures |r| == |names| && forall i :: 0 <= i < |r| ==> r[i] == Entry(names[i], vals[i])
  {
    seq(|names|, i requires 0 <= i < |names| => Entry(names[i], vals[i]))
  }

  /** In a record from entries, a name holds the value of its last entry. */
  lemma EntriesLastWins(heap: Heap, names: seq<string>, vals: seq<Val>, i: nat)
    requires |names| == |vals| && i < |names|
    requires forall j :: i < j < |names| ==> names[j] != names[i]
    ensures var m := BuildObject(heap, map[], FromEntries(names, vals));
      names[i] in m && m[names[i]] == vals[i]
  {
    LastWriteWins(heap, map[], FromEntries(names, vals), i, names[i]);
  }

  /** A record from entries has no property other than the entries' names. */
  lemma EntriesOnlyTheirNames(heap: Heap, names: seq<string>, vals: seq<Val>, t: string)
    requires |names| == |vals| && t !in names
    ensures t !in BuildObject(heap, map[], FromEntries(names, vals))
  {
    var ms := FromEntries(names, vals);
    assert forall j :: 0 <= j < |ms| ==> !Writes(heap, ms[j], t) by {
      forall j | 0 <= j < |ms| ensures !Writes(heap, ms[j], t) {
        assert names[j] in names;
      }
    }
    UnwrittenNameKept(heap, map[], ms, t);
  }

  /** Chunks merged with `{...exports, ...chunk}`: each one spread in order. */
  function Spreads(vals: seq<Val>): (r: seq<Member>)
    ensures |r| == |vals| && forall i :: 0 <= i < |r| ==> r[i] == SpreadMember(vals[i])
  {
    seq(|vals|, i requires 0 <= i < |vals| => SpreadMember(vals[i]))
  }

  /** When some flag is set, one of them is the last set. */
  lemma {:induction false} LastSet(bs: seq<bool>) returns (i: nat)
    requires exists j :: 0 <= j < |bs| && bs[j]
    ensures i < |bs| && bs[i]
    ensures forall j :: i < j < |bs| ==> !bs[j]
    decreases |bs|
  {
    var last := |bs| - 1;
    if bs[last] {
      i := last;
    } else {
      var init := bs[..last];
      assert exists j :: 0 <= j < |init| && init[j] by {
        var j :| 0 <= j < |bs| && bs[j];
        assert j < last && init[j] == bs[j];
      }
      i := LastSet(init);
      assert init[i] == bs[i];
    }
  }

  /** When some member writes `t`, one of them is the last to do so. */
  lemma LastWriter(heap: Heap, ms: seq<Member>, t: string) returns (i: nat)
    requires exists j :: 0 <= j < |ms| && Writes(heap, ms[j], t)
    ensures i < |ms| && Writes(heap, ms[i], t)
    ensures forall j :: i < j < |ms| ==> !Writes(heap, ms[j], t)
  {
    var bs := seq(|ms|, j requires 0 <= j < |ms| => Writes(heap, ms[j], t));
    var w :| 0 <= w < |ms| && Writes(heap, ms[w], t);
    assert bs[w];
    i := LastSet(bs);
    assert forall j :: i < j < |ms| ==> bs[j] == Writes(heap, ms[j], t);
  }

  /**
   * Chunks merged in order, `{...exports, ...chunk}`: a name is present exactly when some chunk
   * other than the sentinel has it, and it holds the value of the last such chunk.
   */
  lemma SpreadsMerge(heap: Heap, vs: seq<Val>, t: string, i: nat)
    ensures var m := BuildObject(heap, map[], Spreads(vs));
      && (t in m <==> exists j :: 0 <= j < |vs| && vs[j] != Unknown && t in AssignSource(heap, vs[j]))
      && (i < |vs| && vs[i] != Unknown && t in AssignSource(heap, vs[i])
          && (forall j :: i < j < |vs| ==> vs[j] == Unknown || t !in AssignSource(heap, vs[j])) ==>
            t in m && m[t] == AssignSource(heap, vs[i])[t])
  {
    var ms := Spreads(vs);
    if exists j :: 0 <= j < |ms| && Writes(heap, ms[j], t) {
      var last := LastWriter(heap, ms, t);
      LastWriteWins(heap, map[], ms, last, t);
    } else {
      UnwrittenNameKept(heap, map[], ms, t);
    }
    if i < |vs| && vs[i] != Unknown && t in AssignSource(heap, vs[i])
       && (forall j :: i < j < |vs| ==> vs[j] == Unknown || t !in AssignSource(heap, vs[j])) {
      LastWriteWins(heap, map[], ms, i, t);
    }
  }

  // ---------------------------------------------------------------------------------------
  // Enums

  /** One member after evaluation: its initializer's value if it has one, and its name. */
  datatype EnumChunk = EnumChunk(init: Option<Val>, name: string)

  /** The record so far and the running counter. */
  datatype EnumState = EnumState(m: map<string, Val>, current: Val)

  /**
   * One member: an initializer replaces the counter; the counter's text maps to the name (the
   * sentinel becomes a symbol key, which no string lookup sees; an object whose text cannot be
   * taken throws); the name maps to the counter; a number counts on, anything else becomes
   * `undefined`.
   */
  function EnumStep(host: Host, heap: Heap, s: EnumState, ch: EnumChunk): (r: Option<EnumState>)
    ensures r.Some? ==> ch.name in r.value.m && r.value.m[ch.name] == (if ch.init.Some? then ch.init.value else s.current)
  {
    var cur := if ch.init.Some? then ch.init.value else s.current;
    var next := if cur.Num? then Num(cur.n + 1) else Undefined;
    if cur == Unknown then Some(EnumState(s.m[ch.name := cur], next))
    else
      match ToText(host, heap, cur)
      case None => None
      case Some(t) => Some(EnumState(s.m[t := Str(ch.name)][ch.name := cur], next))
  }

  function EnumFold(host: Host, heap: Heap, s: EnumState, chunks: seq<EnumChunk>): Option<EnumState>
    decreases |chunks|
  {
    if |chunks| == 0 then Some(s)
    else
      match EnumStep(host, heap, s, chunks[0])
      case None => None
      case Some(next) => EnumFold(host, heap, next, chunks[1..])
  }

  /** The enum's record: the fold from an empty record and a counter at 0. */
  function EnumRecord(host: Host, heap: Heap, chunks: seq<EnumChunk>): Option<map<string, Val>> {
    match EnumFold(host, heap, EnumState(map[], Num(0)), chunks)
    case Some(s) => Some(s.m)
    case None => None
  }

  /** Members without initializers. */
  function PlainChunks(names: seq<string>): (r: seq<EnumChunk>)
    ensures |r| == |names| && forall i :: 0 <= i < |r| ==> r[i] == EnumChunk(None, names[i])
  {
    seq(|names|, i requires 0 <= i < |names| => EnumChunk(None, names[i]))
  }

  /** The first member without an initializer takes the counter and advances it. */
  lemma EnumFoldUnroll(host: Host, heap: Heap, m: map<string, Val>, start: nat, names: seq<string>)
    requires |names| > 0
    ensures EnumFold(host, heap, EnumState(m, Num(start)), PlainChunks(names))
      == EnumFold(host, heap, EnumState(m[NatToString(start) := Str(names[0])][names[0] := Num(start)], Num(start + 1)), PlainChunks(names[1..]))
  {
    assert PlainChunks(names)[1..] == PlainChunks(names[1..]);
    assert EnumStep(host, heap, EnumState(m, Num(start)), EnumChunk(None, names[0]))
      == Some(EnumState(m[NatToString(start) := Str(names[0])][names[0] := Num(start)], Num(start + 1)));
  }

  /**
   * Members without initializers count on from the counter: the i-th member maps to
   * `start + i` and back, and every other entry is left as it was (for distinct names that are
   * not array indices).
   */
  lemma {:induction false} EnumCountsOn(host: Host, heap: Heap, m: map<string, Val>, start: nat, names: seq<string>)
    requires forall i :: 0 <= i < |names| ==> ParseIndex(names[i]).None?
    requires forall i, j :: 0 <= i < j < |names| ==> names[i] != names[j]
    ensures EnumFold(host, heap, EnumState(m, Num(start)), PlainChunks(names)).Some?
    ensures var r := EnumFold(host, heap, EnumState(m, Num(start)), PlainChunks(names)).value.m;
      forall i :: 0 <= i < |names| ==>
        && names[i] in r && r[names[i]] == Num(start + i)
        && NatToString(start + i) in r && r[NatToString(start + i)] == Str(names[i])
    ensures var r := EnumFold(host, heap, EnumState(m, Num(start)), PlainChunks(names)).value.m;
      forall k :: k in m && k !in names && (ParseIndex(k).None? || ParseIndex(k).value < start) ==>
        k in r && r[k] == m[k]
    decreases |names|
  {
    if |names| > 0 {
      var key := NatToString(start);
      var m1 := m[key := Str(names[0])][names[0] := Num(start)];
      EnumFoldUnroll(host, heap, m, start, names);
      EnumCountsOn(host, heap, m1, start + 1, names[1..]);
      var r := EnumFold(host, heap, EnumState(m, Num(start)), PlainChunks(names)).value.m;
      IndexRoundTrip(start);
      assert key != names[0];
      forall i | 0 <= i < |names| ensures names[i] in r && r[names[i]] == Num(start + i) && NatToString(start + i) in r && r[NatToString(start + i)] == Str(names[i]) {
        if i == 0 {
          assert names[0] !in names[1..];
          assert ParseIndex(names[0]).None?;
          assert ParseIndex(key) == Some(start);
          assert key !in names[1..];
        } else {
          assert names[1..][i - 1] == names[i];
        }
      }
      forall k | k in m && k !in names && (ParseIndex(k).None? || ParseIndex(k).value < start) ensures k in r && r[k] == m[k] {
        assert k != key;
        assert k !in names[1..];
      }
    }
  }

  /** An enum whose members have no initializers numbers them 0, 1, 2, … both ways round. */
  lemma EnumCountsFromZero(host: Host, heap: Heap, names: seq<string>)
    requires forall i :: 0 <= i < |names| ==> ParseIndex(names[i]).None?
    requires forall i, j :: 0 <= i < j < |names| ==> names[i] != names[j]
    ensures EnumRecord(host, heap, PlainChunks(names)).Some?
    ensures var r := EnumRecord(host, heap, PlainChunks(names)).value;
      forall i :: 0 <= i < |names| ==>
        names[i] in r && r[names[i]] == Num(i) && NatToString(i) in r && r[NatToString(i)] == Str(names[i])
  {
    EnumCountsOn(host, heap, map[], 0, names);
  }

  /** A member initialized with the number `n` maps `n` and its own name both ways, and counts on from `n + 1`. */
  lemma EnumInitializedStep(host: Host, heap: Heap, s: EnumState, n: nat, name: string, names: seq<string>)
    ensures EnumFold(host, heap, s, [EnumChunk(Some(Num(n)), name)] + PlainChunks(names))
      == EnumFold(host, heap, EnumState(s.m[NatToString(n) := Str(name)][name := Num(n)], Num(n + 1)), PlainChunks(names))
  {
    var chunks := [EnumChunk(Some(Num(n)), name)] + PlainChunks(names);
    assert chunks[0] == EnumChunk(Some(Num(n)), name);
    assert chunks[1..] == PlainChunks(names);
  }

  /** The members after a restart at `n` are numbered from `n + 1`. */
  lemma EnumCountsOnFrom(host: Host, heap: Heap, m: map<string, Val>, n: nat, names: seq<string>)
    requires forall i :: 0 <= i < |names| ==> ParseIndex(names[i]).None?
    requires forall i, j :: 0 <= i < j < |names| ==> names[i] != names[j]
    ensures var r := EnumFold(host, heap, EnumState(m, Num(n + 1)), PlainChunks(names));
      && r.Some?
      && forall i :: 0 <= i < |names| ==>
        && names[i] in r.value.m && r.value.m[names[i]] == Num(n + 1 + i)
        && NatToString(n + 1 + i) in r.value.m && r.value.m[NatToString(n + 1 + i)] == Str(names[i])
  {
    EnumCountsOn(host, heap, m, n + 1, names);
    var r := EnumFold(host, heap, EnumState(m, Num(n + 1)), PlainChunks(names)).value.m;
    forall i | 0 <= i < |names|
      ensures names[i] in r && r[names[i]] == Num(n + 1 + i)
      ensures NatToString(n + 1 + i) in r && r[NatToString(n + 1 + i)] == Str(names[i])
    {
    }
  }

  /** An initializer restarts the count: the members after it count on from its value. */
  lemma EnumInitializerRestarts(host: Host, heap: Heap, s: EnumState, n: nat, name: string, names: seq<string>)
    requires ParseIndex(name).None?
    requires forall i :: 0 <= i < |names| ==> ParseIndex(names[i]).None?
    requires forall i, j :: 0 <= i < j < |names| ==> names[i] != names[j]
    ensures var r := EnumFold(host, heap, s, [EnumChunk(Some(Num(n)), name)] + PlainChunks(names));
      && r.Some?
      && (forall i :: 0 <= i < |names| ==>
            && names[i] in r.value.m && r.value.m[names[i]] == Num(n + 1 + i)
            && NatToString(n + 1 + i) in r.value.m && r.value.m[NatToString(n + 1 + i)] == Str(names[i]))
      && NatToString(n) in r.value.m && r.value.m[NatToString(n)] == Str(name)
      && (name !in names ==> name in r.value.m && r.value.m[name] == Num(n))
  {
    var m1 := s.m[NatToString(n) := Str(name)][name := Num(n)];
    var r := EnumFold(host, heap, s, [EnumChunk(Some(Num(n)), name)] + PlainChunks(names));
    EnumInitializedStep(host, heap, s, n, name, names);
    EnumCountsOnFrom(host, heap, m1, n, names);
    assert r == EnumFold(host, heap, EnumState(m1, Num(n + 1)), PlainChunks(names));
    IndexKeyKept(host, heap, s.m, n, name, names);
  }

  /**
   * An unknown initializer is recorded under the member's name, without the symbol key; the
   * counter becomes `undefined`, so the next plain member is written under the key "undefined".
   */
  lemma EnumAfterUnknown(host: Host, heap: Heap, a: string, b: string)
    requires a != b && b != "undefined"
    ensures var r := EnumRecord(host, heap, [EnumChunk(Some(Unknown), a), EnumChunk(None, b)]);
      && r.Some?
      && r.value == map[a := Unknown]["undefined" := Str(b)][b := Undefined]
  {
    var chunks := [EnumChunk(Some(Unknown), a), EnumChunk(None, b)];
    var s1 := EnumState(map[a := Unknown], Undefined);
    assert EnumStep(host, heap, EnumState(map[], Num(0)), chunks[0]) == Some(s1);
    assert chunks[1..] == [EnumChunk(None, b)];
    var s2 := EnumState(s1.m["undefined" := Str(b)][b := Undefined], Undefined);
    assert EnumStep(host, heap, s1, chunks[1]) == Some(s2);
    assert chunks[1..][1..] == [];
    assert EnumFold(host, heap, s1, chunks[1..]) == EnumFold(host, heap, s2, []) == Some(s2);
    assert EnumFold(host, heap, EnumState(map[], Num(0)), chunks) == Some(s2);
  }

  /** The entries the initialized member wrote survive the members counted on after it. */
  lemma IndexKeyKept(host: Host, heap: Heap, m: map<string, Val>, n: nat, name: string, names: seq<string>)
    requires ParseIndex(name).None?
    requires forall i :: 0 <= i < |names| ==> ParseIndex(names[i]).None?
    requires forall i, j :: 0 <= i < j < |names| ==> names[i] != names[j]
    ensures EnumFold(host, heap, EnumState(m[NatToString(n) := Str(name)][name := Num(n)], Num(n + 1)), PlainChunks(names)).Some?
    ensures var m1 := m[NatToString(n) := Str(name)][name := Num(n)];
      var r := EnumFold(host, heap, EnumState(m1, Num(n + 1)), PlainChunks(names)).value.m;
      && NatToString(n) in r && r[NatToString(n)] == Str(name)
      && (name !in names ==> name in r && r[name] == Num(n))
  {
    var m1 := m[NatToString(n) := Str(name)][name := Num(n)];
    IndexRoundTrip(n);
    assert NatToString(n) != name;
    assert NatToString(n) !in names by {
      forall i | 0 <= i < |names| ensures names[i] != NatToString(n) {
        assert ParseIndex(names[i]).None?;
      }
    }
    EnumCountsOn(host, heap, m1, n + 1, names);
  }

  // ---------------------------------------------------------------------------------------
  // Template literals

  /**
   * The literal's fold from quasi `i` on: each quasi's text, then the text of the interpolation
   * with the same index if there is one; an interpolation whose text cannot be taken (the
   * sentinel symbol, or an object the host cannot convert) throws.
   */
  function TemplateFrom(host: Host, heap: Heap, full: string, quasis: seq<string>, vals: seq<Val>, i: nat): Option<string>
    requires i <= |quasis|
    decreases |quasis| - i
  {
    if i == |quasis| then Some(full)
    else if i < |vals| then
      match ToText(host, heap, vals[i])
      case None => None
      case Some(t) => TemplateFrom(host, heap, full + quasis[i] + t, quasis, vals, i + 1)
    else TemplateFrom(host, heap, full + quasis[i], quasis, vals, i + 1)
  }

  function TemplateText(host: Host, heap: Heap, quasis: seq<string>, vals: seq<Val>): Option<string> {
    TemplateFrom(host, heap, "", quasis, vals, 0)
  }

  /** The literal's text as the quasis and the interpolated strings interleaved. */
  function Interleaved(quasis: seq<string>, texts: seq<string>): string
    decreases |quasis|
  {
    if |quasis| == 0 then ""
    else quasis[0] + (if |texts| > 0 then texts[0] else "") + Interleaved(quasis[1..], if |texts| > 0 then texts[1..] else [])
  }

  function Strings(vals: seq<Val>): (r: seq<string>)
    requires forall i :: 0 <= i < |vals| ==> vals[i].Str?
    ensures |r| == |vals| && forall i :: 0 <= i < |vals| ==> r[i] == vals[i].s
  {
    seq(|vals|, i requires 0 <= i < |vals| => vals[i].s)
  }

  /** One quasi of the interleaving from position `i` on. */
  lemma InterleavedFrom(quasis: seq<string>, i: nat, texts: seq<string>)
    requires i < |quasis|
    ensures Interleaved(quasis[i..], texts)
      == quasis[i] + (if |texts| > 0 then texts[0] else "") + Interleaved(quasis[i + 1..], if |texts| > 0 then texts[1..] else [])
  {
    assert quasis[i..][0] == quasis[i] && quasis[i..][1..] == quasis[i + 1..];
  }

  lemma {:induction false} TemplateFromStrings(host: Host, heap: Heap, full: string, quasis: seq<string>, vals: seq<Val>, i: nat)
    requires i <= |quasis|
    requires forall k :: 0 <= k < |vals| ==> vals[k].Str?
    ensures TemplateFrom(host, heap, full, quasis, vals, i) ==
      Some(full + Interleaved(quasis[i..], if i < |vals| then Strings(vals)[i..] else []))
    decreases |quasis| - i
  {
    if i == |quasis| {
      assert quasis[i..] == [];
      assert full + Interleaved([], []) == full;
    } else {
      var t := if i < |vals| then vals[i].s else "";
      var rest := if i + 1 < |vals| then Strings(vals)[i + 1..] else [];
      TextsStep(vals, i);
      InterleavedFrom(quasis, i, if i < |vals| then Strings(vals)[i..] else []);
      TemplateStringStep(host, heap, full, quasis, vals, i);
      TemplateFromStrings(host, heap, full + quasis[i] + t, quasis, vals, i + 1);
      assert full + quasis[i] + t + Interleaved(quasis[i + 1..], rest)
        == full + (quasis[i] + t + Interleaved(quasis[i + 1..], rest));
    }
  }

  /** The interpolated strings from `i` on start with the `i`-th, or nothing past the end. */
  lemma TextsStep(vals: seq<Val>, i: nat)
    requires forall k :: 0 <= k < |vals| ==> vals[k].Str?
    ensures var texts := if i < |vals| then Strings(vals)[i..] else [];
      && (if |texts| > 0 then texts[0] else "") == (if i < |vals| then vals[i].s else "")
      && (if |texts| > 0 then texts[1..] else []) == (if i + 1 < |vals| then Strings(vals)[i + 1..] else [])
  {
  }

  /** A string interpolation appends its quasi and its text, and the literal goes on. */
  lemma TemplateStringStep(host: Host, heap: Heap, full: string, quasis: seq<string>, vals: seq<Val>, i: nat)
    requires i < |quasis|
    requires forall k :: 0 <= k < |vals| ==> vals[k].Str?
    ensures TemplateFrom(host, heap, full, quasis, vals, i)
      == TemplateFrom(host, heap, full + quasis[i] + (if i < |vals| then vals[i].s else ""), quasis, vals, i + 1)
  {
    if i < |vals| {
      assert ToText(host, heap, vals[i]) == Some(vals[i].s);
    } else {
      assert full + quasis[i] + "" == full + quasis[i];
    }
  }

  /** With string interpolations the literal's text is the quasis and the strings interleaved. */
  lemma TemplateOfStrings(host: Host, heap: Heap, quasis: seq<string>, vals: seq<Val>)
    requires forall k :: 0 <= k < |vals| ==> vals[k].Str?
    ensures TemplateText(host, heap, quasis, vals) == Some(Interleaved(quasis, Strings(vals)))
  {
    TemplateFromStrings(host, heap, "", quasis, vals, 0);
    assert quasis[0..] == quasis;
    var texts := if 0 < |vals| then Strings(vals)[0..] else [];
    assert texts == Strings(vals);
    assert "" + Interleaved(quasis, texts) == Interleaved(quasis, texts);
  }

  /** An interpolation of the sentinel that the literal reaches makes it throw. */
  lemma {:induction false} TemplateRejectsUnknown(host: Host, heap: Heap, full: string, quasis: seq<string>, vals: seq<Val>, i: nat, j: nat)
    requires i <= j < |quasis| && j < |vals| && vals[j] == Unknown
    ensures TemplateFrom(host, heap, full, quasis, vals, i).None?
    decreases j - i
  {
    if i < j {
      if ToText(host, heap, vals[i]).Some? {
        TemplateRejectsUnknown(host, heap, full + quasis[i] + ToText(host, heap, vals[i]).value, quasis, vals, i + 1, j);
      }
    }
  }
}

=== FILE: evaluator.dfy ===
/**
 * The memoised evaluator: `evaluateNode` with its helpers and the per-kind dispatch of
 * `analyzeNode`. Everything the original keeps in process-wide or closure state is threaded
 * explicitly: the memo from nodes to values, the heap, the safe set and the related links.
 * The original evaluates the parts of a node concurrently with `Promise.all`; here they are
 * evaluated in source order, and the first part that throws ends the evaluation.
 *
 * An identifier jumps to its declaration's initializer, which is not a subterm of the
 * identifier, so the recursion is bounded by fuel: running out of fuel counts as a throw,
 * which is what the unbounded recursion of a self-referential declaration ends in.
 */
module Evaluator {
  import opened Optional
  import opened Syntax
  import opened Values
  import opened Hosting
  import opened Objects
  import Reflect
  import opened Related
  import opened Operators
  import opened Paths
  import Scopes
  import opened ScopeWalk
  import opened Aggregate

  /** The evaluator's state: the memo, the heap, the safe set and the related links. */
  datatype State = State(memo: map<NodeId, Val>, heap: Heap, safe: set<Handle>, related: map<Handle, Val>)

  /** One evaluation: its completion and the state afterwards. */
  datatype Result = Result(c: Completion, st: State)

  /** Several evaluations in order: all their values, or nothing when one of them threw. */
  datatype Batch = Batch(vals: Option<seq<Val>>, st: State)

  /** The options and the scope analysis of the tree being evaluated. */
  datatype Context = Context(cfg: Config, scopes: ScopeMap)

  /**
   * The state only accumulates: a memoised value is never removed or replaced, and safe marks
   * and related links are never removed. Grows says nothing about the heap; under a lawful host
   * the heap only grows and every handle stays inside it (WellFormed.Valid, WellFormed.ValidAfter).
   */
  predicate Grows(a: State, b: State) {
    && (forall id :: id in a.memo ==> id in b.memo && b.memo[id] == a.memo[id])
    && a.safe <= b.safe
    && a.related.Keys <= b.related.Keys
  }

  function Done(st: State, v: Val): (r: Result)
    ensures r.c == Normal(v) && r.st == st
  {
    Result(Normal(v), st)
  }

  /** A new object in the heap, returned as the value. */
  function Allocated(st: State, o: Obj): (r: Result)
    ensures r.c == Normal(Ref(|st.heap|)) && r.st == st.(heap := st.heap + [o])
  {
    Result(Normal(Ref(|st.heap|)), st.(heap := st.heap + [o]))
  }

  // ---------------------------------------------------------------------------------------
  // The memo wrapper and sequential evaluation

  /**
   * `evaluateNode`: a node already in the memo yields its stored value and changes nothing;
   * otherwise it is analysed and, when the analysis completes, stored under the node.
   */
  function EvalNode(ctx: Context, fuel: nat, n: Node, st: State): (r: Result)
    ensures Grows(st, r.st)
    ensures n.id in st.memo ==> r == Result(Normal(st.memo[n.id]), st)
    ensures r.c.Normal? ==> n.id in r.st.memo && r.st.memo[n.id] == r.c.value
    decreases fuel, 0, 0
  {
    if n.id in st.memo then Result(Normal(st.memo[n.id]), st)
    else if fuel == 0 then Result(Abrupt, st)
    else
      var a := Analyze(ctx, fuel - 1, n, st);
      match a.c
      case Normal(v) => Result(a.c, a.st.(memo := a.st.memo[n.id := v]))
      case Abrupt => a
  }

  /** The nodes evaluated in order, stopping at the first that throws. */
  function EvalAll(ctx: Context, fuel: nat, xs: seq<Node>, st: State): (r: Batch)
    ensures Grows(st, r.st)
    ensures r.vals.Some? ==> |r.vals.value| == |xs|
    ensures r.vals.Some? ==> forall i :: 0 <= i < |xs| ==> xs[i].id in r.st.memo && r.st.memo[xs[i].id] == r.vals.value[i]
    decreases fuel, 1, |xs|
  {
    if |xs| == 0 then Batch(Some([]), st)
    else
      var a := EvalNode(ctx, fuel, xs[0], st);
      match a.c
      case Abrupt => Batch(None, a.st)
      case Normal(v) =>
        var rest := EvalAll(ctx, fuel, xs[1..], a.st);
        match rest.vals
        case None => rest
        case Some(vs) => Batch(Some([v] + vs), rest.st)
  }

  // ---------------------------------------------------------------------------------------
  // The helpers

  /**
   * `parseportDeep(source)`: a caller-supplied module comes first (a callable one is called to
   * produce it; the result is awaited and marked safe); otherwise, with deep evaluation on, the
   * module is evaluated in its own right; otherwise it is the sentinel.
   */
  function Deep(ctx: Context, source: string, st: State): (r: Result)
    ensures Grows(st, r.st)
    ensures source !in ctx.cfg.modules && !ctx.cfg.deep ==> r == Done(st, Unknown)
    ensures source in ctx.cfg.modules && r.c.Normal? ==> Reflect.IsMarkedAsSafe(r.c.value, r.st.safe)
    ensures source in ctx.cfg.modules ==> r.st.related == st.related
    ensures source in ctx.cfg.modules && !IsCallable(st.heap, ctx.cfg.modules[source]) ==>
      r.c == Normal(Settle(st.heap, ctx.cfg.modules[source]))
    ensures source in ctx.cfg.modules && IsCallable(st.heap, ctx.cfg.modules[source]) ==>
      var reply := CallFunction(ctx.cfg.host, st.heap, ctx.cfg.modules[source], Undefined, []);
      && (reply.c.Abrupt? ==> r.c.Abrupt?)
      && (reply.c.Normal? ==> r.c == Normal(Settle(reply.heap, reply.c.value)))
    ensures source !in ctx.cfg.modules && ctx.cfg.deep ==> r.c == ctx.cfg.host.deep(source, st.heap).c
  {
    if source in ctx.cfg.modules then
      var definition := ctx.cfg.modules[source];
      if IsCallable(st.heap, definition) then
        var reply := CallFunction(ctx.cfg.host, st.heap, definition, Undefined, []);
        match reply.c
        case Abrupt => Result(Abrupt, st.(heap := reply.heap))
        case Normal(v) =>
          var settled := Settle(reply.heap, v);
          Result(Normal(settled), st.(heap := reply.heap, safe := Reflect.MarkAsSafe(st.safe, settled)))
      else
        var settled := Settle(st.heap, definition);
        Result(Normal(settled), st.(safe := Reflect.MarkAsSafe(st.safe, settled)))
    else if ctx.cfg.deep then
      var imported := ctx.cfg.host.deep(source, st.heap);
      Result(imported.c, st.(heap := imported.heap, safe := st.safe + imported.marked, related := st.related + imported.linked))
    else Done(st, Unknown)
  }

  /** The reference a name has at a node: looked up from the scope recorded for the node. */
  function ScopeReference(ctx: Context, node: Node, name: string): Option<Scopes.Reference> {
    if node.id in ctx.scopes.scopeOf then Scopes.Get(ctx.scopes.arena, ctx.scopes.scopeOf[node.id], name)
    else None
  }

  /**
   * `evaluateReference(node, name)`: a caller-supplied variable wins and is marked safe; then
   * the scope's reference (the sentinel without an initializer, otherwise the initializer's
   * value projected along the steps); then a built-in global; then the sentinel.
   */
  function EvaluateReference(ctx: Context, fuel: nat, node: Node, name: string, st: State): (r: Result)
    ensures Grows(st, r.st)
    ensures name in ctx.cfg.variables ==>
      r.c == Normal(ctx.cfg.variables[name]) && Reflect.IsMarkedAsSafe(r.c.value, r.st.safe) && r.st.memo == st.memo
    ensures name !in ctx.cfg.variables && ScopeReference(ctx, node, name).None? ==>
      r == Done(st, if name in ctx.cfg.globals then ctx.cfg.globals[name] else Unknown)
    ensures name !in ctx.cfg.variables && ScopeReference(ctx, node, name).Some? ==>
      var ref := ScopeReference(ctx, node, name).value;
      if ref.init.None? then r == Done(st, Unknown)
      else
        var a := EvalNode(ctx, fuel, ref.init.value, st);
        && (a.c.Abrupt? ==> r.c.Abrupt?)
        && (a.c.Normal? ==>
              && r.c == Normal(ApplySteps(a.st.heap, a.c.value, ref.path).v)
              && ref.init.value.id in r.st.memo && r.st.memo[ref.init.value.id] == a.c.value)
    decreases fuel, 2, 0
  {
    if name in ctx.cfg.variables then
      var v := ctx.cfg.variables[name];
      Result(Normal(v), st.(safe := Reflect.MarkAsSafe(st.safe, v)))
    else
      match ScopeReference(ctx, node, name)
      case None => Done(st, if name in ctx.cfg.globals then ctx.cfg.globals[name] else Unknown)
      case Some(ref) =>
        match ref.init
        case None => Done(st, Unknown)
        case Some(init) =>
          var a := EvalNode(ctx, fuel, init, st);
          match a.c
          case Abrupt => a
          case Normal(v) =>
            var p := ApplySteps(a.st.heap, v, ref.path);
            Result(Normal(p.v), a.st.(heap := p.heap))
  }

  /** A property read through `get`, which marks what a safe object yields. */
  function Read(st: State, target: Val, key: string): (r: Result)
    ensures Grows(st, r.st)
    ensures r.c == RawGet(st.heap, target, key) && r.st.memo == st.memo && r.st.heap == st.heap
    ensures r.c.Normal? && Reflect.IsMarkedAsSafe(target, st.safe) ==> Reflect.IsMarkedAsSafe(r.c.value, r.st.safe)
  {
    var access := Reflect.Get(st.heap, st.safe, target, key);
    Result(access.c, st.(safe := access.safe))
  }

  /**
   * `evaluateProperty(object, property, computed)`: a computed key is evaluated (the sentinel
   * gives the sentinel) and converted to a property name; a plain name is read as it is; a
   * private name is not supported.
   */
  function EvaluateProperty(ctx: Context, fuel: nat, target: Val, property: MemberProperty, st: State): (r: Result)
    ensures Grows(st, r.st)
    ensures property.Static? ==> r.c == RawGet(st.heap, target, property.name)
    ensures property.PrivateName? ==> r == Done(st, Unknown)
    ensures property.Computed? && EvalNode(ctx, fuel, property.expression, st).c == Normal(Unknown) ==> r.c == Normal(Unknown)
    ensures property.Computed? ==>
      var a := EvalNode(ctx, fuel, property.expression, st);
      && (a.c.Abrupt? ==> r.c.Abrupt?)
      && (a.c.Normal? && a.c.value != Unknown ==>
            r.c == match ToText(ctx.cfg.host, a.st.heap, a.c.value)
                   case None => Abrupt
                   case Some(k) => RawGet(a.st.heap, target, k))
    ensures r.c.Normal? && Reflect.IsMarkedAsSafe(target, st.safe) ==> Reflect.IsMarkedAsSafe(r.c.value, r.st.safe)
    decreases fuel, 2, 0
  {
    match property
    case Computed(e) =>
      var a := EvalNode(ctx, fuel, e, st);
      (match a.c
       case Abrupt => a
       case Normal(key) =>
         if key == Unknown then Done(a.st, Unknown)
         else
           match ToText(ctx.cfg.host, a.st.heap, key)
           case None => Result(Abrupt, a.st)
           case Some(k) => Read(a.st, target, k))
    case Static(name) => Read(st, target, name)
    case PrivateName(_) => Done(st, Unknown)
  }

  /** An argument `emulate` receives: a node, or the thunk that builds a template's strings. */
  datatype Arg = Expr(node: Node) | QuasiArray(elements: seq<Node>)

  function Exprs(xs: seq<Node>): (r: seq<Arg>)
    ensures |r| == |xs| && forall i :: 0 <= i < |xs| ==> r[i] == Expr(xs[i])
  {
    seq(|xs|, i requires 0 <= i < |xs| => Expr(xs[i]))
  }

  function EvalArgs(ctx: Context, fuel: nat, args: seq<Arg>, st: State): (r: Batch)
    ensures Grows(st, r.st)
    ensures r.vals.Some? ==> |r.vals.value| == |args|
    ensures r.vals.Some? ==> forall i :: 0 <= i < |args| && args[i].Expr? ==>
      args[i].node.id in r.st.memo && r.vals.value[i] == r.st.memo[args[i].node.id]
    decreases fuel, 2, |args|
  {
    if |args| == 0 then Batch(Some([]), st)
    else
      var a := match args[0]
        case Expr(x) => EvalNode(ctx, fuel, x, st)
        case QuasiArray(elements) =>
          var b := EvalAll(ctx, fuel, elements, st);
          (match b.vals
           case None => Result(Abrupt, b.st)
           case Some(vs) => Allocated(b.st, ArrayObj(Items(vs))));
      match a.c
      case Abrupt => Batch(None, a.st)
      case Normal(v) =>
        var rest := EvalArgs(ctx, fuel, args[1..], a.st);
        match rest.vals
        case None => rest
        case Some(vs) => Batch(Some([v] + vs), rest.st)
  }

  /** The values as the items of a dense array. */
  function Items(vs: seq<Val>): (r: seq<Slot>)
    ensures |r| == |vs| && forall i :: 0 <= i < |vs| ==> r[i] == Item(vs[i])
  {
    seq(|vs|, i requires 0 <= i < |vs| => Item(vs[i]))
  }

  /**
   * `emulate(callee, thisArg, args, reflection)`: a safe callee is invoked with the evaluated
   * receiver and arguments through `apply` or `construct` (a stand-in from source runs its
   * `return body`, a host function is the host's); any other callee is not invoked, and nothing
   * is evaluated: it yields its related value.
   */
  function Emulate(ctx: Context, fuel: nat, callee: Val, thisNode: Option<Node>, args: seq<Arg>, isConstruct: bool, st: State): (r: Result)
    ensures Grows(st, r.st)
    ensures !Reflect.IsMarkedAsSafe(callee, st.safe) ==> r == Done(st, ExtractRelated(st.related, callee))
    ensures Reflect.IsMarkedAsSafe(callee, st.safe) && r.c.Normal? ==> Reflect.IsMarkedAsSafe(r.c.value, r.st.safe)
    ensures Reflect.IsMarkedAsSafe(callee, st.safe) ==>
      var t := if thisNode.Some? then EvalNode(ctx, fuel, thisNode.value, st) else Done(st, Undefined);
      var b := EvalArgs(ctx, fuel, args, t.st);
      && (t.c.Abrupt? || (t.c.Normal? && b.vals.None?) ==> r.c.Abrupt?)
      && (t.c.Normal? && b.vals.Some? ==>
            r.c == if isConstruct then ConstructFunction(ctx.cfg.host, b.st.heap, callee, b.vals.value).c
                   else CallFunction(ctx.cfg.host, b.st.heap, callee, t.c.value, b.vals.value).c)
    decreases fuel, 3, 0
  {
    if Reflect.IsMarkedAsSafe(callee, st.safe) then
      var t := match thisNode
        case Some(x) => EvalNode(ctx, fuel, x, st)
        case None => Done(st, Undefined);
      match t.c
      case Abrupt => t
      case Normal(thisArg) =>
        var b := EvalArgs(ctx, fuel, args, t.st);
        match b.vals
        case None => Result(Abrupt, b.st)
        case Some(vs) =>
          Reflect.SafeUnderLargerSet(callee, st.safe, b.st.safe);
          var inv := if isConstruct then Reflect.Construct(ctx.cfg.host, b.st.heap, b.st.safe, callee, vs)
                     else Reflect.Apply(ctx.cfg.host, b.st.heap, b.st.safe, callee, thisArg, vs);
          Result(inv.c, b.st.(heap := inv.heap, safe := inv.safe))
    else Done(st, ExtractRelated(st.related, callee))
  }

  /** The statements `evaluateExports` keeps: the export statements, in order. */
  predicate IsExportStatement(k: Kind) {
    k.ExportAllDeclaration? || k.ExportDefaultDeclaration? || k.ExportNamedDeclaration? || k.TSExportAssignment?
  }

  function ExportStatements(body: seq<Node>): (r: seq<Node>)
    ensures forall x :: x in r ==> x in body && IsExportStatement(x.kind)
    ensures forall x :: x in body && IsExportStatement(x.kind) ==> x in r
    ensures |r| <= |body|
  {
    if |body| == 0 then []
    else (if IsExportStatement(body[0].kind) then [body[0]] else []) + ExportStatements(body[1..])
  }

  /**
   * `evaluateExports(body)`: the export statements' values spread one after the other into a
   * fresh object; a chunk that is the sentinel adds nothing.
   */
  function Exports(ctx: Context, fuel: nat, body: seq<Node>, st: State): (r: Result)
    ensures Grows(st, r.st)
    decreases fuel, 2, 0
  {
    var b := EvalAll(ctx, fuel, ExportStatements(body), st);
    match b.vals
    case None => Result(Abrupt, b.st)
    case Some(vs) => Allocated(b.st, PlainObj(BuildObject(b.st.heap, map[], Spreads(vs))))
  }

  /**
   * A function value: a new function object, a stand-in that returns its body's value, linked to
   * that value; an async one is linked to `Promise.resolve(body)`, which is itself linked to the
   * body's value. Only an arrow function is marked as such: it cannot be constructed.
   */
  function FunctionValue(st: State, isAsync: bool, isArrow: bool, body: Val): (r: Result)
    ensures Grows(st, r.st)
    ensures r.c == Normal(Ref(|st.heap|)) && |st.heap| < |r.st.heap|
    ensures r.st.heap[|st.heap|] == FunctionObj(SourceFunction(isAsync, isArrow, body), map[])
    ensures !isAsync ==> ExtractRelated(r.st.related, r.c.value) == body
    ensures isAsync ==>
      var p := ExtractRelated(r.st.related, r.c.value);
      IsThenable(r.st.heap, p) && ExtractRelated(r.st.related, p) == body
    ensures r.st.safe == st.safe && r.st.memo == st.memo
  {
    var (h1, f) := Alloc(st.heap, FunctionObj(SourceFunction(isAsync, isArrow, body), map[]));
    if isAsync then
      var (h2, p) := PromiseResolve(h1, body);
      var linked := AttachRelated(AttachRelated(st.related, p, body), f, p);
      Result(Normal(f), st.(heap := h2, related := linked))
    else
      Result(Normal(f), st.(heap := h1, related := AttachRelated(st.related, f, body)))
  }

  /** The first `return` or `throw` statement of a block, if any. */
  function FirstExit(body: seq<Node>): (r: Option<Node>)
    ensures r.Some? ==> exists i :: 0 <= i < |body| && body[i] == r.value && (forall j :: 0 <= j < i ==> !IsExit(body[j].kind))
    ensures r.Some? ==> IsExit(r.value.kind)
    ensures r.None? ==> forall j :: 0 <= j < |body| ==> !IsExit(body[j].kind)
  {
    if |body| == 0 then None
    else if IsExit(body[0].kind) then Some(body[0])
    else
      var rest := FirstExit(body[1..]);
      if rest.Some? then
        ghost var i :| 0 <= i < |body[1..]| && body[1..][i] == rest.value && (forall j :: 0 <= j < i ==> !IsExit(body[1..][j].kind));
        assert body[i + 1] == rest.value;
        rest
      else rest
  }

  predicate IsExit(k: Kind) {
    k.ReturnStatement? || k.ThrowStatement?
  }

  // ---------------------------------------------------------------------------------------
  // Composite literals

  datatype ElementBatch = ElementBatch(es: Option<seq<Element>>, st: State)

  /** The elements of an array literal evaluated in order: holes, spreads and plain values. */
  function EvalElements(ctx: Context, fuel: nat, elements: seq<Option<Node>>, st: State): (r: ElementBatch)
    ensures Grows(st, r.st)
    ensures r.es.Some? ==> |r.es.value| == |elements|
    ensures r.es.Some? ==> forall i :: 0 <= i < |elements| ==>
      if elements[i].None? then r.es.value[i] == Gap
      else
        var x := elements[i].value;
        x.id in r.st.memo && r.es.value[i] == (if x.kind.SpreadElement? then Spread(r.st.memo[x.id]) else Single(r.st.memo[x.id]))
    decreases fuel, 1, |elements|
  {
    if |elements| == 0 then ElementBatch(Some([]), st)
    else
      var a := match elements[0]
        case None => Result(Normal(Undefined), st)
        case Some(x) => EvalNode(ctx, fuel, x, st);
      match a.c
      case Abrupt => ElementBatch(None, a.st)
      case Normal(v) =>
        var e := match elements[0]
          case None => Gap
          case Some(x) => if x.kind.SpreadElement? then Spread(v) else Single(v);
        var rest := EvalElements(ctx, fuel, elements[1..], a.st);
        match rest.es
        case None => rest
        case Some(es) => ElementBatch(Some([e] + es), rest.st)
  }

  function ArrayValue(ctx: Context, fuel: nat, elements: seq<Option<Node>>, st: State): (r: Result)
    ensures Grows(st, r.st)
    decreases fuel, 2, 0
  {
    var b := EvalElements(ctx, fuel, elements, st);
    match b.es
    case None => Result(Abrupt, b.st)
    case Some(es) => Allocated(b.st, ArrayObj(BuildArray(b.st.heap, [], es)))
  }

  /** The members of an object literal: spreads, and writes under the statically resolved keys. */
  function ObjectMembers(properties: seq<Node>, vs: seq<Val>): (r: seq<Member>)
    requires |properties| == |vs|
    ensures |r| == |properties|
    ensures forall i :: 0 <= i < |r| ==>
      r[i] == if properties[i].kind.SpreadElement? then SpreadMember(vs[i]) else KeyedMember(PropertyKeyOf(properties[i]), vs[i])
  {
    seq(|properties|, i requires 0 <= i < |properties| =>
      if properties[i].kind.SpreadElement? then SpreadMember(vs[i]) else KeyedMember(PropertyKeyOf(properties[i]), vs[i]))
  }

  function ObjectValue(ctx: Context, fuel: nat, properties: seq<Node>, st: State): (r: Result)
    ensures Grows(st, r.st)
    decreases fuel, 2, 0
  {
    var b := EvalAll(ctx, fuel, properties, st);
    match b.vals
    case None => Result(Abrupt, b.st)
    case Some(vs) => Allocated(b.st, PlainObj(BuildObject(b.st.heap, map[], ObjectMembers(properties, vs))))
  }

  /** The static methods and properties of a class body, in order. */
  function StaticMembers(members: seq<Node>): (r: seq<Node>)
    ensures forall x :: x in r ==> x in members
    ensures forall x :: x in r ==> (x.kind.ClassMethod? || x.kind.ClassProperty?) && x.kind.isStatic
  {
    if |members| == 0 then []
    else
      var head := members[0];
      (if (head.kind.ClassMethod? || head.kind.ClassProperty?) && head.kind.isStatic then [head] else [])
        + StaticMembers(members[1..])
  }

  function KeyedMembers(nodes: seq<Node>, vs: seq<Val>): (r: seq<Member>)
    requires |nodes| == |vs|
    ensures |r| == |nodes| && forall i :: 0 <= i < |r| ==> r[i] == KeyedMember(PropertyKeyOf(nodes[i]), vs[i])
  {
    seq(|nodes|, i requires 0 <= i < |nodes| => KeyedMember(PropertyKeyOf(nodes[i]), vs[i]))
  }

  /** A class body: a fresh class carrying its static members under their resolved keys. */
  function ClassValue(ctx: Context, fuel: nat, members: seq<Node>, st: State): (r: Result)
    ensures Grows(st, r.st)
    decreases fuel, 2, 0
  {
    var statics := StaticMembers(members);
    var b := EvalAll(ctx, fuel, statics, st);
    match b.vals
    case None => Result(Abrupt, b.st)
    case Some(vs) => Allocated(b.st, FunctionObj(ClassOrigin, BuildObject(b.st.heap, map[], KeyedMembers(statics, vs))))
  }

  datatype ChunkBatch = ChunkBatch(chunks: Option<seq<EnumChunk>>, st: State)

  function EvalEnumMembers(ctx: Context, fuel: nat, members: seq<EnumMember>, st: State): (r: ChunkBatch)
    ensures Grows(st, r.st)
    ensures r.chunks.Some? ==> |r.chunks.value| == |members|
    ensures r.chunks.Some? ==> forall i :: 0 <= i < |members| ==>
      && r.chunks.value[i].name == members[i].name
      && (r.chunks.value[i].init.Some? <==> members[i].initializer.Some?)
      && (members[i].initializer.Some? ==>
            members[i].initializer.value.id in r.st.memo && r.chunks.value[i].init.value == r.st.memo[members[i].initializer.value.id])
    decreases fuel, 1, |members|
  {
    if |members| == 0 then ChunkBatch(Some([]), st)
    else
      var a := match members[0].initializer
        case None => Result(Normal(Undefined), st)
        case Some(x) => EvalNode(ctx, fuel, x, st);
      match a.c
      case Abrupt => ChunkBatch(None, a.st)
      case Normal(v) =>
        var chunk := EnumChunk(if members[0].initializer.Some? then Some(v) else None, members[0].name);
        var rest := EvalEnumMembers(ctx, fuel, members[1..], a.st);
        match rest.chunks
        case None => rest
        case Some(cs) => ChunkBatch(Some([chunk] + cs), rest.st)
  }

  function EnumValue(ctx: Context, fuel: nat, members: seq<EnumMember>, st: State): (r: Result)
    ensures Grows(st, r.st)
    decreases fuel, 2, 0
  {
    var b := EvalEnumMembers(ctx, fuel, members, st);
    match b.chunks
    case None => Result(Abrupt, b.st)
    case Some(cs) =>
      match EnumRecord(ctx.cfg.host, b.st.heap, cs)
      case None => Result(Abrupt, b.st)
      case Some(m) => Allocated(b.st, PlainObj(m))
  }

  function TemplateValue(ctx: Context, fuel: nat, quasis: seq<string>, expressions: seq<Node>, st: State): (r: Result)
    ensures Grows(st, r.st)
    decreases fuel, 2, 0
  {
    var b := EvalAll(ctx, fuel, expressions, st);
    match b.vals
    case None => Result(Abrupt, b.st)
    case Some(vs) =>
      match TemplateText(ctx.cfg.host, b.st.heap, quasis, vs)
      case None => Result(Abrupt, b.st)
      case Some(s) => Done(b.st, Str(s))
  }

  // ---------------------------------------------------------------------------------------
  // Operators

  /** Binary, logical and compound assignment expressions: both operands, then the operator. */
  function Binary(ctx: Context, fuel: nat, op: Operator, left: Node, right: Node, st: State): (r: Result)
    ensures Grows(st, r.st)
    ensures BinaryOperator(op).None? ==> r == Done(st, Unknown)
    ensures BinaryOperator(op).Some? ==>
      var b := EvalAll(ctx, fuel, [left, right], st);
      && (b.vals.None? ==> r.c.Abrupt?)
      && (b.vals.Some? ==>
            && |b.vals.value| == 2 && r.st.memo == b.st.memo
            && r.c == CallBinary(ctx.cfg.host, b.st.heap, BinaryOperator(op).value, b.vals.value[0], b.vals.value[1]).c)
    decreases fuel, 2, 0
  {
    match BinaryOperator(op)
    case None => Done(st, Unknown)
    case Some(f) =>
      var b := EvalAll(ctx, fuel, [left, right], st);
      match b.vals
      case None => Result(Abrupt, b.st)
      case Some(vs) =>
        var reply := CallBinary(ctx.cfg.host, b.st.heap, f, vs[0], vs[1]);
        Result(reply.c, b.st.(heap := reply.heap))
  }

  /** Unary and update expressions: an unsupported operator does not evaluate its argument. */
  function Unary(ctx: Context, fuel: nat, op: Operator, prefix: bool, argument: Node, st: State): (r: Result)
    ensures Grows(st, r.st)
    ensures UnaryOperator(op, prefix).None? ==> r == Done(st, Unknown)
    ensures UnaryOperator(op, prefix).Some? ==>
      var a := EvalNode(ctx, fuel, argument, st);
      && (a.c.Abrupt? ==> r.c.Abrupt?)
      && (a.c.Normal? ==>
            && argument.id in r.st.memo
            && r.c == CallUnary(ctx.cfg.host, a.st.heap, UnaryOperator(op, prefix).value, r.st.memo[argument.id]))
    decreases fuel, 2, 0
  {
    match UnaryOperator(op, prefix)
    case None => Done(st, Unknown)
    case Some(f) =>
      var a := EvalNode(ctx, fuel, argument, st);
      match a.c
      case Abrupt => a
      case Normal(v) => Result(CallUnary(ctx.cfg.host, a.st.heap, f, v), a.st)
  }

  // ---------------------------------------------------------------------------------------
  // Calls

  /** The receiver a call passes: the object of a member expression callee. */
  function ThisOf(callee: Node): (r: Option<Node>)
    ensures r.Some? <==> callee.kind.MemberExpression?
  {
    if callee.kind.MemberExpression? then Some(callee.kind.obj) else None
  }

  /** The value of a dynamic import that is not followed: a promise linked to the sentinel. */
  function UnfollowedImport(st: State): (r: Result)
    ensures Grows(st, r.st)
  {
    var (h, p) := PromiseResolve(st.heap, Unknown);
    Result(Normal(p), st.(heap := h, related := AttachRelated(st.related, p, Unknown)))
  }

  /**
   * `CallExpression`: a dynamic import is followed only with deep evaluation on and a string
   * source; any other callee is emulated when it is a function, and the sentinel otherwise.
   */
  function Call(ctx: Context, fuel: nat, callee: Node, arguments: seq<Node>, st: State): (r: Result)
    ensures Grows(st, r.st)
    decreases fuel, 4, 0
  {
    if callee.kind.Import? then
      if ctx.cfg.deep then
        if |arguments| == 0 then Result(Abrupt, st)  // there is no source node to evaluate
        else
          var a := EvalNode(ctx, fuel, arguments[0], st);
          match a.c
          case Abrupt => a
          case Normal(source) => if source.Str? then Deep(ctx, source.s, a.st) else UnfollowedImport(a.st)
      else UnfollowedImport(st)
    else
      var a := EvalNode(ctx, fuel, callee, st);
      match a.c
      case Abrupt => a
      case Normal(f) =>
        if IsCallable(a.st.heap, f) then Emulate(ctx, fuel, f, ThisOf(callee), Exprs(arguments), false, a.st)
        else Done(a.st, Unknown)
  }

  function OptionalCall(ctx: Context, fuel: nat, callee: Node, arguments: seq<Node>, st: State): (r: Result)
    ensures Grows(st, r.st)
    decreases fuel, 4, 0
  {
    var a := EvalNode(ctx, fuel, callee, st);
    match a.c
    case Abrupt => a
    case Normal(f) =>
      if IsCallable(a.st.heap, f) then Emulate(ctx, fuel, f, ThisOf(callee), Exprs(arguments), false, a.st)
      else if IsNullish(f) then Done(a.st, Undefined)
      else Done(a.st, Unknown)
  }

  function New(ctx: Context, fuel: nat, callee: Node, arguments: seq<Node>, st: State): (r: Result)
    ensures Grows(st, r.st)
    decreases fuel, 4, 0
  {
    var a := EvalNode(ctx, fuel, callee, st);
    match a.c
    case Abrupt => a
    case Normal(f) =>
      if IsCallable(a.st.heap, f) then Emulate(ctx, fuel, f, None, Exprs(arguments), true, a.st)
      else Done(a.st, Unknown)
  }

  /** A tagged template: the tag is emulated with the strings array first, then the values. */
  function Tagged(ctx: Context, fuel: nat, tag: Node, quasiElements: seq<Node>, expressions: seq<Node>, st: State): (r: Result)
    ensures Grows(st, r.st)
    decreases fuel, 4, 0
  {
    var a := EvalNode(ctx, fuel, tag, st);
    match a.c
    case Abrupt => a
    case Normal(f) =>
      if IsCallable(a.st.heap, f) then
        Emulate(ctx, fuel, f, ThisOf(tag), [QuasiArray(quasiElements)] + Exprs(expressions), false, a.st)
      else Done(a.st, Unknown)
  }

  // ---------------------------------------------------------------------------------------
  // Member access, await, conditionals

  function MemberAccess(ctx: Context, fuel: nat, obj: Node, property: MemberProperty, optional: bool, st: State): (r: Result)
    ensures Grows(st, r.st)
    decreases fuel, 3, 0
  {
    var a := EvalNode(ctx, fuel, obj, st);
    match a.c
    case Abrupt => a
    case Normal(target) =>
      if target == Unknown then Done(a.st, Unknown)
      else if optional && IsNullish(target) then Done(a.st, Undefined)
      else EvaluateProperty(ctx, fuel, target, property, a.st)
  }

  /** `await`: the sentinel stays; a thenable yields its related value; anything else itself. */
  function Await(ctx: Context, fuel: nat, argument: Node, st: State): (r: Result)
    ensures Grows(st, r.st)
    decreases fuel, 2, 0
  {
    var a := EvalNode(ctx, fuel, argument, st);
    match a.c
    case Abrupt => a
    case Normal(v) =>
      if v == Unknown then Done(a.st, Unknown)
      else if IsThenable(a.st.heap, v) then Done(a.st, ExtractRelated(a.st.related, v))
      else Done(a.st, v)
  }

  function Conditional(ctx: Context, fuel: nat, test: Node, consequent: Node, alternate: Node, st: State): (r: Result)
    ensures Grows(st, r.st)
    decreases fuel, 2, 0
  {
    var a := EvalNode(ctx, fuel, test, st);
    match a.c
    case Abrupt => a
    case Normal(t) =>
      if t == Unknown then Done(a.st, Unknown)
      else if Truthy(t) then EvalNode(ctx, fuel, consequent, a.st)
      else EvalNode(ctx, fuel, alternate, a.st)
  }

  // ---------------------------------------------------------------------------------------
  // Exports

  /** `getDeclarationName`: the identifier of a declaration that has one. */
  function DeclarationName(d: Node): Option<string> {
    match d.kind
    case FunctionDeclaration(name, _, _, _) => name
    case ClassDeclaration(name, _) => name
    case TSEnumDeclaration(name, _) => Some(name)
    case TSModuleDeclaration(name, _) => Some(name)
    case TSImportEqualsDeclaration(target, _) => Some(NameOf(target))
    case TSOther(declared, _) => declared
    case _ => None
  }

  /** The names a variable declaration binds, declarator by declarator. */
  function DeclaredNames(declarators: seq<Node>): seq<string> {
    if |declarators| == 0 then []
    else Scopes.Names(Scopes.ResolveReferences(declarators[0])) + DeclaredNames(declarators[1..])
  }

  /**
   * What the value `v` of `name` read at `at` is, in terms of the memo after the read and the
   * heap the read projected over: the supplied variable; for an unbound name the global or the
   * sentinel; for a bound name without an initializer the sentinel; otherwise the initializer's
   * value projected along the binding's steps over `heap`.
   */
  ghost predicate IsReferenceValue(ctx: Context, at: Node, name: string, memo: map<NodeId, Val>, heap: Heap, v: Val) {
    if name in ctx.cfg.variables then v == ctx.cfg.variables[name]
    else
      match ScopeReference(ctx, at, name)
      case None => v == if name in ctx.cfg.globals then ctx.cfg.globals[name] else Unknown
      case Some(ref) =>
        match ref.init
        case None => v == Unknown
        case Some(init) =>
          && init.id in memo
          && (ref.path == [] ==> v == memo[init.id])
          && v == ApplySteps(heap, memo[init.id], ref.path).v
  }

  /** The heap a read of `name` from `st` projects over: the one its initializer's evaluation leaves. */
  function ProjectionHeap(ctx: Context, fuel: nat, at: Node, name: string, st: State): Heap
    decreases fuel, 2, 1
  {
    if name in ctx.cfg.variables then st.heap
    else
      match ScopeReference(ctx, at, name)
      case None => st.heap
      case Some(ref) =>
        match ref.init
        case None => st.heap
        case Some(init) => EvalNode(ctx, fuel, init, st).st.heap
  }

  /**
   * The heaps the reads of `names` project over, in order: each name is read from the state
   * the reads before it leave, up to the first read that throws.
   */
  function ReadHeaps(ctx: Context, fuel: nat, at: Node, names: seq<string>, st: State): (hs: seq<Heap>)
    ensures |hs| <= |names|
    decreases fuel, 3, |names|
  {
    if |names| == 0 then []
    else
      var a := EvaluateReference(ctx, fuel, at, names[0], st);
      [ProjectionHeap(ctx, fuel, at, names[0], st)] + (if a.c.Normal? then ReadHeaps(ctx, fuel, at, names[1..], a.st) else [])
  }

  /** Each name's value as an identifier at the export statement would have it. */
  function ReferenceAll(ctx: Context, fuel: nat, at: Node, names: seq<string>, st: State): (r: Batch)
    ensures Grows(st, r.st)
    ensures r.vals.Some? ==> |r.vals.value| == |names| && |ReadHeaps(ctx, fuel, at, names, st)| == |names|
    ensures r.vals.Some? ==> forall i :: 0 <= i < |names| ==>
      IsReferenceValue(ctx, at, names[i], r.st.memo, ReadHeaps(ctx, fuel, at, names, st)[i], r.vals.value[i])
    decreases fuel, 3, |names| + 1
  {
    if |names| == 0 then Batch(Some([]), st)
    else
      var a := EvaluateReference(ctx, fuel, at, names[0], st);
      match a.c
      case Abrupt => Batch(None, a.st)
      case Normal(v) =>
        var rest := ReferenceAll(ctx, fuel, at, names[1..], a.st);
        match rest.vals
        case None => rest
        case Some(vs) =>
          var hs := ReadHeaps(ctx, fuel, at, names, st);
          assert hs == [ProjectionHeap(ctx, fuel, at, names[0], st)] + ReadHeaps(ctx, fuel, at, names[1..], a.st);
          assert IsReferenceValue(ctx, at, names[0], rest.st.memo, hs[0], v);
          Batch(Some([v] + vs), rest.st)
  }

  function ExportedNames(specs: seq<ExportSpecifier>): (r: seq<string>)
    ensures |r| == |specs| && forall i :: 0 <= i < |specs| ==> r[i] == specs[i].exported
  {
    seq(|specs|, i requires 0 <= i < |specs| => specs[i].exported)
  }

  /**
   * A re-export's values read from the other module's value: the module itself for a
   * namespace, its `default`, or the named property. Reading from null or undefined throws.
   */
  function ReExported(heap: Heap, m: Val, specs: seq<ExportSpecifier>): (r: Option<seq<Val>>)
    ensures r.Some? ==> |r.value| == |specs|
    ensures r.Some? ==> forall i :: 0 <= i < |specs| ==>
      match specs[i]
      case ExportNamespaceSpec(_) => r.value[i] == m
      case ExportDefaultSpec(_) => RawGet(heap, m, "default") == Normal(r.value[i])
      case ExportSpec(local, _) => RawGet(heap, m, NameOf(local)) == Normal(r.value[i])
    ensures r.None? <==> IsNullish(m) && exists i :: 0 <= i < |specs| && !specs[i].ExportNamespaceSpec?
  {
    if |specs| == 0 then Some([])
    else
      var c := match specs[0]
        case ExportNamespaceSpec(_) => Normal(m)
        case ExportDefaultSpec(_) => RawGet(heap, m, "default")
        case ExportSpec(local, _) => RawGet(heap, m, NameOf(local));
      match c
      case Abrupt => None
      case Normal(v) =>
        match ReExported(heap, m, specs[1..])
        case None => None
        case Some(vs) => Some([v] + vs)
  }

  /** Local export specifiers: a plain specifier evaluates its local, any other is the sentinel. */
  function EvalSpecifiers(ctx: Context, fuel: nat, specs: seq<ExportSpecifier>, st: State): (r: Batch)
    ensures Grows(st, r.st)
    ensures r.vals.Some? ==> |r.vals.value| == |specs|
    ensures r.vals.Some? ==> forall i :: 0 <= i < |specs| ==>
      if specs[i].ExportSpec? then specs[i].local.id in r.st.memo && r.vals.value[i] == r.st.memo[specs[i].local.id]
      else r.vals.value[i] == Unknown
    decreases fuel, 1, |specs|
  {
    if |specs| == 0 then Batch(Some([]), st)
    else
      var a := match specs[0]
        case ExportSpec(local, _) => EvalNode(ctx, fuel, local, st)
        case _ => Done(st, Unknown);
      match a.c
      case Abrupt => Batch(None, a.st)
      case Normal(v) =>
        var rest := EvalSpecifiers(ctx, fuel, specs[1..], a.st);
        match rest.vals
        case None => rest
        case Some(vs) => Batch(Some([v] + vs), rest.st)
  }

  /** A record built from names and values, later names overwriting earlier ones. */
  function Record(st: State, names: seq<string>, vs: seq<Val>): (r: Result)
    requires |names| == |vs|
    ensures Grows(st, r.st)
  {
    Allocated(st, PlainObj(BuildObject(st.heap, map[], FromEntries(names, vs))))
  }

  /**
   * `ExportNamedDeclaration`: an exported variable declaration yields each bound name's value;
   * another declaration yields its value under its name (nothing when it has none); a
   * re-export reads the other module; local specifiers evaluate their locals.
   */
  function ExportNamed(ctx: Context, fuel: nat, n: Node, declaration: Option<Node>, specs: seq<ExportSpecifier>, from: Option<string>, st: State): (r: Result)
    ensures Grows(st, r.st)
    decreases fuel, 4, 0
  {
    match declaration
    case Some(d) =>
      if d.kind.VariableDeclaration? then
        var names := DeclaredNames(d.kind.declarations);
        var b := ReferenceAll(ctx, fuel, n, names, st);
        (match b.vals
         case None => Result(Abrupt, b.st)
         case Some(vs) => Record(b.st, names, vs))
      else
        var a := EvalNode(ctx, fuel, d, st);
        (match a.c
         case Abrupt => a
         case Normal(v) =>
           match DeclarationName(d)
           case Some(name) => if |name| > 0 then Record(a.st, [name], [v]) else Record(a.st, [], [])
           case None => Record(a.st, [], []))
    case None =>
      match from
      case Some(source) =>
        var a := Deep(ctx, source, st);
        (match a.c
         case Abrupt => a
         case Normal(m) =>
           match ReExported(a.st.heap, m, specs)
           case None => Result(Abrupt, a.st)
           case Some(vs) => Record(a.st, ExportedNames(specs), vs))
      case None =>
        var b := EvalSpecifiers(ctx, fuel, specs, st);
        match b.vals
        case None => Result(Abrupt, b.st)
        case Some(vs) => Record(b.st, ExportedNames(specs), vs)
  }

  // ---------------------------------------------------------------------------------------
  // The dispatch

  /** A function-like node's value, from its body's value. */
  function FunctionNode(ctx: Context, fuel: nat, body: Node, isAsync: bool, isArrow: bool, st: State): (r: Result)
    ensures Grows(st, r.st)
    decreases fuel, 2, 0
  {
    var a := EvalNode(ctx, fuel, body, st);
    match a.c
    case Abrupt => a
    case Normal(v) => FunctionValue(a.st, isAsync, isArrow, v)
  }

  function DefaultExport(ctx: Context, fuel: nat, declaration: Node, st: State): (r: Result)
    ensures Grows(st, r.st)
    decreases fuel, 2, 0
  {
    var a := EvalNode(ctx, fuel, declaration, st);
    match a.c
    case Abrupt => a
    case Normal(v) => Record(a.st, ["default"], [v])
  }

  /**
   * `analyzeNode`: one case per kind, grouped here by what the kind is; every kind not listed is
   * the sentinel.
   */
  function Analyze(ctx: Context, fuel: nat, n: Node, st: State): (r: Result)
    ensures Grows(st, r.st)
    decreases fuel, 6, 0
  {
    if IsModuleKind(n.kind) then AnalyzeModule(ctx, fuel, n, st)
    else if IsLiteralKind(n.kind) then AnalyzeLiteral(ctx, fuel, n, st)
    else if IsDefinitionKind(n.kind) then AnalyzeDefinition(ctx, fuel, n, st)
    else if IsOperationKind(n.kind) then AnalyzeOperation(ctx, fuel, n, st)
    else if IsAccessKind(n.kind) then AnalyzeAccess(ctx, fuel, n, st)
    else if IsStatementKind(n.kind) then AnalyzeStatement(ctx, fuel, n, st)
    else Done(st, Unknown)
  }

  /** The node kinds `analyzeNode` handles, in the groups the evaluator dispatches them to. */
  predicate IsModuleKind(k: Kind) {
    || k.JSX? || k.TSExpression? || k.TSEnumDeclaration? || k.TSExternalModuleReference?
    || k.TSImportEqualsDeclaration? || k.TSModuleBlock? || k.TSModuleDeclaration?
    || k.ExportAllDeclaration? || k.ImportDeclaration? || k.ExportDefaultDeclaration?
    || k.ExportNamedDeclaration? || k.File? || k.Program?
  }

  predicate IsLiteralKind(k: Kind) {
    || k.NumericLiteral? || k.StringLiteral? || k.BooleanLiteral? || k.NullLiteral? || k.BigIntLiteral?
    || k.RegExpLiteral? || k.TemplateLiteral? || k.TemplateElement? || k.ArrayExpression?
    || k.ObjectExpression? || k.ObjectProperty? || k.SpreadElement?
  }

  predicate IsDefinitionKind(k: Kind) {
    || k.ArrowFunctionExpression? || k.ClassMethod? || k.FunctionDeclaration? || k.FunctionExpression?
    || k.ObjectMethod? || k.ClassBody? || k.ClassDeclaration? || k.ClassExpression? || k.ClassProperty?
  }

  predicate IsOperationKind(k: Kind) {
    || k.AssignmentExpression? || k.AwaitExpression? || k.BinaryExpression? || k.LogicalExpression?
    || k.ConditionalExpression? || k.SequenceExpression? || k.UnaryExpression? || k.UpdateExpression?
  }

  predicate IsAccessKind(k: Kind) {
    || k.Identifier? || k.MemberExpression? || k.OptionalMemberExpression? || k.CallExpression?
    || k.OptionalCallExpression? || k.NewExpression? || k.TaggedTemplateExpression?
  }

  predicate IsStatementKind(k: Kind) {
    k.BlockStatement? || k.EmptyStatement? || k.ExpressionStatement? || k.ReturnStatement?
  }

  /** Modules, imports and exports, and the TypeScript declarations. */
  function AnalyzeModule(ctx: Context, fuel: nat, n: Node, st: State): (r: Result)
    ensures Grows(st, r.st)
    decreases fuel, 5, 0
  {
    match n.kind
    case JSX(_) => Done(st, Unknown)
    case TSExpression(e) => EvalNode(ctx, fuel, e, st)
    case TSEnumDeclaration(_, members) => EnumValue(ctx, fuel, members, st)
    case TSExternalModuleReference(source) => Deep(ctx, source, st)
    case TSImportEqualsDeclaration(_, moduleReference) => EvalNode(ctx, fuel, moduleReference, st)
    case TSModuleBlock(body) => Exports(ctx, fuel, body, st)
    case TSModuleDeclaration(_, body) => EvalNode(ctx, fuel, body, st)
    case ExportAllDeclaration(source) => Deep(ctx, source, st)
    case ImportDeclaration(source, _) => Deep(ctx, source, st)
    case ExportDefaultDeclaration(declaration) => DefaultExport(ctx, fuel, declaration, st)
    case ExportNamedDeclaration(declaration, specs, from) => ExportNamed(ctx, fuel, n, declaration, specs, from, st)
    case File(program) => EvalNode(ctx, fuel, program, st)
    case Program(body) => Exports(ctx, fuel, body, st)
    case _ => Done(st, Unknown)
  }

  /** Literals, templates, and array and object literals with their parts. */
  function AnalyzeLiteral(ctx: Context, fuel: nat, n: Node, st: State): (r: Result)
    ensures Grows(st, r.st)
    decreases fuel, 5, 0
  {
    match n.kind
    case NumericLiteral(x) => Done(st, Num(x))
    case StringLiteral(s) => Done(st, Str(s))
    case BooleanLiteral(b) => Done(st, Bool(b))
    case NullLiteral => Done(st, Null)
    case BigIntLiteral(i) => Done(st, BigInt(i))
    case RegExpLiteral(pattern, flags) => Allocated(st, RegExpObj(pattern, flags))
    case TemplateLiteral(quasis, expressions) => TemplateValue(ctx, fuel, quasis, expressions, st)
    case TemplateElement(cooked, raw) => Done(st, Str(cooked.GetOr(raw)))
    case ArrayExpression(elements) => ArrayValue(ctx, fuel, elements, st)
    case ObjectExpression(properties) => ObjectValue(ctx, fuel, properties, st)
    case ObjectProperty(_, value) => EvalNode(ctx, fuel, value, st)
    case SpreadElement(argument) => EvalNode(ctx, fuel, argument, st)
    case _ => Done(st, Unknown)
  }

  /** Functions, methods and classes. */
  function AnalyzeDefinition(ctx: Context, fuel: nat, n: Node, st: State): (r: Result)
    ensures Grows(st, r.st)
    decreases fuel, 5, 0
  {
    match n.kind
    case ArrowFunctionExpression(_, body, isAsync) => FunctionNode(ctx, fuel, body, isAsync, true, st)
    case ClassMethod(_, _, _, body, isAsync) => FunctionNode(ctx, fuel, body, isAsync, false, st)
    case FunctionDeclaration(_, _, body, isAsync) => FunctionNode(ctx, fuel, body, isAsync, false, st)
    case FunctionExpression(_, _, body, isAsync) => FunctionNode(ctx, fuel, body, isAsync, false, st)
    case ObjectMethod(_, _, body, isAsync) => FunctionNode(ctx, fuel, body, isAsync, false, st)
    case ClassBody(members) => ClassValue(ctx, fuel, members, st)
    case ClassDeclaration(_, body) => EvalNode(ctx, fuel, body, st)
    case ClassExpression(_, body) => EvalNode(ctx, fuel, body, st)
    case ClassProperty(_, _, initial) =>
      (match initial
       case Some(x) => EvalNode(ctx, fuel, x, st)
       case None => Done(st, Undefined))
    case _ => Done(st, Unknown)
  }

  /** Operators, conditionals, comma expressions and `await`. */
  function AnalyzeOperation(ctx: Context, fuel: nat, n: Node, st: State): (r: Result)
    ensures Grows(st, r.st)
    decreases fuel, 5, 0
  {
    match n.kind
    case AssignmentExpression(op, left, right) =>
      if op == OpAssign then EvalNode(ctx, fuel, right, st) else Binary(ctx, fuel, op, left, right, st)
    case AwaitExpression(argument) => Await(ctx, fuel, argument, st)
    case BinaryExpression(op, left, right) => Binary(ctx, fuel, op, left, right, st)
    case LogicalExpression(op, left, right) => Binary(ctx, fuel, op, left, right, st)
    case ConditionalExpression(test, consequent, alternate) => Conditional(ctx, fuel, test, consequent, alternate, st)
    case SequenceExpression(expressions) =>
      if |expressions| == 0 then Done(st, Unknown) else EvalNode(ctx, fuel, expressions[|expressions| - 1], st)
    case UnaryExpression(op, argument) => Unary(ctx, fuel, op, true, argument, st)
    case UpdateExpression(op, prefix, argument) => Unary(ctx, fuel, op, prefix, argument, st)
    case _ => Done(st, Unknown)
  }

  /** Names, member accesses and calls. */
  function AnalyzeAccess(ctx: Context, fuel: nat, n: Node, st: State): (r: Result)
    ensures Grows(st, r.st)
    decreases fuel, 5, 0
  {
    match n.kind
    case Identifier(name) => EvaluateReference(ctx, fuel, n, name, st)
    case MemberExpression(obj, property) => MemberAccess(ctx, fuel, obj, property, false, st)
    case OptionalMemberExpression(obj, property) => MemberAccess(ctx, fuel, obj, property, true, st)
    case CallExpression(callee, arguments) => Call(ctx, fuel, callee, arguments, st)
    case OptionalCallExpression(callee, arguments) => OptionalCall(ctx, fuel, callee, arguments, st)
    case NewExpression(callee, arguments) => New(ctx, fuel, callee, arguments, st)
    case TaggedTemplateExpression(tag, quasiElements, expressions) => Tagged(ctx, fuel, tag, quasiElements, expressions, st)
    case _ => Done(st, Unknown)
  }

  /** The statements with a value: blocks, returns, expression statements and empty statements. */
  function AnalyzeStatement(ctx: Context, fuel: nat, n: Node, st: State): (r: Result)
    ensures Grows(st, r.st)
    decreases fuel, 5, 0
  {
    match n.kind
    case BlockStatement(body) =>
      (match FirstExit(body)
       case Some(s) => if s.kind.ThrowStatement? then Done(st, Unknown) else EvalNode(ctx, fuel, s, st)
       case None => Done(st, Unknown))
    case EmptyStatement => Done(st, Undefined)
    case ExpressionStatement(e) => EvalNode(ctx, fuel, e, st)
    case ReturnStatement(returned) =>
      (match returned
       case Some(x) => EvalNode(ctx, fuel, x, st)
       case None => Done(st, Undefined))
    case _ => Done(st, Unknown)
  }

  /**
   * `parseportNode`: the scopes are analysed, then the root is evaluated with an empty memo,
   * starting from the heap, safe set and related links the process already has.
   */
  function ParseportNode(cfg: Config, fuel: nat, root: Node, heap: Heap, safe: set<Handle>, related: map<Handle, Val>): (r: Result)
    ensures safe <= r.st.safe && related.Keys <= r.st.related.Keys
    ensures r.c.Normal? ==> root.id in r.st.memo && r.st.memo[root.id] == r.c.value
  {
    EvalNode(Context(cfg, AnalyzeScopes(root)), fuel, root, State(map[], heap, safe, related))
  }
}

=== FILE: evaluator_laws.dfy ===
/**
 * Laws of the evaluator: what evaluating a node means in terms of its parts, the memoisation
 * promise, the safety gate on calls, the related links that stand in for calls that are not
 * made, and the shape of a module's exports.
 */
module EvaluatorLaws {
  import opened Optional
  import opened Syntax
  import opened Values
  import opened Hosting
  import opened Objects
  import Reflect
  import opened Related
  import opened Operators
  import opened Aggregate
  import opened Evaluator

  // ---------------------------------------------------------------------------------------
  // Memoisation

  /** Once a node has a value, evaluating it again, with any fuel, gives the same and changes nothing. */
  lemma EvaluatedOnce(ctx: Context, fuel: nat, again: nat, n: Node, st: State)
    requires EvalNode(ctx, fuel, n, st).c.Normal?
    ensures var r := EvalNode(ctx, fuel, n, st); EvalNode(ctx, again, n, r.st) == r
  {
  }

  /** The memoised values of the nodes, in order. */
  function Memoised(memo: map<NodeId, Val>, xs: seq<Node>): (r: seq<Val>)
    requires forall i :: 0 <= i < |xs| ==> xs[i].id in memo
    ensures |r| == |xs| && forall i :: 0 <= i < |xs| ==> r[i] == memo[xs[i].id]
  {
    seq(|xs|, i requires 0 <= i < |xs| => memo[xs[i].id])
  }

  /** Nodes that all have values are not evaluated again: the batch is read from the memo. */
  lemma {:induction false} EvalAllMemoised(ctx: Context, fuel: nat, xs: seq<Node>, st: State)
    requires forall i :: 0 <= i < |xs| ==> xs[i].id in st.memo
    ensures EvalAll(ctx, fuel, xs, st) == Batch(Some(Memoised(st.memo, xs)), st)
  {
    if |xs| > 0 {
      var v := st.memo[xs[0].id];
      assert EvalNode(ctx, fuel, xs[0], st) == Result(Normal(v), st);
      EvalAllMemoised(ctx, fuel, xs[1..], st);
      var vs := Memoised(st.memo, xs[1..]);
      assert EvalAll(ctx, fuel, xs, st) == Batch(Some([v] + vs), st);
      assert Memoised(st.memo, xs) == [v] + vs;
    }
  }

  // ---------------------------------------------------------------------------------------
  // Dispatch: which helper `analyzeNode` hands each node kind to

  lemma AssignmentDispatch(ctx: Context, fuel: nat, n: Node, st: State)
    requires n.kind.AssignmentExpression?
    ensures var k := n.kind;
      Analyze(ctx, fuel, n, st)
        == if k.operator == OpAssign then EvalNode(ctx, fuel, k.right, st) else Binary(ctx, fuel, k.operator, k.left, k.right, st)
  {
    assert Analyze(ctx, fuel, n, st) == AnalyzeOperation(ctx, fuel, n, st);
  }

  lemma BinaryDispatch(ctx: Context, fuel: nat, n: Node, st: State)
    requires n.kind.BinaryExpression? || n.kind.LogicalExpression?
    ensures Analyze(ctx, fuel, n, st) == Binary(ctx, fuel, n.kind.operator, n.kind.left, n.kind.right, st)
  {
    assert Analyze(ctx, fuel, n, st) == AnalyzeOperation(ctx, fuel, n, st);
  }

  lemma UnaryDispatch(ctx: Context, fuel: nat, n: Node, st: State)
    requires n.kind.UnaryExpression? || n.kind.UpdateExpression?
    ensures Analyze(ctx, fuel, n, st)
      == Unary(ctx, fuel, n.kind.operator, if n.kind.UnaryExpression? then true else n.kind.prefix, n.kind.argument, st)
  {
    assert Analyze(ctx, fuel, n, st) == AnalyzeOperation(ctx, fuel, n, st);
  }

  lemma ControlDispatch(ctx: Context, fuel: nat, n: Node, st: State)
    requires n.kind.AwaitExpression? || n.kind.ConditionalExpression?
    ensures var k := n.kind;
      && (k.AwaitExpression? ==> Analyze(ctx, fuel, n, st) == Await(ctx, fuel, k.argument, st))
      && (k.ConditionalExpression? ==> Analyze(ctx, fuel, n, st) == Conditional(ctx, fuel, k.test, k.consequent, k.alternate, st))
  {
    assert Analyze(ctx, fuel, n, st) == AnalyzeOperation(ctx, fuel, n, st);
  }

  lemma MemberDispatch(ctx: Context, fuel: nat, n: Node, st: State)
    requires n.kind.MemberExpression? || n.kind.OptionalMemberExpression?
    ensures Analyze(ctx, fuel, n, st) == MemberAccess(ctx, fuel, n.kind.obj, n.kind.property, n.kind.OptionalMemberExpression?, st)
  {
    assert Analyze(ctx, fuel, n, st) == AnalyzeAccess(ctx, fuel, n, st);
  }

  lemma CallDispatch(ctx: Context, fuel: nat, n: Node, st: State)
    requires n.kind.CallExpression? || n.kind.OptionalCallExpression?
    ensures var k := n.kind;
      && (k.CallExpression? ==> Analyze(ctx, fuel, n, st) == Call(ctx, fuel, k.callee, k.arguments, st))
      && (k.OptionalCallExpression? ==> Analyze(ctx, fuel, n, st) == OptionalCall(ctx, fuel, k.callee, k.arguments, st))
  {
    assert Analyze(ctx, fuel, n, st) == AnalyzeAccess(ctx, fuel, n, st);
  }

  lemma LiteralDispatch(ctx: Context, fuel: nat, n: Node, st: State)
    requires n.kind.ArrayExpression? || n.kind.ObjectExpression?
    ensures var k := n.kind;
      && (k.ArrayExpression? ==> Analyze(ctx, fuel, n, st) == ArrayValue(ctx, fuel, k.elements, st))
      && (k.ObjectExpression? ==> Analyze(ctx, fuel, n, st) == ObjectValue(ctx, fuel, k.properties, st))
  {
    assert Analyze(ctx, fuel, n, st) == AnalyzeLiteral(ctx, fuel, n, st);
  }

  lemma ModuleDispatch(ctx: Context, fuel: nat, n: Node, st: State)
    requires n.kind.ImportDeclaration? || n.kind.ExportAllDeclaration? || n.kind.ExportDefaultDeclaration? || n.kind.Program?
    ensures var k := n.kind;
      var r := Analyze(ctx, fuel, n, st);
      && (k.ImportDeclaration? || k.ExportAllDeclaration? ==> r == Deep(ctx, k.source, st))
      && (k.ExportDefaultDeclaration? ==> r == DefaultExport(ctx, fuel, k.declaration, st))
      && (k.Program? ==> r == Exports(ctx, fuel, k.body, st))
  {
    assert Analyze(ctx, fuel, n, st) == AnalyzeModule(ctx, fuel, n, st);
  }

  // ---------------------------------------------------------------------------------------
  // Operators

  /** `a = b` is the value of `b`. */
  lemma PlainAssignmentIsRightHandSide(ctx: Context, fuel: nat, n: Node, st: State)
    requires n.kind.AssignmentExpression? && n.kind.operator == OpAssign
    ensures Analyze(ctx, fuel, n, st) == EvalNode(ctx, fuel, n.kind.right, st)
  {
    AssignmentDispatch(ctx, fuel, n, st);
  }

  /** `a op= b` is computed exactly as `a op b`. */
  lemma CompoundAssignmentIsBinary(ctx: Context, fuel: nat, id: NodeId, op: Operator, left: Node, right: Node, st: State)
    requires op in CALCULATION_OPERATORS || op in LOGICAL_OPERATORS
    ensures Analyze(ctx, fuel, Node(id, AssignmentExpression(OpCompound(op), left, right)), st)
         == Analyze(ctx, fuel, Node(id, BinaryExpression(op, left, right)), st)
  {
    var assignment := Node(id, AssignmentExpression(OpCompound(op), left, right));
    var binary := Node(id, BinaryExpression(op, left, right));
    AssignmentDispatch(ctx, fuel, assignment, st);
    BinaryDispatch(ctx, fuel, binary, st);
    CompoundOperationIsPlain(ctx, fuel, op, left, right, st);
  }

  /** The operation of `a op= b` is that of `a op b`, operands and all. */
  lemma CompoundOperationIsPlain(ctx: Context, fuel: nat, op: Operator, left: Node, right: Node, st: State)
    requires op in CALCULATION_OPERATORS || op in LOGICAL_OPERATORS
    ensures Binary(ctx, fuel, OpCompound(op), left, right, st) == Binary(ctx, fuel, op, left, right, st)
  {
    CompoundAssignmentUsesPlainOperator(op);
  }

  /** An operator with no function is the sentinel, and neither operand is evaluated. */
  lemma UnsupportedBinaryIsUnknown(ctx: Context, fuel: nat, n: Node, st: State)
    requires n.kind.BinaryExpression? || n.kind.LogicalExpression?
    requires !IsBinaryOperator(n.kind.operator)
    ensures Analyze(ctx, fuel, n, st) == Result(Normal(Unknown), st)
  {
    BinaryDispatch(ctx, fuel, n, st);
    BinaryOperatorDomain(n.kind.operator);
  }

  /** A unary operator with no function is the sentinel, and the argument is not evaluated. */
  lemma UnsupportedUnaryIsUnknown(ctx: Context, fuel: nat, n: Node, st: State)
    requires n.kind.UnaryExpression? && n.kind.operator !in UNARY_OPERATORS
    ensures Analyze(ctx, fuel, n, st) == Result(Normal(Unknown), st)
  {
    UnaryDispatch(ctx, fuel, n, st);
  }

  /** A sentinel operand makes the whole operation the sentinel (unless the other operand throws). */
  lemma UnknownOperandAbsorbs(ctx: Context, fuel: nat, op: Operator, left: Node, right: Node, st: State)
    requires BinaryOperator(op).Some?
    requires EvalNode(ctx, fuel, left, st).c == Normal(Unknown)
          || EvalNode(ctx, fuel, right, EvalNode(ctx, fuel, left, st).st).c == Normal(Unknown)
    ensures var r := Binary(ctx, fuel, op, left, right, st);
      r.c.Normal? ==> r.c.value == Unknown
  {
    EvalPair(ctx, fuel, left, right, st);
  }

  /** Evaluating the two operands of a binary operation: the left one, then the right one. */
  lemma EvalPair(ctx: Context, fuel: nat, left: Node, right: Node, st: State)
    ensures var b := EvalAll(ctx, fuel, [left, right], st);
      var a := EvalNode(ctx, fuel, left, st);
      b.vals.Some? ==>
        && a.c.Normal? && EvalNode(ctx, fuel, right, a.st).c.Normal?
        && b.vals.value == [a.c.value, EvalNode(ctx, fuel, right, a.st).c.value]
  {
    var a := EvalNode(ctx, fuel, left, st);
    assert [left, right][1..] == [right];
    if a.c.Normal? {
      var c := EvalNode(ctx, fuel, right, a.st);
      assert [right][1..] == [];
      if c.c.Normal? {
        assert EvalAll(ctx, fuel, [right], a.st) == Batch(Some([c.c.value] + []), c.st);
      } else {
        assert EvalAll(ctx, fuel, [right], a.st) == Batch(None, c.st);
      }
    }
  }

  /** A sentinel argument makes a unary operation the sentinel. */
  lemma UnknownArgumentAbsorbs(ctx: Context, fuel: nat, op: Operator, prefix: bool, argument: Node, st: State)
    requires UnaryOperator(op, prefix).Some?
    requires EvalNode(ctx, fuel, argument, st).c == Normal(Unknown)
    ensures Unary(ctx, fuel, op, prefix, argument, st).c == Normal(Unknown)
  {
  }

  /**
   * An evaluated `a || b`, `a && b` or `a ?? b` never throws once its operands are evaluated, and
   * is one of their stored values, or the sentinel when either is the sentinel; `??` keeps a
   * non-nullish left operand.
   */
  lemma LogicalExpressionPicksAnOperand(ctx: Context, fuel: nat, n: Node, st: State)
    requires n.kind.LogicalExpression? || n.kind.BinaryExpression?
    requires n.kind.operator == OpOr || n.kind.operator == OpAnd || n.kind.operator == OpCoalesce
    ensures var r := Analyze(ctx, fuel, n, st);
      && (EvalAll(ctx, fuel, [n.kind.left, n.kind.right], st).vals.Some? ==> r.c.Normal?)
      && (r.c.Normal? ==> PicksAnOperand(n.kind.operator, r, n.kind.left, n.kind.right))
  {
    BinaryDispatch(ctx, fuel, n, st);
    BinaryPicksAnOperand(ctx, fuel, n.kind.operator, n.kind.left, n.kind.right, st);
  }

  /** The value of a logical operation in terms of its operands' stored values. */
  ghost predicate PicksAnOperand(op: Operator, r: Result, left: Node, right: Node) {
    && r.c.Normal? && left.id in r.st.memo && right.id in r.st.memo
    && var x := r.st.memo[left.id];
    && var y := r.st.memo[right.id];
    && (if x == Unknown || y == Unknown then r.c.value == Unknown else r.c.value == x || r.c.value == y)
    && (op == OpCoalesce && x != Unknown && y != Unknown && !IsNullish(x) ==> r.c.value == x)
  }

  lemma CallLogicalPicks(host: Host, heap: Heap, f: BinaryOp, x: Val, y: Val)
    requires f == Or || f == And || f == Coalesce
    ensures var c := CallBinary(host, heap, f, x, y).c;
      && c.Normal?
      && (if x == Unknown || y == Unknown then c.value == Unknown else c.value == x || c.value == y)
      && (f == Coalesce && x != Unknown && y != Unknown && !IsNullish(x) ==> c.value == x)
  {
    if x != Unknown && y != Unknown {
      LogicalPicksAnOperand(host, heap, f, x, y);
    }
  }

  lemma BinaryPicksAnOperand(ctx: Context, fuel: nat, op: Operator, left: Node, right: Node, st: State)
    requires op == OpOr || op == OpAnd || op == OpCoalesce
    ensures var r := Binary(ctx, fuel, op, left, right, st);
      && (EvalAll(ctx, fuel, [left, right], st).vals.Some? ==> r.c.Normal?)
      && (r.c.Normal? ==> PicksAnOperand(op, r, left, right))
  {
    var f := if op == OpOr then Or else if op == OpAnd then And else Coalesce;
    assert BinaryOperator(op) == Some(f);
    var b := EvalAll(ctx, fuel, [left, right], st);
    if b.vals.Some? {
      var vs := b.vals.value;
      var r := Binary(ctx, fuel, op, left, right, st);
      assert r.c == CallBinary(ctx.cfg.host, b.st.heap, f, vs[0], vs[1]).c;
      assert r.st.memo[left.id] == vs[0] && r.st.memo[right.id] == vs[1];
      CallLogicalPicks(ctx.cfg.host, b.st.heap, f, vs[0], vs[1]);
    }
  }

  /** `a !== b` and `a === b` over the same operands from the same state are each other's negation. */
  lemma StrictInequalityIsNegatedEquality(ctx: Context, fuel: nat, ne: Node, eq: Node, st: State)
    requires ne.kind.BinaryExpression? && ne.kind.operator == OpStrictNe
    requires eq.kind.BinaryExpression? && eq.kind.operator == OpStrictEq
    requires ne.kind.left == eq.kind.left && ne.kind.right == eq.kind.right
    ensures var a := Analyze(ctx, fuel, ne, st);
      var b := Analyze(ctx, fuel, eq, st);
      NegatedComparison(a, b)
  {
    BinaryDispatch(ctx, fuel, ne, st);
    BinaryDispatch(ctx, fuel, eq, st);
    BinaryNegates(ctx, fuel, ne.kind.left, ne.kind.right, st);
  }

  /** `a` is the sentinel exactly as `b` is, and otherwise the negation of the boolean `b`. */
  ghost predicate NegatedComparison(a: Result, b: Result) {
    && (a.c.Normal? <==> b.c.Normal?)
    && (a.c.Normal? ==>
          || (a.c.value == Unknown && b.c.value == Unknown)
          || (b.c.value.Bool? && a.c.value == Bool(!b.c.value.b)))
  }

  lemma CallStrictNegates(host: Host, heap: Heap, x: Val, y: Val)
    ensures var a := CallBinary(host, heap, StrictNe, x, y).c;
      var b := CallBinary(host, heap, StrictEq, x, y).c;
      && a.Normal? && b.Normal?
      && ((a.value == Unknown && b.value == Unknown) || (b.value.Bool? && a.value == Bool(!b.value.b)))
  {
    if x != Unknown && y != Unknown {
      StrictInequalityNegates(host, heap, x, y);
    }
  }

  lemma BinaryNegates(ctx: Context, fuel: nat, left: Node, right: Node, st: State)
    ensures NegatedComparison(Binary(ctx, fuel, OpStrictNe, left, right, st), Binary(ctx, fuel, OpStrictEq, left, right, st))
  {
    var b := EvalAll(ctx, fuel, [left, right], st);
    if b.vals.Some? {
      var vs := b.vals.value;
      assert BinaryOperator(OpStrictNe) == Some(StrictNe) && BinaryOperator(OpStrictEq) == Some(StrictEq);
      assert Binary(ctx, fuel, OpStrictNe, left, right, st).c == CallBinary(ctx.cfg.host, b.st.heap, StrictNe, vs[0], vs[1]).c;
      assert Binary(ctx, fuel, OpStrictEq, left, right, st).c == CallBinary(ctx.cfg.host, b.st.heap, StrictEq, vs[0], vs[1]).c;
      CallStrictNegates(ctx.cfg.host, b.st.heap, vs[0], vs[1]);
    }
  }

  /** An evaluated `!!e` is the truthiness of the value of `e`, or the sentinel. */
  lemma DoubleNegationIsTruthiness(ctx: Context, fuel: nat, n: Node, st: State)
    requires n.kind.UnaryExpression? && n.kind.operator == OpNot
    requires n.kind.argument.kind.UnaryExpression? && n.kind.argument.kind.operator == OpNot
    requires n.kind.argument.id !in st.memo && fuel > 0
    ensures var e := n.kind.argument.kind.argument;
      var a := EvalNode(ctx, fuel - 1, e, st);
      var r := Analyze(ctx, fuel, n, st);
      && (a.c.Abrupt? ==> r.c.Abrupt?)
      && (a.c.Normal? ==> r.c == Normal(if a.c.value == Unknown then Unknown else Bool(Truthy(a.c.value))))
  {
    var m := n.kind.argument;
    var e := m.kind.argument;
    UnaryDispatch(ctx, fuel, n, st);
    UnaryDispatch(ctx, fuel - 1, m, st);
    var a := EvalNode(ctx, fuel - 1, e, st);
    if a.c.Normal? && a.c.value != Unknown {
      DoubleNotIsTruthiness(ctx.cfg.host, a.st.heap, a.c.value);
    }
  }

  // ---------------------------------------------------------------------------------------
  // Control flow

  /** The condition picks exactly one branch; a sentinel condition picks neither. */
  lemma ConditionalPicksOneBranch(ctx: Context, fuel: nat, n: Node, st: State)
    requires n.kind.ConditionalExpression?
    requires EvalNode(ctx, fuel, n.kind.test, st).c.Normal?
    ensures var a := EvalNode(ctx, fuel, n.kind.test, st);
      var t := a.c.value;
      Analyze(ctx, fuel, n, st) ==
        if t == Unknown then Result(Normal(Unknown), a.st)
        else EvalNode(ctx, fuel, if Truthy(t) then n.kind.consequent else n.kind.alternate, a.st)
  {
    ControlDispatch(ctx, fuel, n, st);
  }

  /** A comma expression is its last expression; an empty one is the sentinel. */
  lemma SequenceIsLastExpression(ctx: Context, fuel: nat, n: Node, st: State)
    requires n.kind.SequenceExpression?
    ensures var es := n.kind.expressions;
      Analyze(ctx, fuel, n, st) == if |es| == 0 then Result(Normal(Unknown), st) else EvalNode(ctx, fuel, es[|es| - 1], st)
  {
    assert Analyze(ctx, fuel, n, st) == AnalyzeOperation(ctx, fuel, n, st);
  }

  /** The first exit of a block is the exit statement that no earlier statement precedes. */
  lemma {:induction false} FirstExitIsEarliest(body: seq<Node>, i: nat)
    requires i < |body| && IsExit(body[i].kind)
    requires forall j :: 0 <= j < i ==> !IsExit(body[j].kind)
    ensures FirstExit(body) == Some(body[i])
  {
    if i > 0 {
      FirstExitIsEarliest(body[1..], i - 1);
    }
  }

  /**
   * A block is the value of its first `return`; a `throw` first, or no exit at all, makes it the
   * sentinel. Statements after the first exit are never evaluated.
   */
  lemma BlockReturnsFirstExit(ctx: Context, fuel: nat, n: Node, st: State, i: nat)
    requires n.kind.BlockStatement? && i < |n.kind.body|
    requires IsExit(n.kind.body[i].kind)
    requires forall j :: 0 <= j < i ==> !IsExit(n.kind.body[j].kind)
    ensures Analyze(ctx, fuel, n, st) ==
      if n.kind.body[i].kind.ThrowStatement? then Result(Normal(Unknown), st)
      else EvalNode(ctx, fuel, n.kind.body[i], st)
  {
    assert Analyze(ctx, fuel, n, st) == AnalyzeStatement(ctx, fuel, n, st);
    FirstExitIsEarliest(n.kind.body, i);
  }

  lemma BlockWithoutExitIsUnknown(ctx: Context, fuel: nat, n: Node, st: State)
    requires n.kind.BlockStatement?
    requires forall j :: 0 <= j < |n.kind.body| ==> !IsExit(n.kind.body[j].kind)
    ensures Analyze(ctx, fuel, n, st) == Result(Normal(Unknown), st)
  {
    assert Analyze(ctx, fuel, n, st) == AnalyzeStatement(ctx, fuel, n, st);
  }

  // ---------------------------------------------------------------------------------------
  // Identifiers

  /** A caller-supplied variable shadows every declaration and global, and is marked safe. */
  lemma VariablesComeFirst(ctx: Context, fuel: nat, n: Node, st: State)
    requires n.kind.Identifier? && n.kind.identifier in ctx.cfg.variables
    ensures var r := Analyze(ctx, fuel, n, st);
      r.c == Normal(ctx.cfg.variables[n.kind.identifier]) && Reflect.IsMarkedAsSafe(r.c.value, r.st.safe)
  {
    assert Analyze(ctx, fuel, n, st) == AnalyzeAccess(ctx, fuel, n, st)
        == EvaluateReference(ctx, fuel, n, n.kind.identifier, st);
  }

  /**
   * A name neither supplied nor declared is a built-in global when there is one, and the sentinel
   * otherwise; a global is not marked safe.
   */
  lemma UndeclaredNameIsGlobalOrUnknown(ctx: Context, fuel: nat, n: Node, st: State)
    requires n.kind.Identifier?
    requires n.kind.identifier !in ctx.cfg.variables && ScopeReference(ctx, n, n.kind.identifier).None?
    ensures var name := n.kind.identifier;
      Analyze(ctx, fuel, n, st) == Result(Normal(if name in ctx.cfg.globals then ctx.cfg.globals[name] else Unknown), st)
  {
    assert Analyze(ctx, fuel, n, st) == AnalyzeAccess(ctx, fuel, n, st)
        == EvaluateReference(ctx, fuel, n, n.kind.identifier, st);
  }

  /** A declared name is its initializer's value projected along the binding's steps. */
  lemma DeclaredNameFollowsInitializer(ctx: Context, fuel: nat, n: Node, st: State)
    requires n.kind.Identifier? && n.kind.identifier !in ctx.cfg.variables
    requires ScopeReference(ctx, n, n.kind.identifier).Some?
    requires ScopeReference(ctx, n, n.kind.identifier).value.init.Some?
    ensures var ref := ScopeReference(ctx, n, n.kind.identifier).value;
      var a := EvalNode(ctx, fuel, ref.init.value, st);
      var r := Analyze(ctx, fuel, n, st);
      a.c.Normal? ==> r.c == Normal(Paths.ApplySteps(a.st.heap, a.c.value, ref.path).v)
  {
    assert Analyze(ctx, fuel, n, st) == AnalyzeAccess(ctx, fuel, n, st)
        == EvaluateReference(ctx, fuel, n, n.kind.identifier, st);
  }

  // ---------------------------------------------------------------------------------------
  // Calls, functions and the related link

  /**
   * A function value from source that is not safe is never called: the call is its body's value.
   * The handle the stand-in gets is unmarked in every valid state, so the requires holds there
   * (WellFormed.FreshHandleIsUnmarked, WellFormed.EvaluatedFunctionCallIsBody).
   */
  lemma UnsafeFunctionCallIsBody(ctx: Context, fuel: nat, st: State, isArrow: bool, body: Val, thisNode: Option<Node>, args: seq<Arg>, isConstruct: bool)
    requires !Reflect.IsMarkedAsSafe(Ref(|st.heap|), st.safe)
    ensures var f := FunctionValue(st, false, isArrow, body);
      Emulate(ctx, fuel, f.c.value, thisNode, args, isConstruct, f.st) == Result(Normal(body), f.st)
  {
  }

  /**
   * Calling an unsafe async function from source and awaiting the result gives its body's value.
   * In a valid state the requires holds (WellFormed.EvaluatedAsyncCallAwaitsBody).
   */
  lemma UnsafeAsyncCallAwaitsBody(ctx: Context, fuel: nat, st: State, isArrow: bool, body: Val, thisNode: Option<Node>, args: seq<Arg>)
    requires !Reflect.IsMarkedAsSafe(Ref(|st.heap|), st.safe)
    ensures var f := FunctionValue(st, true, isArrow, body);
      var call := Emulate(ctx, fuel, f.c.value, thisNode, args, false, f.st);
      call.c.Normal? && IsThenable(call.st.heap, call.c.value) && ExtractRelated(call.st.related, call.c.value) == body
  {
  }

  /**
   * A callee that is not a function is the sentinel and no argument is evaluated; one that is a
   * function but not safe is its related value, again with no argument evaluated.
   */
  lemma CallIsGated(ctx: Context, fuel: nat, n: Node, st: State)
    requires n.kind.CallExpression? && !n.kind.callee.kind.Import?
    requires EvalNode(ctx, fuel, n.kind.callee, st).c.Normal?
    ensures var a := EvalNode(ctx, fuel, n.kind.callee, st);
      var f := a.c.value;
      var r := Analyze(ctx, fuel, n, st);
      && (!IsCallable(a.st.heap, f) ==> r == Result(Normal(Unknown), a.st))
      && (IsCallable(a.st.heap, f) && !Reflect.IsMarkedAsSafe(f, a.st.safe) ==> r == Result(Normal(ExtractRelated(a.st.related, f)), a.st))
      && (IsCallable(a.st.heap, f) && Reflect.IsMarkedAsSafe(f, a.st.safe) && r.c.Normal? ==> Reflect.IsMarkedAsSafe(r.c.value, r.st.safe))
  {
    CallDispatch(ctx, fuel, n, st);
  }

  /**
   * A safe stand-in from source is invoked as the function it stands for: a plain one gives its
   * body's value, an async one a new promise that settles on what the body settles on; either
   * way the result is marked safe.
   */
  lemma SafeStandInCallIsBody(ctx: Context, fuel: nat, st: State, f: Val, isAsync: bool, isArrow: bool, body: Val, props: map<string, Val>)
    requires ObjAt(st.heap, f) == Some(FunctionObj(SourceFunction(isAsync, isArrow, body), props))
    requires Reflect.IsMarkedAsSafe(f, st.safe)
    ensures var r := Emulate(ctx, fuel, f, None, [], false, st);
      && r.c.Normal? && Reflect.IsMarkedAsSafe(r.c.value, r.st.safe)
      && (!isAsync ==> r.c == Normal(body) && r.st.heap == st.heap)
      && (isAsync ==>
            && r.c == Normal(Ref(|st.heap|)) && |r.st.heap| == |st.heap| + 1
            && IsThenable(r.st.heap, r.c.value) && Settle(r.st.heap, r.c.value) == Settle(st.heap, body))
  {
    assert EvalArgs(ctx, fuel, [], st) == Batch(Some([]), st);
  }

  /**
   * Invoking a stand-in and following its related link agree: a plain one returns exactly the
   * value it is linked to, and an async one returns a promise that settles where the promise it
   * is linked to would lead.
   */
  lemma StandInAgreesWithItsLink(host: Host, st: State, isAsync: bool, isArrow: bool, body: Val, thisArg: Val, args: seq<Val>)
    ensures var f := FunctionValue(st, isAsync, isArrow, body);
      var reply := CallFunction(host, f.st.heap, f.c.value, thisArg, args);
      var link := ExtractRelated(f.st.related, f.c.value);
      && reply.c.Normal?
      && (!isAsync ==> reply == Reply(Normal(link), f.st.heap) && link == body)
      && (isAsync ==> IsThenable(reply.heap, reply.c.value) && Settle(reply.heap, reply.c.value) == Settle(f.st.heap, ExtractRelated(f.st.related, link)))
  {
  }

  /**
   * `new` of a safe stand-in from source: an arrow or async one throws; another one gives its
   * body's value when that is an object and a new empty object otherwise.
   */
  lemma SafeStandInConstruct(ctx: Context, fuel: nat, st: State, f: Val, isAsync: bool, isArrow: bool, body: Val, props: map<string, Val>)
    requires ObjAt(st.heap, f) == Some(FunctionObj(SourceFunction(isAsync, isArrow, body), props))
    requires Reflect.IsMarkedAsSafe(f, st.safe)
    ensures var r := Emulate(ctx, fuel, f, None, [], true, st);
      && (isAsync || isArrow ==> r.c.Abrupt?)
      && (!isAsync && !isArrow && body.Ref? ==> r.c == Normal(body))
      && (!isAsync && !isArrow && !body.Ref? ==>
            r.c == Normal(Ref(|st.heap|)) && r.st.heap == st.heap + [PlainObj(map[])])
  {
    assert EvalArgs(ctx, fuel, [], st) == Batch(Some([]), st);
  }

  /**
   * A safe callee is invoked: its receiver is the value of the callee's object for a member call
   * and `undefined` otherwise, and its arguments are the arguments' values in order. A receiver
   * or argument that throws makes the call throw.
   */
  lemma SafeCallInvokesTheCallee(ctx: Context, fuel: nat, n: Node, st: State)
    requires n.kind.CallExpression? && !n.kind.callee.kind.Import?
    requires EvalNode(ctx, fuel, n.kind.callee, st).c.Normal?
    requires var a := EvalNode(ctx, fuel, n.kind.callee, st);
      IsCallable(a.st.heap, a.c.value) && Reflect.IsMarkedAsSafe(a.c.value, a.st.safe)
    ensures var callee := n.kind.callee;
      var args := n.kind.arguments;
      var a := EvalNode(ctx, fuel, callee, st);
      var f := a.c.value;
      var t := if callee.kind.MemberExpression? then EvalNode(ctx, fuel, callee.kind.obj, a.st) else Done(a.st, Undefined);
      var b := EvalArgs(ctx, fuel, Exprs(args), t.st);
      var r := Analyze(ctx, fuel, n, st);
      && (t.c.Abrupt? || (t.c.Normal? && b.vals.None?) ==> r.c.Abrupt?)
      && (t.c.Normal? && b.vals.Some? ==>
            && r.c == CallFunction(ctx.cfg.host, b.st.heap, f, t.c.value, b.vals.value).c
            && |b.vals.value| == |args|
            && forall i :: 0 <= i < |args| ==> args[i].id in b.st.memo && b.vals.value[i] == b.st.memo[args[i].id])
  {
    CallDispatch(ctx, fuel, n, st);
  }

  lemma NewDispatch(ctx: Context, fuel: nat, n: Node, st: State)
    requires n.kind.NewExpression?
    ensures Analyze(ctx, fuel, n, st) == New(ctx, fuel, n.kind.callee, n.kind.arguments, st)
  {
    assert Analyze(ctx, fuel, n, st) == AnalyzeAccess(ctx, fuel, n, st);
  }

  /**
   * `new C(...)` of a safe constructor constructs it with the arguments' values;
   * of a function that is not safe, it is the function's related value, and no argument is
   * evaluated; of anything else, the sentinel.
   */
  lemma NewIsGated(ctx: Context, fuel: nat, n: Node, st: State)
    requires n.kind.NewExpression?
    requires EvalNode(ctx, fuel, n.kind.callee, st).c.Normal?
    ensures var a := EvalNode(ctx, fuel, n.kind.callee, st);
      var f := a.c.value;
      var b := EvalArgs(ctx, fuel, Exprs(n.kind.arguments), a.st);
      var r := Analyze(ctx, fuel, n, st);
      && (!IsCallable(a.st.heap, f) ==> r == Result(Normal(Unknown), a.st))
      && (IsCallable(a.st.heap, f) && !Reflect.IsMarkedAsSafe(f, a.st.safe) ==> r == Result(Normal(ExtractRelated(a.st.related, f)), a.st))
      && (IsCallable(a.st.heap, f) && Reflect.IsMarkedAsSafe(f, a.st.safe) && b.vals.Some? ==>
            r.c == ConstructFunction(ctx.cfg.host, b.st.heap, f, b.vals.value).c)
  {
    NewDispatch(ctx, fuel, n, st);
  }

  /** Without deep evaluation a dynamic import is a promise that awaits to the sentinel. */
  lemma ShallowDynamicImportIsUnknown(ctx: Context, fuel: nat, n: Node, st: State)
    requires n.kind.CallExpression? && n.kind.callee.kind.Import? && !ctx.cfg.deep
    ensures var r := Analyze(ctx, fuel, n, st);
      r.c.Normal? && IsThenable(r.st.heap, r.c.value) && ExtractRelated(r.st.related, r.c.value) == Unknown
  {
    CallDispatch(ctx, fuel, n, st);
  }

  /** `await` of a thenable is its related value; of anything else, the value itself. */
  lemma AwaitLaws(ctx: Context, fuel: nat, n: Node, st: State)
    requires n.kind.AwaitExpression?
    requires EvalNode(ctx, fuel, n.kind.argument, st).c.Normal?
    ensures var a := EvalNode(ctx, fuel, n.kind.argument, st);
      var v := a.c.value;
      Analyze(ctx, fuel, n, st) ==
        Result(Normal(if v != Unknown && IsThenable(a.st.heap, v) then ExtractRelated(a.st.related, v) else v), a.st)
  {
    ControlDispatch(ctx, fuel, n, st);
  }

  // ---------------------------------------------------------------------------------------
  // Member access

  /**
   * Reading a property of null or undefined throws; the optional form gives `undefined`. A
   * computed key that is the sentinel, and a private name, give the sentinel before anything is
   * read.
   */
  lemma NullishMemberAccess(ctx: Context, fuel: nat, n: Node, st: State)
    requires n.kind.MemberExpression? || n.kind.OptionalMemberExpression?
    requires EvalNode(ctx, fuel, n.kind.obj, st).c.Normal? && IsNullish(EvalNode(ctx, fuel, n.kind.obj, st).c.value)
    ensures var a := EvalNode(ctx, fuel, n.kind.obj, st);
      var r := Analyze(ctx, fuel, n, st);
      if n.kind.OptionalMemberExpression? then r.c == Normal(Undefined)
      else if n.kind.property.PrivateName? then r.c == Normal(Unknown)
      else if n.kind.property.Computed? && EvalNode(ctx, fuel, n.kind.property.expression, a.st).c == Normal(Unknown) then r.c == Normal(Unknown)
      else r.c.Abrupt?
  {
    MemberDispatch(ctx, fuel, n, st);
    MemberOfNullish(ctx, fuel, n.kind.obj, n.kind.property, n.kind.OptionalMemberExpression?, st);
  }

  lemma MemberOfNullish(ctx: Context, fuel: nat, obj: Node, property: MemberProperty, optional: bool, st: State)
    requires EvalNode(ctx, fuel, obj, st).c.Normal? && IsNullish(EvalNode(ctx, fuel, obj, st).c.value)
    ensures var a := EvalNode(ctx, fuel, obj, st);
      var r := MemberAccess(ctx, fuel, obj, property, optional, st);
      if optional then r.c == Normal(Undefined)
      else if property.PrivateName? then r.c == Normal(Unknown)
      else if property.Computed? && EvalNode(ctx, fuel, property.expression, a.st).c == Normal(Unknown) then r.c == Normal(Unknown)
      else r.c.Abrupt?
  {
    var a := EvalNode(ctx, fuel, obj, st);
    if !optional {
      assert MemberAccess(ctx, fuel, obj, property, optional, st) == EvaluateProperty(ctx, fuel, a.c.value, property, a.st);
    }
    if !optional && property.Computed? {
      var key := EvalNode(ctx, fuel, property.expression, a.st);
      if key.c.Normal? && key.c.value != Unknown {
        match ToText(ctx.cfg.host, key.st.heap, key.c.value)
        case Some(k) => assert RawGet(key.st.heap, a.c.value, k).Abrupt?;
        case None =>
      }
    }
  }

  /** Any property of the sentinel is the sentinel, whether or not the access is optional. */
  lemma UnknownHasUnknownMembers(ctx: Context, fuel: nat, n: Node, st: State)
    requires n.kind.MemberExpression? || n.kind.OptionalMemberExpression?
    requires EvalNode(ctx, fuel, n.kind.obj, st).c == Normal(Unknown)
    ensures Analyze(ctx, fuel, n, st).c == Normal(Unknown)
  {
    MemberDispatch(ctx, fuel, n, st);
  }

  /** An optional call of null or undefined is `undefined`, and no argument is evaluated. */
  lemma OptionalCallOnNullish(ctx: Context, fuel: nat, n: Node, st: State)
    requires n.kind.OptionalCallExpression?
    requires EvalNode(ctx, fuel, n.kind.callee, st).c.Normal? && IsNullish(EvalNode(ctx, fuel, n.kind.callee, st).c.value)
    ensures Analyze(ctx, fuel, n, st) == Result(Normal(Undefined), EvalNode(ctx, fuel, n.kind.callee, st).st)
  {
    CallDispatch(ctx, fuel, n, st);
  }

  // ---------------------------------------------------------------------------------------
  // Array and object literals

  /**
   * In an object literal, a property whose key resolves to `t` and that no later member
   * overwrites gives the object's `t`: the value of that property.
   */
  lemma ObjectLiteralLastWriteWins(ctx: Context, fuel: nat, n: Node, st: State, i: nat, t: string)
    requires n.kind.ObjectExpression? && i < |n.kind.properties|
    requires EvalAll(ctx, fuel, n.kind.properties, st).vals.Some?
    requires !n.kind.properties[i].kind.SpreadElement?
    requires PropertyKeyOf(n.kind.properties[i]).Some? && KeyText(PropertyKeyOf(n.kind.properties[i]).value) == t
    requires forall j :: i < j < |n.kind.properties| ==>
      !n.kind.properties[j].kind.SpreadElement? && !(PropertyKeyOf(n.kind.properties[j]).Some? && KeyText(PropertyKeyOf(n.kind.properties[j]).value) == t)
    ensures var b := EvalAll(ctx, fuel, n.kind.properties, st);
      var r := Analyze(ctx, fuel, n, st);
      && r.c == Normal(Ref(|b.st.heap|)) && |b.st.heap| < |r.st.heap| && r.st.heap[|b.st.heap|].PlainObj?
      && t in r.st.heap[|b.st.heap|].props && r.st.heap[|b.st.heap|].props[t] == b.st.memo[n.kind.properties[i].id]
  {
    var ps := n.kind.properties;
    var b := EvalAll(ctx, fuel, ps, st);
    LiteralDispatch(ctx, fuel, n, st);
    var ms := ObjectMembers(ps, b.vals.value);
    LastWriteWins(b.st.heap, map[], ms, i, t);
  }

  /**
   * An array literal without spreads has one slot per element: a hole for a hole, and the
   * element's value otherwise.
   */
  lemma ArrayLiteralKeepsHoles(ctx: Context, fuel: nat, n: Node, st: State)
    requires n.kind.ArrayExpression?
    requires forall i :: 0 <= i < |n.kind.elements| ==> n.kind.elements[i].None? || !n.kind.elements[i].value.kind.SpreadElement?
    requires EvalElements(ctx, fuel, n.kind.elements, st).es.Some?
    ensures var b := EvalElements(ctx, fuel, n.kind.elements, st);
      var r := Analyze(ctx, fuel, n, st);
      var es := n.kind.elements;
      && r.c == Normal(Ref(|b.st.heap|)) && |b.st.heap| < |r.st.heap| && r.st.heap[|b.st.heap|].ArrayObj?
      && |r.st.heap[|b.st.heap|].slots| == |es|
      && forall i :: 0 <= i < |es| ==>
           r.st.heap[|b.st.heap|].slots[i] == if es[i].None? then Hole else Item(b.st.memo[es[i].value.id])
  {
    var b := EvalElements(ctx, fuel, n.kind.elements, st);
    LiteralDispatch(ctx, fuel, n, st);
    ArrayWithoutSpreads(b.st.heap, b.es.value);
  }

  // ---------------------------------------------------------------------------------------
  // Modules

  /** Filtering the export statements twice is filtering them once. */
  lemma {:induction false} ExportStatementsIdempotent(body: seq<Node>)
    ensures ExportStatements(ExportStatements(body)) == ExportStatements(body)
  {
    if |body| > 0 {
      ExportStatementsIdempotent(body[1..]);
      ExportStatementsAppend(if IsExportStatement(body[0].kind) then [body[0]] else [], ExportStatements(body[1..]));
    }
  }

  lemma {:induction false} ExportStatementsAppend(a: seq<Node>, b: seq<Node>)
    ensures ExportStatements(a + b) == ExportStatements(a) + ExportStatements(b)
  {
    if |a| > 0 {
      assert (a + b)[1..] == a[1..] + b;
      ExportStatementsAppend(a[1..], b);
    } else {
      assert a + b == b;
    }
  }

  lemma {:induction false} NothingToExport(body: seq<Node>)
    requires forall i :: 0 <= i < |body| ==> !IsExportStatement(body[i].kind)
    ensures ExportStatements(body) == []
  {
    if |body| > 0 {
      NothingToExport(body[1..]);
    }
  }

  /** Statements other than exports do not contribute to a module's value, and are not evaluated. */
  lemma NonExportsAreIgnored(ctx: Context, fuel: nat, body: seq<Node>, st: State)
    ensures Exports(ctx, fuel, body, st) == Exports(ctx, fuel, ExportStatements(body), st)
  {
    ExportStatementsIdempotent(body);
  }

  /** A module without export statements is a new empty object, and nothing in it is evaluated. */
  lemma NoExportsIsEmptyObject(ctx: Context, fuel: nat, n: Node, st: State)
    requires n.kind.Program?
    requires forall i :: 0 <= i < |n.kind.body| ==> !IsExportStatement(n.kind.body[i].kind)
    ensures Analyze(ctx, fuel, n, st) == Result(Normal(Ref(|st.heap|)), st.(heap := st.heap + [PlainObj(map[])]))
  {
    ModuleDispatch(ctx, fuel, n, st);
    var xs := ExportStatements(n.kind.body);
    NothingToExport(n.kind.body);
    assert EvalAll(ctx, fuel, xs, st) == Batch(Some([]), st);
    assert Spreads([]) == [];
    assert BuildObject(st.heap, map[], []) == map[];
  }

  /**
   * A module's value merges its export statements' values in order, `{...exports, ...chunk}`:
   * a name is exported exactly when some statement's value other than the sentinel has it as an
   * own entry, and it holds that entry of the last such statement.
   */
  lemma ExportsMergeInOrder(ctx: Context, fuel: nat, n: Node, st: State, t: string, i: nat)
    requires n.kind.Program?
    requires EvalAll(ctx, fuel, ExportStatements(n.kind.body), st).vals.Some?
    ensures var xs := ExportStatements(n.kind.body);
      var b := EvalAll(ctx, fuel, xs, st);
      var vs := b.vals.value;
      var r := Analyze(ctx, fuel, n, st);
      && |vs| == |xs| && (forall j :: 0 <= j < |xs| ==> xs[j].id in b.st.memo && vs[j] == b.st.memo[xs[j].id])
      && r.c == Normal(Ref(|b.st.heap|)) && |b.st.heap| < |r.st.heap| && r.st.heap[|b.st.heap|].PlainObj?
      && var props := r.st.heap[|b.st.heap|].props;
      && (t in props <==> exists j :: 0 <= j < |vs| && vs[j] != Unknown && t in AssignSource(b.st.heap, vs[j]))
      && (i < |vs| && vs[i] != Unknown && t in AssignSource(b.st.heap, vs[i])
          && (forall j :: i < j < |vs| ==> vs[j] == Unknown || t !in AssignSource(b.st.heap, vs[j])) ==>
            t in props && props[t] == AssignSource(b.st.heap, vs[i])[t])
  {
    var b := EvalAll(ctx, fuel, ExportStatements(n.kind.body), st);
    ModuleDispatch(ctx, fuel, n, st);
    assert Analyze(ctx, fuel, n, st) == Allocated(b.st, PlainObj(BuildObject(b.st.heap, map[], Spreads(b.vals.value))));
    SpreadsMerge(b.st.heap, b.vals.value, t, i);
  }

  /**
   * A module the caller supplies wins over deep evaluation, and is marked safe: its value is the
   * supplied definition awaited, after calling it when it is a function.
   */
  lemma SuppliedModuleWins(ctx: Context, fuel: nat, n: Node, st: State)
    requires n.kind.ImportDeclaration? || n.kind.ExportAllDeclaration?
    requires n.kind.source in ctx.cfg.modules
    ensures var r := Analyze(ctx, fuel, n, st);
      var definition := ctx.cfg.modules[n.kind.source];
      && r.st.related == st.related && (r.c.Normal? ==> Reflect.IsMarkedAsSafe(r.c.value, r.st.safe))
      && (!IsCallable(st.heap, definition) ==> r.c == Normal(Settle(st.heap, definition)))
      && (IsCallable(st.heap, definition) ==>
            var reply := CallFunction(ctx.cfg.host, st.heap, definition, Undefined, []);
            && (reply.c.Abrupt? ==> r.c.Abrupt?)
            && (reply.c.Normal? ==> r.c == Normal(Settle(reply.heap, reply.c.value))))
  {
    ModuleDispatch(ctx, fuel, n, st);
  }

  /** `export default e` is a new object whose `default` is the value of `e`. */
  lemma DefaultExportRecord(ctx: Context, fuel: nat, n: Node, st: State)
    requires n.kind.ExportDefaultDeclaration?
    requires EvalNode(ctx, fuel, n.kind.declaration, st).c.Normal?
    ensures var a := EvalNode(ctx, fuel, n.kind.declaration, st);
      var r := Analyze(ctx, fuel, n, st);
      r.c == Normal(Ref(|a.st.heap|)) && |a.st.heap| < |r.st.heap|
      && r.st.heap[|a.st.heap|] == PlainObj(map["default" := a.c.value])
  {
    ModuleDispatch(ctx, fuel, n, st);
    var a := EvalNode(ctx, fuel, n.kind.declaration, st);
    LastWriteWins(a.st.heap, map[], FromEntries(["default"], [a.c.value]), 0, "default");
    assert BuildObject(a.st.heap, map[], FromEntries(["default"], [a.c.value])).Keys == {"default"};
  }

  // ---------------------------------------------------------------------------------------
  // Named exports and class statics

  lemma ExportNamedDispatch(ctx: Context, fuel: nat, n: Node, st: State)
    requires n.kind.ExportNamedDeclaration?
    ensures Analyze(ctx, fuel, n, st)
      == ExportNamed(ctx, fuel, n, n.kind.namedDeclaration, n.kind.exportSpecifiers, n.kind.from, st)
  {
    assert Analyze(ctx, fuel, n, st) == AnalyzeModule(ctx, fuel, n, st);
  }

  lemma ClassBodyDispatch(ctx: Context, fuel: nat, n: Node, st: State)
    requires n.kind.ClassBody?
    ensures Analyze(ctx, fuel, n, st) == ClassValue(ctx, fuel, n.kind.members, st)
  {
    assert Analyze(ctx, fuel, n, st) == AnalyzeDefinition(ctx, fuel, n, st);
  }

  lemma EnumDispatch(ctx: Context, fuel: nat, n: Node, st: State)
    requires n.kind.TSEnumDeclaration?
    ensures Analyze(ctx, fuel, n, st) == EnumValue(ctx, fuel, n.kind.enumMembers, st)
  {
    assert Analyze(ctx, fuel, n, st) == AnalyzeModule(ctx, fuel, n, st);
  }

  lemma TemplateDispatch(ctx: Context, fuel: nat, n: Node, st: State)
    requires n.kind.TemplateLiteral? || n.kind.TaggedTemplateExpression?
    ensures var k := n.kind;
      && (k.TemplateLiteral? ==> Analyze(ctx, fuel, n, st) == TemplateValue(ctx, fuel, k.quasis, k.expressions, st))
      && (k.TaggedTemplateExpression? ==> Analyze(ctx, fuel, n, st) == Tagged(ctx, fuel, k.tag, k.quasiElements, k.expressions, st))
  {
    if n.kind.TemplateLiteral? {
      assert Analyze(ctx, fuel, n, st) == AnalyzeLiteral(ctx, fuel, n, st);
    } else {
      assert Analyze(ctx, fuel, n, st) == AnalyzeAccess(ctx, fuel, n, st);
    }
  }

  /**
   * An enum declaration is a fresh object holding the enum's record, built from its members'
   * evaluated initializers and names; it throws when a member throws or the record cannot be built.
   */
  lemma EnumDeclarationIsItsRecord(ctx: Context, fuel: nat, n: Node, st: State)
    requires n.kind.TSEnumDeclaration?
    ensures var b := EvalEnumMembers(ctx, fuel, n.kind.enumMembers, st);
      var r := Analyze(ctx, fuel, n, st);
      && (r.c.Normal? <==> b.chunks.Some? && EnumRecord(ctx.cfg.host, b.st.heap, b.chunks.value).Some?)
      && (r.c.Normal? ==>
            && r.c == Normal(Ref(|b.st.heap|))
            && r.st.heap == b.st.heap + [PlainObj(EnumRecord(ctx.cfg.host, b.st.heap, b.chunks.value).value)])
  {
    EnumDispatch(ctx, fuel, n, st);
  }

  /**
   * A template literal is the string of its quasis interleaved with the texts of its evaluated
   * expressions; it throws when an expression throws or has no text.
   */
  lemma TemplateLiteralIsItsText(ctx: Context, fuel: nat, n: Node, st: State)
    requires n.kind.TemplateLiteral?
    ensures var b := EvalAll(ctx, fuel, n.kind.expressions, st);
      var r := Analyze(ctx, fuel, n, st);
      && (r.c.Normal? <==> b.vals.Some? && TemplateText(ctx.cfg.host, b.st.heap, n.kind.quasis, b.vals.value).Some?)
      && (r.c.Normal? ==> r.c == Normal(Str(TemplateText(ctx.cfg.host, b.st.heap, n.kind.quasis, b.vals.value).value)))
  {
    TemplateDispatch(ctx, fuel, n, st);
  }

  /**
   * A tagged template calls its tag like a call expression: the sentinel when the tag is not a
   * function, and otherwise an emulated call with the quasis array followed by the expressions.
   */
  lemma TaggedTemplateIsGated(ctx: Context, fuel: nat, n: Node, st: State)
    requires n.kind.TaggedTemplateExpression?
    requires EvalNode(ctx, fuel, n.kind.tag, st).c.Normal?
    ensures var k := n.kind;
      var a := EvalNode(ctx, fuel, k.tag, st);
      var f := a.c.value;
      var r := Analyze(ctx, fuel, n, st);
      && (!IsCallable(a.st.heap, f) ==> r == Result(Normal(Unknown), a.st))
      && (IsCallable(a.st.heap, f) ==>
            r == Emulate(ctx, fuel, f, ThisOf(k.tag), [QuasiArray(k.quasiElements)] + Exprs(k.expressions), false, a.st))
  {
    TemplateDispatch(ctx, fuel, n, st);
  }

  /** A record allocated from entries: exactly the entries' names, each holding its last value. */
  lemma RecordShape(st: State, names: seq<string>, vs: seq<Val>, i: nat)
    requires |names| == |vs| && i < |names|
    requires forall j :: i < j < |names| ==> names[j] != names[i]
    ensures var r := Record(st, names, vs);
      && r.c == Normal(Ref(|st.heap|)) && |st.heap| < |r.st.heap| && r.st.heap[|st.heap|].PlainObj?
      && names[i] in r.st.heap[|st.heap|].props && r.st.heap[|st.heap|].props[names[i]] == vs[i]
      && forall t :: t in r.st.heap[|st.heap|].props ==> t in names
  {
    EntriesLastWins(st.heap, names, vs, i);
    forall t | t !in names ensures t !in BuildObject(st.heap, map[], FromEntries(names, vs)) {
      EntriesOnlyTheirNames(st.heap, names, vs, t);
    }
  }

  /**
   * `export {a as b}` without a source: a fresh object whose `b` is the value of `a` (the
   * sentinel for a namespace or default specifier), and with no key that is not exported.
   */
  lemma LocalSpecifiersExportTheirLocals(ctx: Context, fuel: nat, n: Node, specs: seq<ExportSpecifier>, st: State, i: nat)
    requires EvalSpecifiers(ctx, fuel, specs, st).vals.Some?
    requires i < |specs| && forall j :: i < j < |specs| ==> specs[j].exported != specs[i].exported
    ensures var b := EvalSpecifiers(ctx, fuel, specs, st);
      var r := ExportNamed(ctx, fuel, n, None, specs, None, st);
      && r.c == Normal(Ref(|b.st.heap|)) && |b.st.heap| < |r.st.heap| && r.st.heap[|b.st.heap|].PlainObj?
      && var props := r.st.heap[|b.st.heap|].props;
      && specs[i].exported in props
      && props[specs[i].exported] == (if specs[i].ExportSpec? then b.st.memo[specs[i].local.id] else Unknown)
      && forall t :: t in props ==> exists j :: 0 <= j < |specs| && specs[j].exported == t
  {
    var b := EvalSpecifiers(ctx, fuel, specs, st);
    var names := ExportedNames(specs);
    RecordShape(b.st, names, b.vals.value, i);
    forall t | t in names ensures exists j :: 0 <= j < |specs| && specs[j].exported == t {
      var j :| 0 <= j < |names| && names[j] == t;
    }
  }

  /**
   * A shallow re-export reads its specifiers from the sentinel: a namespace specifier is the
   * sentinel, a default specifier is `undefined`, and a named one is `undefined` unless it names
   * the sentinel's `description`.
   */
  lemma ShallowReExport(heap: Heap, specs: seq<ExportSpecifier>, i: nat)
    requires i < |specs|
    ensures var r := ReExported(heap, Unknown, specs);
      && r.Some?
      && r.value[i] == (
        if specs[i].ExportNamespaceSpec? then Unknown
        else if specs[i].ExportSpec? && NameOf(specs[i].local) == "description" then Str(UNKNOWN_DESCRIPTION)
        else Undefined)
  {
  }

  /**
   * `export {a as b} from 'm'`: a fresh object whose `b` is the module itself for a namespace
   * specifier and the module's property otherwise; reading from a nullish module throws.
   */
  lemma ReExportReadsTheModule(ctx: Context, fuel: nat, n: Node, specs: seq<ExportSpecifier>, source: string, st: State, i: nat)
    requires Deep(ctx, source, st).c.Normal?
    requires i < |specs| && forall j :: i < j < |specs| ==> specs[j].exported != specs[i].exported
    ensures var a := Deep(ctx, source, st);
      var m := a.c.value;
      var r := ExportNamed(ctx, fuel, n, None, specs, Some(source), st);
      && (IsNullish(m) && !specs[i].ExportNamespaceSpec? ==> r.c.Abrupt?)
      && ((!IsNullish(m) || (forall j :: 0 <= j < |specs| ==> specs[j].ExportNamespaceSpec?)) ==>
            && r.c == Normal(Ref(|a.st.heap|)) && |a.st.heap| < |r.st.heap| && r.st.heap[|a.st.heap|].PlainObj?
            && var props := r.st.heap[|a.st.heap|].props;
            && specs[i].exported in props
            && match specs[i]
               case ExportNamespaceSpec(_) => props[specs[i].exported] == m
               case ExportDefaultSpec(_) => RawGet(a.st.heap, m, "default") == Normal(props[specs[i].exported])
               case ExportSpec(local, _) => RawGet(a.st.heap, m, NameOf(local)) == Normal(props[specs[i].exported]))
  {
    var a := Deep(ctx, source, st);
    var rx := ReExported(a.st.heap, a.c.value, specs);
    if rx.Some? {
      RecordShape(a.st, ExportedNames(specs), rx.value, i);
    }
  }

  /**
   * `export const x = e`: a fresh object holding every declared name, each with the value an
   * identifier at the export statement has: a supplied variable as supplied, an unbound name
   * as the built-in global or the sentinel, a bound name its initializer's projected value.
   */
  lemma ExportedVariablesAreReferences(ctx: Context, fuel: nat, n: Node, d: Node, specs: seq<ExportSpecifier>, from: Option<string>, st: State, i: nat)
    requires d.kind.VariableDeclaration?
    requires ReferenceAll(ctx, fuel, n, DeclaredNames(d.kind.declarations), st).vals.Some?
    requires var names := DeclaredNames(d.kind.declarations);
      i < |names| && forall j :: i < j < |names| ==> names[j] != names[i]
    ensures var names := DeclaredNames(d.kind.declarations);
      var b := ReferenceAll(ctx, fuel, n, names, st);
      var r := ExportNamed(ctx, fuel, n, Some(d), specs, from, st);
      var x := names[i];
      && r.c == Normal(Ref(|b.st.heap|)) && |b.st.heap| < |r.st.heap| && r.st.heap[|b.st.heap|].PlainObj?
      && var props := r.st.heap[|b.st.heap|].props;
      && x in props && props[x] == b.vals.value[i]
      && (x in ctx.cfg.variables ==> props[x] == ctx.cfg.variables[x])
      && (x !in ctx.cfg.variables && ScopeReference(ctx, n, x).None? ==>
            props[x] == if x in ctx.cfg.globals then ctx.cfg.globals[x] else Unknown)
      && |ReadHeaps(ctx, fuel, n, names, st)| == |names|
      && IsReferenceValue(ctx, n, x, r.st.memo, ReadHeaps(ctx, fuel, n, names, st)[i], props[x])
      && forall t :: t in props ==> t in names
  {
    var names := DeclaredNames(d.kind.declarations);
    var b := ReferenceAll(ctx, fuel, n, names, st);
    RecordShape(b.st, names, b.vals.value, i);
  }

  /**
   * `export const {a} = e`: the exported `a` is the value of `e` projected along the binding's
   * steps, over the heap the evaluation of `e` leaves.
   */
  lemma DestructuredExportIsProjection(ctx: Context, fuel: nat, n: Node, d: Node, specs: seq<ExportSpecifier>, from: Option<string>, st: State, x: string)
    requires d.kind.VariableDeclaration? && DeclaredNames(d.kind.declarations) == [x]
    requires x !in ctx.cfg.variables && ScopeReference(ctx, n, x).Some? && ScopeReference(ctx, n, x).value.init.Some?
    requires ReferenceAll(ctx, fuel, n, [x], st).vals.Some?
    ensures var ref := ScopeReference(ctx, n, x).value;
      var a := EvalNode(ctx, fuel, ref.init.value, st);
      var b := ReferenceAll(ctx, fuel, n, [x], st);
      var r := ExportNamed(ctx, fuel, n, Some(d), specs, from, st);
      && a.c.Normal?
      && r.c == Normal(Ref(|b.st.heap|)) && |b.st.heap| < |r.st.heap| && r.st.heap[|b.st.heap|].PlainObj?
      && x in r.st.heap[|b.st.heap|].props
      && r.st.heap[|b.st.heap|].props[x] == Paths.ApplySteps(a.st.heap, a.c.value, ref.path).v
  {
    var ref := ScopeReference(ctx, n, x).value;
    var a := EvalNode(ctx, fuel, ref.init.value, st);
    var b := ReferenceAll(ctx, fuel, n, [x], st);
    assert EvaluateReference(ctx, fuel, n, x, st).c.Normal?;
    assert ReadHeaps(ctx, fuel, n, [x], st)[0] == a.st.heap;
    ExportedVariablesAreReferences(ctx, fuel, n, d, specs, from, st, 0);
  }

  /** `export function f() {}` and the like: a fresh object whose only key is the declaration's name. */
  lemma ExportedDeclarationUnderItsName(ctx: Context, fuel: nat, n: Node, d: Node, specs: seq<ExportSpecifier>, from: Option<string>, st: State)
    requires !d.kind.VariableDeclaration?
    requires EvalNode(ctx, fuel, d, st).c.Normal?
    ensures var a := EvalNode(ctx, fuel, d, st);
      var r := ExportNamed(ctx, fuel, n, Some(d), specs, from, st);
      var name := DeclarationName(d);
      && r.c == Normal(Ref(|a.st.heap|)) && |a.st.heap| < |r.st.heap|
      && r.st.heap[|a.st.heap|] == PlainObj(if name.Some? && |name.value| > 0 then map[name.value := a.c.value] else map[])
  {
    var a := EvalNode(ctx, fuel, d, st);
    var name := DeclarationName(d);
    if name.Some? && |name.value| > 0 {
      var m := BuildObject(a.st.heap, map[], FromEntries([name.value], [a.c.value]));
      RecordShape(a.st, [name.value], [a.c.value], 0);
      assert m == map[name.value := a.c.value];
    } else {
      assert FromEntries([], []) == [];
    }
  }

  /**
   * A class body is a fresh class whose property `t` holds the value of the last static member
   * keyed `t`; instance members take no part.
   */
  lemma ClassStaticLastWriteWins(ctx: Context, fuel: nat, members: seq<Node>, st: State, i: nat, t: string)
    requires EvalAll(ctx, fuel, StaticMembers(members), st).vals.Some?
    requires var statics := StaticMembers(members);
      && i < |statics| && PropertyKeyOf(statics[i]).Some? && KeyText(PropertyKeyOf(statics[i]).value) == t
      && forall j :: i < j < |statics| ==> !(PropertyKeyOf(statics[j]).Some? && KeyText(PropertyKeyOf(statics[j]).value) == t)
    ensures var statics := StaticMembers(members);
      var b := EvalAll(ctx, fuel, statics, st);
      var r := ClassValue(ctx, fuel, members, st);
      && r.c == Normal(Ref(|b.st.heap|)) && |b.st.heap| < |r.st.heap|
      && r.st.heap[|b.st.heap|].FunctionObj? && r.st.heap[|b.st.heap|].origin == ClassOrigin
      && t in r.st.heap[|b.st.heap|].props && r.st.heap[|b.st.heap|].props[t] == b.st.memo[statics[i].id]
      && statics[i] in members && statics[i].kind.isStatic
  {
    var statics := StaticMembers(members);
    var b := EvalAll(ctx, fuel, statics, st);
    LastWriteWins(b.st.heap, map[], KeyedMembers(statics, b.vals.value), i, t);
    assert statics[i] in statics;
  }
}

=== FILE: host.dfy ===
/**
 * Everything the engine hands to the JavaScript host rather than computing itself, gathered in
 * one record of functions the model leaves uninterpreted: invoking a function or constructor the
 * caller supplied,
 * the operator cases outside the integer and boolean subset the model computes exactly, turning
 * an object into text, and evaluating another module when deep evaluation is on.
 */
module Hosting {
  import opened Optional
  import opened Values

  /** What a host invocation returns: its completion and the heap it leaves behind. */
  datatype Reply = Reply(c: Completion, heap: Heap)

  /**
   * What evaluating another module yields: its completion, the heap afterwards, and the objects
   * it marked safe and linked to related values on the way (the safe set and the related map
   * are process-wide in the original, so a nested evaluation can only add to them).
   */
  datatype Imported = Imported(c: Completion, heap: Heap, marked: set<Handle>, linked: map<Handle, Val>)

  datatype Host = Host(
    call: (Val, Val, seq<Val>, Heap) -> Reply,  // target.call(thisArg, ...args) of a host function
    construct: (Val, seq<Val>, Heap) -> Reply,  // new target(...args) of a host function
    operate: (string, Val, Val, Heap) -> Completion,
    operateUnary: (string, Val, Heap) -> Completion,
    toText: (Val, Heap) -> Option<string>,      // String(object); None when it throws
    deep: (string, Heap) -> Imported)

  /** A reply that frees no object and leaves no handle dangling. */
  predicate LawfulReply(heap: Heap, reply: Reply) {
    && |heap| <= |reply.heap| && Closed(reply.heap)
    && (reply.c.Normal? ==> Fits(|reply.heap|, reply.c.value))
  }

  /** An imported module that frees no object and marks and links only objects of the heap. */
  predicate LawfulImport(heap: Heap, imported: Imported) {
    && |heap| <= |imported.heap| && Closed(imported.heap)
    && (imported.c.Normal? ==> Fits(|imported.heap|, imported.c.value))
    && (forall h :: h in imported.marked ==> h < |imported.heap|)
    && (forall h :: h in imported.linked ==> h < |imported.heap| && Fits(|imported.heap|, imported.linked[h]))
  }

  /**
   * A host that behaves as a JavaScript engine does towards object identity: it never frees an
   * object, and every handle it returns or stores names an object.
   */
  ghost predicate Lawful(host: Host) {
    && (forall f, thisArg, args, heap :: Closed(heap) ==> LawfulReply(heap, host.call(f, thisArg, args, heap)))
    && (forall f, args, heap :: Closed(heap) ==> LawfulReply(heap, host.construct(f, args, heap)))
    && (forall op, a, b, heap :: Closed(heap) && host.operate(op, a, b, heap).Normal? ==> Fits(|heap|, host.operate(op, a, b, heap).value))
    && (forall op, a, heap :: Closed(heap) && host.operateUnary(op, a, heap).Normal? ==> Fits(|heap|, host.operateUnary(op, a, heap).value))
    && (forall source, heap :: Closed(heap) ==> LawfulImport(heap, host.deep(source, heap)))
  }

  /**
   * The evaluator's options. `variables` are caller-supplied definitions for free identifiers,
   * `modules` are caller-supplied module values (a callable entry is invoked to produce the
   * module), `globals` are the host's built-in globals, and `deep` turns on the evaluation of
   * imported modules.
   */
  datatype Config = Config(
    deep: bool,
    variables: map<string, Val>,
    modules: map<string, Val>,
    globals: map<string, Val>,
    host: Host)
}

=== FILE: numerals.dfy ===
/**
 * Decimal numerals: how the engine's host turns an integer into a property key or into text,
 * and how a property key is recognised as an array index.
 */
module Numerals {
  import opened Optional

  function DigitChar(d: nat): (c: char)
    requires d < 10
    ensures '0' <= c <= '9'
  {
    ('0' as int + d) as char
  }

  predicate IsDigit(c: char) {
    '0' <= c <= '9'
  }

  function DigitValue(c: char): (d: nat)
    requires IsDigit(c)
    ensures d < 10
  {
    c as int - '0' as int
  }

  /** Decimal text of a natural number, without leading zeros. */
  function NatToString(n: nat): (s: string)
    ensures |s| > 0
    ensures forall i :: 0 <= i < |s| ==> IsDigit(s[i])
    ensures |s| > 1 ==> s[0] != '0'
    decreases n
  {
    if n < 10 then [DigitChar(n)] else NatToString(n / 10) + [DigitChar(n % 10)]
  }

  /** Decimal text of an integer (JavaScript's `String(n)` for an integral number). */
  function IntToString(i: int): (s: string)
    ensures |s| > 0
  {
    if i < 0 then "-" + NatToString(-i) else NatToString(i)
  }

  /** Value of a non-empty run of decimal digits. */
  function DigitsValue(s: string): nat
    requires forall i :: 0 <= i < |s| ==> IsDigit(s[i])
  {
    if |s| == 0 then 0 else DigitsValue(s[..|s| - 1]) * 10 + DigitValue(s[|s| - 1])
  }

  /** Canonical decimal form: digits only, and no leading zero unless the text is "0". */
  predicate IsCanonicalIndex(s: string) {
    && |s| > 0
    && (forall i :: 0 <= i < |s| ==> IsDigit(s[i]))
    && (|s| > 1 ==> s[0] != '0')
  }

  /**
   * A property key names an array element exactly when it is the canonical decimal text of a
   * natural number.
   */
  function ParseIndex(s: string): (r: Option<nat>)
    ensures r.Some? <==> IsCanonicalIndex(s)
  {
    if IsCanonicalIndex(s) then Some(DigitsValue(s)) else None
  }

  lemma {:induction false} DigitsValueOfNatToString(n: nat)
    ensures DigitsValue(NatToString(n)) == n
    decreases n
  {
    if n >= 10 {
      var s := NatToString(n / 10) + [DigitChar(n % 10)];
      assert s[..|s| - 1] == NatToString(n / 10);
      DigitsValueOfNatToString(n / 10);
    }
  }

  /** Round trip: the text of a natural number parses back to that number. */
  lemma IndexRoundTrip(n: nat)
    ensures ParseIndex(NatToString(n)) == Some(n)
  {
    DigitsValueOfNatToString(n);
  }

  /** Distinct natural numbers have distinct texts, so they name distinct properties. */
  lemma NatToStringInjective(m: nat, n: nat)
    ensures NatToString(m) == NatToString(n) <==> m == n
  {
    if NatToString(m) == NatToString(n) {
      IndexRoundTrip(m);
      IndexRoundTrip(n);
    }
  }

  /** A negative integer's text is never an array index. */
  lemma NegativeIsNotIndex(i: int)
    requires i < 0
    ensures ParseIndex(IntToString(i)) == None
  {
    assert IntToString(i)[0] == '-';
  }
}

=== FILE: objects.dfy ===
/**
 * What the engine relies on the JavaScript object model for: reading a property, listing an
 * object's own enumerable entries (for spreads, `Object.assign` and object rest patterns),
 * recognising a thenable, and `Promise.resolve`.
 *
 * Prototype members are not modelled: a method such as `slice` or `then` inherited from a
 * built-in prototype reads as `undefined`.
 */
module Objects {
  import opened Optional
  import opened Numerals
  import opened Values
  import opened Hosting
  import Syntax

  /** The text the sentinel symbol reports as its `description`. */
  const UNKNOWN_DESCRIPTION: string := "PARSEPORT_UNKNOWN"

  /** A statically resolved key as the property name the host stores it under. */
  function KeyText(k: Syntax.ObjKey): (r: string)
    ensures k.StrKey? ==> r == k.s
    ensures k.NumKey? && k.n >= 0 ==> ParseIndex(r) == Some(k.n)
  {
    match k
    case StrKey(s) => s
    case NumKey(n) =>
      assert n >= 0 ==> ParseIndex(IntToString(n)) == Some(n) by {
        if n >= 0 { IndexRoundTrip(n); }
      }
      IntToString(n)
  }

  /**
   * The text of a value where it is concatenated to a string or used as a property key. An
   * object's text comes from the host; the sentinel symbol cannot be converted (a TypeError).
   */
  function ToText(host: Host, heap: Heap, v: Val): (r: Option<string>)
    ensures v == Unknown ==> r.None?
    ensures v.Str? ==> r == Some(v.s)
    ensures v.Num? ==> r == Some(IntToString(v.n))
  {
    match v
    case Unknown => None
    case Undefined => Some("undefined")
    case Null => Some("null")
    case Bool(b) => Some(if b then "true" else "false")
    case Num(n) => Some(IntToString(n))
    case BigInt(i) => Some(IntToString(i))
    case Str(s) => Some(s)
    case Ref(_) => host.toText(v, heap)
  }

  /** The own enumerable entries of an array's slots: every index that is not a hole. */
  function SlotEntries(slots: seq<Slot>): (r: map<string, Val>)
    ensures forall i :: 0 <= i < |slots| && slots[i].Item? ==> NatToString(i) in r && r[NatToString(i)] == slots[i].v
    ensures forall k :: k in r ==> exists i :: 0 <= i < |slots| && slots[i].Item? && k == NatToString(i)
  {
    assert forall i, j :: 0 <= i < |slots| && 0 <= j < |slots| && NatToString(i) == NatToString(j) ==> i == j by {
      forall i, j | 0 <= i < |slots| && 0 <= j < |slots| && NatToString(i) == NatToString(j) ensures i == j {
        NatToStringInjective(i, j);
      }
    }
    map i | 0 <= i < |slots| && slots[i].Item? :: NatToString(i) := slots[i].v
  }

  /** A string's characters as single-character strings, one per index. */
  function CharSlots(s: string): (r: seq<Slot>)
    ensures |r| == |s|
    ensures forall i :: 0 <= i < |s| ==> r[i] == Item(Str([s[i]]))
  {
    seq(|s|, i requires 0 <= i < |s| => Item(Str([s[i]])))
  }

  /**
   * `Object.entries(value)` for a value that is not null or undefined: a string's characters,
   * an array's present elements, the properties of a plain object or of a function, and nothing
   * for every other value.
   */
  function OwnEntries(heap: Heap, v: Val): map<string, Val> {
    match v
    case Str(s) => SlotEntries(CharSlots(s))
    case Ref(_) =>
      if v.h < |heap| then
        match heap[v.h]
        case ArrayObj(slots) => SlotEntries(slots)
        case PlainObj(props) => props
        case FunctionObj(_, props) => props
        case _ => map[]
      else map[]
    case _ => map[]
  }

  /** The entries a spread or `Object.assign` copies from a source: none from null or undefined. */
  function AssignSource(heap: Heap, v: Val): (r: map<string, Val>)
    ensures IsNullish(v) ==> r == map[]
    ensures !IsNullish(v) ==> r == OwnEntries(heap, v)
  {
    if IsNullish(v) then map[] else OwnEntries(heap, v)
  }

  /** Reading a slot sequence by property name: `length`, an index, or nothing. */
  function SlotGet(slots: seq<Slot>, key: string): (r: Val)
    ensures key == "length" ==> r == Num(|slots|)
    ensures forall i :: 0 <= i < |slots| && key == NatToString(i) ==> r == (if slots[i].Item? then slots[i].v else Undefined)
  {
    // an index key parses back to its index (and `length` is no index)
    assert forall i :: 0 <= i < |slots| && key == NatToString(i) ==> ParseIndex(key) == Some(i) by {
      forall i | 0 <= i < |slots| && key == NatToString(i) ensures ParseIndex(key) == Some(i) {
        IndexRoundTrip(i);
      }
    }
    if key == "length" then Num(|slots|)
    else
      match ParseIndex(key)
      case Some(i) =>
        if i < |slots| && slots[i].Item? then slots[i].v else Undefined
      case None => Undefined
  }

  /**
   * `target[key]`: reading from null or undefined throws; the sentinel symbol has only its
   * description; a string has its length and characters; an object its own properties.
   */
  function RawGet(heap: Heap, target: Val, key: string): (r: Completion)
    ensures r.Abrupt? <==> IsNullish(target)
  {
    match target
    case Undefined => Abrupt
    case Null => Abrupt
    case Unknown => Normal(if key == "description" then Str(UNKNOWN_DESCRIPTION) else Undefined)
    case Str(s) => Normal(SlotGet(CharSlots(s), key))
    case Ref(h) =>
      if h < |heap| then
        match heap[h]
        case ArrayObj(slots) => Normal(SlotGet(slots, key))
        case PlainObj(props) => Normal(if key in props then props[key] else Undefined)
        case FunctionObj(_, props) => Normal(if key in props then props[key] else Undefined)
        case _ => Normal(Undefined)
      else Normal(Undefined)
    case _ => Normal(Undefined)
  }

  /**
   * `value && typeof value === 'object' && typeof value.then === 'function'`: a promise, or a
   * plain object with a callable `then`.
   */
  predicate IsThenable(heap: Heap, v: Val) {
    match ObjAt(heap, v)
    case Some(PromiseObj(_)) => true
    case Some(PlainObj(props)) => "then" in props && IsCallable(heap, props["then"])
    case _ => false
  }

  /** `Promise.resolve(value)`: a promise is returned as it is, anything else is wrapped. */
  function PromiseResolve(heap: Heap, v: Val): (r: (Heap, Val))
    ensures ObjAt(r.0, r.1).Some? && ObjAt(r.0, r.1).value.PromiseObj?
    ensures |r.0| >= |heap| && r.0[..|heap|] == heap
  {
    match ObjAt(heap, v)
    case Some(PromiseObj(_)) => (heap, v)
    case _ => Alloc(heap, PromiseObj(v))
  }

  /** The value `await` settles on for a value that is not thenable, or for a promise. */
  function Settle(heap: Heap, v: Val): Val {
    match ObjAt(heap, v)
    case Some(PromiseObj(result)) => result
    case _ => v
  }

  /**
   * Calling a function object, `f.call(thisArg, ...args)`: a stand-in from source runs
   * `return body`, so it gives its body's value, or for an async one a new promise of it; a class
   * cannot be called without `new`; every other function is the host's.
   */
  function CallFunction(host: Host, heap: Heap, f: Val, thisArg: Val, args: seq<Val>): (r: Reply)
    ensures ObjAt(heap, f).Some? && ObjAt(heap, f).value.FunctionObj? && ObjAt(heap, f).value.origin.SourceFunction? ==>
      var origin := heap[f.h].origin;
      if origin.isAsync then
        && r.c == Normal(Ref(|heap|)) && |r.heap| == |heap| + 1 && r.heap[..|heap|] == heap
        && IsThenable(r.heap, r.c.value) && Settle(r.heap, r.c.value) == Settle(heap, origin.body)
      else r == Reply(Normal(origin.body), heap)
    ensures ObjAt(heap, f).Some? && ObjAt(heap, f).value.FunctionObj? && ObjAt(heap, f).value.origin.ClassOrigin? ==>
      r == Reply(Abrupt, heap)
    ensures !(ObjAt(heap, f).Some? && ObjAt(heap, f).value.FunctionObj? && !ObjAt(heap, f).value.origin.HostFunction?) ==>
      r == host.call(f, thisArg, args, heap)
  {
    match ObjAt(heap, f)
    case Some(FunctionObj(SourceFunction(isAsync, _, body), _)) =>
      if isAsync then
        var (h, p) := Alloc(heap, PromiseObj(Settle(heap, body)));
        Reply(Normal(p), h)
      else Reply(Normal(body), heap)
    case Some(FunctionObj(ClassOrigin, _)) => Reply(Abrupt, heap)  // a TypeError
    case _ => host.call(f, thisArg, args, heap)
  }

  /**
   * Constructing from a function object, `new f(...args)`: an arrow or async stand-in is not a
   * constructor (a TypeError); another stand-in gives its body's value when that is an object,
   * and a new empty object otherwise; a class gives a new empty instance; every other function is
   * the host's.
   */
  function ConstructFunction(host: Host, heap: Heap, f: Val, args: seq<Val>): (r: Reply)
    ensures ObjAt(heap, f).Some? && ObjAt(heap, f).value.FunctionObj? && !ObjAt(heap, f).value.origin.HostFunction? ==>
      var origin := heap[f.h].origin;
      if origin.SourceFunction? && (origin.isAsync || origin.isArrow) then r == Reply(Abrupt, heap)
      else if origin.SourceFunction? && origin.body.Ref? then r == Reply(Normal(origin.body), heap)
      else r == Reply(Normal(Ref(|heap|)), heap + [PlainObj(map[])])
    ensures !(ObjAt(heap, f).Some? && ObjAt(heap, f).value.FunctionObj? && !ObjAt(heap, f).value.origin.HostFunction?) ==>
      r == host.construct(f, args, heap)
  {
    match ObjAt(heap, f)
    case Some(FunctionObj(SourceFunction(isAsync, isArrow, body), _)) =>
      if isAsync || isArrow then Reply(Abrupt, heap)
      else if body.Ref? then Reply(Normal(body), heap)  // an object returned from a constructor replaces the instance
      else
        var (h, o) := Alloc(heap, PlainObj(map[]));
        Reply(Normal(o), h)
    case Some(FunctionObj(ClassOrigin, _)) =>
      var (h, o) := Alloc(heap, PlainObj(map[]));
      Reply(Normal(o), h)
    case _ => host.construct(f, args, heap)
  }

  /** What `Object.entries` lists is exactly what a property read of that key returns. */
  lemma EntriesAgreeWithGet(heap: Heap, v: Val, k: string)
    requires k in OwnEntries(heap, v)
    ensures RawGet(heap, v, k) == Normal(OwnEntries(heap, v)[k])
  {
    match v
    case Str(s) =>
      var i :| 0 <= i < |CharSlots(s)| && CharSlots(s)[i].Item? && k == NatToString(i);
    case Ref(h) =>
      if heap[h].ArrayObj? {
        var i :| 0 <= i < |heap[h].slots| && heap[h].slots[i].Item? && k == NatToString(i);
      }
    case _ =>
  }

  /** Awaiting `Promise.resolve(v)` settles on what awaiting `v` itself settles on. */
  lemma AwaitResolvedPromise(heap: Heap, v: Val)
    ensures Settle(PromiseResolve(heap, v).0, PromiseResolve(heap, v).1) == Settle(heap, v)
  {
  }
}

=== FILE: operators.dfy ===
/**
 * The operator tables of the evaluator. An operator the tables do not list (`delete`, `throw`,
 * and anything else) has no function, and the evaluator answers the sentinel without evaluating
 * the operands. A listed operator is applied only when no operand is the sentinel.
 *
 * The model computes the integer, bigint, boolean and strict-equality cases exactly and leaves
 * every other combination (floating point, coercions, `**`, bitwise and shift operators, loose
 * equality, `in`, `instanceof`) to the host.
 */
module Operators {
  import opened Optional
  import opened Values
  import opened Objects
  import opened Hosting
  import opened Syntax

  datatype UnaryOp =
    | Void
    | Plus
    | Negate
    | Not
    | BitNot
    | TypeOfOp
    | Increment(prefix: bool)
    | Decrement(prefix: bool)

  /** The operators `getUnaryOperator` gives a function for. */
  const UNARY_OPERATORS: set<Operator> :=
    {OpVoid, OpAdd, OpSub, OpNot, OpBitNot, OpTypeOf, OpIncrement, OpDecrement}

  /** `getUnaryOperator(operator, prefix)`: `delete`, `throw` and anything unlisted have none. */
  function UnaryOperator(op: Operator, prefix: bool): (r: Option<UnaryOp>)
    ensures r.Some? <==> op in UNARY_OPERATORS
    ensures r.Some? && (r.value.Increment? || r.value.Decrement?) ==> r.value.prefix == prefix
  {
    match op
    case OpVoid => Some(Void)
    case OpAdd => Some(Plus)
    case OpSub => Some(Negate)
    case OpNot => Some(Not)
    case OpBitNot => Some(BitNot)
    case OpTypeOf => Some(TypeOfOp)
    case OpIncrement => Some(Increment(prefix))
    case OpDecrement => Some(Decrement(prefix))
    case _ => None
  }

  /** The unary operators applied to a value that is not the sentinel. */
  function ApplyUnary(host: Host, heap: Heap, f: UnaryOp, v: Val): (r: Completion)
    ensures f == Void ==> r == Normal(Undefined)
    ensures f == Not ==> r == Normal(Bool(!Truthy(v)))
    ensures f == TypeOfOp ==> r == Normal(Str(TypeOf(heap, v)))
  {
    match f
    case Void => Normal(Undefined)
    case Not => Normal(Bool(!Truthy(v)))
    case TypeOfOp => Normal(Str(TypeOf(heap, v)))
    case Plus =>
      (match v
       case Num(n) => Normal(Num(n))
       case Bool(b) => Normal(Num(if b then 1 else 0))
       case Null => Normal(Num(0))
       case BigInt(_) => Abrupt  // a TypeError: bigints cannot be converted by unary plus
       case _ => host.operateUnary("+", v, heap))
    case Negate =>
      (match v
       case Num(n) => Normal(Num(-n))
       case BigInt(i) => Normal(BigInt(-i))
       case _ => host.operateUnary("-", v, heap))
    case BitNot =>
      (match v
       case Num(n) => Normal(Num(-ToInt32(n) - 1))
       case BigInt(i) => Normal(BigInt(-i - 1))
       case _ => host.operateUnary("~", v, heap))
    case Increment(prefix) =>
      if !prefix then Normal(v)
      else
        (match v
         case Num(n) => Normal(Num(n + 1))
         case BigInt(i) => Normal(BigInt(i + 1))
         case _ => host.operate("+", v, Num(1), heap))
    case Decrement(prefix) =>
      if !prefix then Normal(v)
      else
        (match v
         case Num(n) => Normal(Num(n - 1))
         case BigInt(i) => Normal(BigInt(i - 1))
         case _ => host.operate("-", v, Num(1), heap))
  }

  /** `callUnary`: the sentinel is absorbing. */
  function CallUnary(host: Host, heap: Heap, f: UnaryOp, v: Val): (r: Completion)
    ensures v == Unknown ==> r == Normal(Unknown)
    ensures v != Unknown ==> r == ApplyUnary(host, heap, f, v)
  {
    if v == Unknown then Normal(Unknown) else ApplyUnary(host, heap, f, v)
  }

  datatype BinaryOp =
    | Add | Sub | Div | Mul | Pow
    | BitAnd | BitOr | Shr | UShr | Shl | BitXor
    | LooseEq | StrictEq | LooseNe | StrictNe
    | In | InstanceOf
    | Gt | Lt | Ge | Le
    | Or | And | Coalesce
    | Pipeline

  /** The arithmetic and bitwise operators that also exist as compound assignments. */
  const CALCULATION_OPERATORS: set<Operator> :=
    {OpAdd, OpSub, OpDiv, OpRem, OpMul, OpPow, OpBitAnd, OpBitOr, OpShr, OpUShr, OpShl, OpBitXor}

  const LOGICAL_OPERATORS: set<Operator> := {OpOr, OpAnd, OpCoalesce}

  const COMPARISON_OPERATORS: set<Operator> :=
    {OpLooseEq, OpStrictEq, OpLooseNe, OpStrictNe, OpIn, OpInstanceOf, OpGt, OpLt, OpGe, OpLe}

  /** Every operator `getBinaryOperator` gives a function for. */
  predicate IsBinaryOperator(op: Operator) {
    || op in CALCULATION_OPERATORS || op in LOGICAL_OPERATORS || op in COMPARISON_OPERATORS
    || op == OpPipeline
    || (op.OpCompound? && (op.base in CALCULATION_OPERATORS || op.base in LOGICAL_OPERATORS))
  }

  /** `getBinaryOperator`. Note that `%` and `%=` are given division, as in the original. */
  function BinaryOperator(op: Operator): Option<BinaryOp> {
    match op
    case OpAdd => Some(Add)
    case OpCompound(OpAdd) => Some(Add)
    case OpSub => Some(Sub)
    case OpCompound(OpSub) => Some(Sub)
    case OpDiv => Some(Div)
    case OpCompound(OpDiv) => Some(Div)
    case OpRem => Some(Div)
    case OpCompound(OpRem) => Some(Div)
    case OpMul => Some(Mul)
    case OpCompound(OpMul) => Some(Mul)
    case OpPow => Some(Pow)
    case OpCompound(OpPow) => Some(Pow)
    case OpBitAnd => Some(BitAnd)
    case OpCompound(OpBitAnd) => Some(BitAnd)
    case OpBitOr => Some(BitOr)
    case OpCompound(OpBitOr) => Some(BitOr)
    case OpShr => Some(Shr)
    case OpCompound(OpShr) => Some(Shr)
    case OpUShr => Some(UShr)
    case OpCompound(OpUShr) => Some(UShr)
    case OpShl => Some(Shl)
    case OpCompound(OpShl) => Some(Shl)
    case OpBitXor => Some(BitXor)
    case OpCompound(OpBitXor) => Some(BitXor)
    case OpLooseEq => Some(LooseEq)
    case OpStrictEq => Some(StrictEq)
    case OpLooseNe => Some(LooseNe)
    case OpStrictNe => Some(StrictNe)
    case OpIn => Some(In)
    case OpInstanceOf => Some(InstanceOf)
    case OpGt => Some(Gt)
    case OpLt => Some(Lt)
    case OpGe => Some(Ge)
    case OpLe => Some(Le)
    case OpOr => Some(Or)
    case OpCompound(OpOr) => Some(Or)
    case OpAnd => Some(And)
    case OpCompound(OpAnd) => Some(And)
    case OpCoalesce => Some(Coalesce)
    case OpCompound(OpCoalesce) => Some(Coalesce)
    case OpPipeline => Some(Pipeline)
    case _ => None
  }

  /** The operator's source text, under which the host is asked for the cases it computes. */
  function OperatorText(f: BinaryOp): string {
    match f
    case Add => "+"
    case Sub => "-"
    case Div => "/"
    case Mul => "*"
    case Pow => "**"
    case BitAnd => "&"
    case BitOr => "|"
    case Shr => ">>"
    case UShr => ">>>"
    case Shl => "<<"
    case BitXor => "^"
    case LooseEq => "=="
    case StrictEq => "==="
    case LooseNe => "!="
    case StrictNe => "!=="
    case In => "in"
    case InstanceOf => "instanceof"
    case Gt => ">"
    case Lt => "<"
    case Ge => ">="
    case Le => "<="
    case Or => "||"
    case And => "&&"
    case Coalesce => "??"
    case Pipeline => "|>"
  }

  /** Bigint division truncates toward zero (Dafny's division is Euclidean). */
  function TruncatedDiv(a: int, b: int): int
    requires b != 0
  {
    var q := (if a < 0 then -a else a) / (if b < 0 then -b else b);
    if (a < 0) == (b < 0) then q else -q
  }

  /** Integer comparison for `>`, `<`, `>=` and `<=`. */
  function Compare(f: BinaryOp, a: int, b: int): bool
    requires f in {Gt, Lt, Ge, Le}
  {
    match f
    case Gt => a > b
    case Lt => a < b
    case Ge => a >= b
    case Le => a <= b
  }

  /** A binary operator applied to two values that are not the sentinel, and the heap after. */
  function ApplyBinary(host: Host, heap: Heap, f: BinaryOp, a: Val, b: Val): (r: Reply)
    ensures f == StrictEq ==> r == Reply(Normal(Bool(a == b)), heap)
    ensures f == StrictNe ==> r == Reply(Normal(Bool(a != b)), heap)
    ensures f == Or ==> r == Reply(Normal(if Truthy(a) then a else b), heap)
    ensures f == And ==> r == Reply(Normal(if Truthy(a) then b else a), heap)
    ensures f == Coalesce ==> r == Reply(Normal(if IsNullish(a) then b else a), heap)
    ensures f == Pipeline && !IsCallable(heap, b) ==> r.c.Abrupt?
    ensures f != Pipeline ==> r.heap == heap
  {
    var exact := (c: Completion) => Reply(c, heap);
    var other := Reply(host.operate(OperatorText(f), a, b, heap), heap);
    match f
    case StrictEq => exact(Normal(Bool(a == b)))
    case StrictNe => exact(Normal(Bool(a != b)))
    case Or => exact(Normal(if Truthy(a) then a else b))
    case And => exact(Normal(if Truthy(a) then b else a))
    case Coalesce => exact(Normal(if IsNullish(a) then b else a))
    case Pipeline =>
      // `b(a)` is a plain call: the safe set is not consulted
      if IsCallable(heap, b) then CallFunction(host, heap, b, Undefined, [a]) else exact(Abrupt)
    case Add =>
      if a.Num? && b.Num? then exact(Normal(Num(a.n + b.n)))
      else if a.BigInt? && b.BigInt? then exact(Normal(BigInt(a.i + b.i)))
      else if a.Str? && b.Str? then exact(Normal(Str(a.s + b.s)))
      else other
    case Sub =>
      if a.Num? && b.Num? then exact(Normal(Num(a.n - b.n)))
      else if a.BigInt? && b.BigInt? then exact(Normal(BigInt(a.i - b.i)))
      else other
    case Mul =>
      if a.Num? && b.Num? then exact(Normal(Num(a.n * b.n)))
      else if a.BigInt? && b.BigInt? then exact(Normal(BigInt(a.i * b.i)))
      else other
    case Div =>
      if a.Num? && b.Num? && b.n != 0 && a.n % b.n == 0 then exact(Normal(Num(a.n / b.n)))
      else if a.BigInt? && b.BigInt? then
        (if b.i == 0 then exact(Abrupt) else exact(Normal(BigInt(TruncatedDiv(a.i, b.i)))))
      else other
    case Gt =>
      if a.Num? && b.Num? then exact(Normal(Bool(Compare(f, a.n, b.n))))
      else if a.BigInt? && b.BigInt? then exact(Normal(Bool(Compare(f, a.i, b.i))))
      else other
    case Lt =>
      if a.Num? && b.Num? then exact(Normal(Bool(Compare(f, a.n, b.n))))
      else if a.BigInt? && b.BigInt? then exact(Normal(Bool(Compare(f, a.i, b.i))))
      else other
    case Ge =>
      if a.Num? && b.Num? then exact(Normal(Bool(Compare(f, a.n, b.n))))
      else if a.BigInt? && b.BigInt? then exact(Normal(Bool(Compare(f, a.i, b.i))))
      else other
    case Le =>
      if a.Num? && b.Num? then exact(Normal(Bool(Compare(f, a.n, b.n))))
      else if a.BigInt? && b.BigInt? then exact(Normal(Bool(Compare(f, a.i, b.i))))
      else other
    case _ => other
  }

  /** `callBinary`: the sentinel on either side is absorbing. */
  function CallBinary(host: Host, heap: Heap, f: BinaryOp, a: Val, b: Val): (r: Reply)
    ensures a == Unknown || b == Unknown ==> r == Reply(Normal(Unknown), heap)
    ensures a != Unknown && b != Unknown ==> r == ApplyBinary(host, heap, f, a, b)
  {
    if a == Unknown || b == Unknown then Reply(Normal(Unknown), heap) else ApplyBinary(host, heap, f, a, b)
  }

  // ---------------------------------------------------------------------------------------
  // Laws of the tables

  /** Exactly the listed operators have a function; `=` and anything unlisted have none. */
  lemma BinaryOperatorDomain(op: Operator)
    ensures BinaryOperator(op).Some? <==> IsBinaryOperator(op)
  {
  }

  /** A compound assignment `a op= b` computes with the same function as `a op b`. */
  lemma CompoundAssignmentUsesPlainOperator(op: Operator)
    requires op in CALCULATION_OPERATORS || op in LOGICAL_OPERATORS
    ensures BinaryOperator(OpCompound(op)).Some? && BinaryOperator(OpCompound(op)) == BinaryOperator(op)
  {
  }

  /**
   * The remainder operator is given the division function: `a % b` for numbers that divide
   * exactly gives the quotient rather than 0 (so `6 % 2` gives 3), and for bigints the quotient
   * truncated toward zero.
   */
  lemma RemainderIsDivision(host: Host, heap: Heap, a: int, b: int)
    ensures BinaryOperator(OpRem) == BinaryOperator(OpDiv) == Some(Div)
    ensures b != 0 && a % b == 0 ==> ApplyBinary(host, heap, BinaryOperator(OpRem).value, Num(a), Num(b)).c == Normal(Num(a / b))
    ensures b != 0 ==> ApplyBinary(host, heap, BinaryOperator(OpRem).value, BigInt(a), BigInt(b)).c == Normal(BigInt(TruncatedDiv(a, b)))
  {
  }

  /** Prefix increment and decrement add and subtract one on numbers and bigints. */
  lemma PrefixUpdateSteps(host: Host, heap: Heap, v: Val)
    requires v.Num? || v.BigInt?
    ensures ApplyUnary(host, heap, Increment(true), v) == Normal(if v.Num? then Num(v.n + 1) else BigInt(v.i + 1))
    ensures ApplyUnary(host, heap, Decrement(true), v) == Normal(if v.Num? then Num(v.n - 1) else BigInt(v.i - 1))
  {
  }

  /** Postfix increment and decrement yield their operand unchanged, whatever it is. */
  lemma PostfixUpdateIsIdentity(host: Host, heap: Heap, v: Val)
    ensures ApplyUnary(host, heap, Increment(false), v) == Normal(v)
    ensures ApplyUnary(host, heap, Decrement(false), v) == Normal(v)
  {
  }

  /** Prefix decrement undoes prefix increment on numbers and bigints. */
  lemma DecrementUndoesIncrement(host: Host, heap: Heap, v: Val)
    requires v.Num? || v.BigInt?
    ensures ApplyUnary(host, heap, Decrement(true), ApplyUnary(host, heap, Increment(true), v).value) == Normal(v)
  {
  }

  /** Bitwise not is an involution on 32-bit integers. */
  lemma BitNotInvolution(host: Host, heap: Heap, n: int)
    requires -TWO_31 <= n < TWO_31
    ensures ApplyUnary(host, heap, BitNot, ApplyUnary(host, heap, BitNot, Num(n)).value) == Normal(Num(n))
  {
    ToInt32OfInt32(-n - 1);
  }

  /** Double negation with `!` is truthiness. */
  lemma DoubleNotIsTruthiness(host: Host, heap: Heap, v: Val)
    ensures ApplyUnary(host, heap, Not, ApplyUnary(host, heap, Not, v).value) == Normal(Bool(Truthy(v)))
  {
  }

  /** `a || b` and `a && b` always pick one of their operands; `??` keeps a non-nullish left side. */
  lemma LogicalPicksAnOperand(host: Host, heap: Heap, f: BinaryOp, a: Val, b: Val)
    requires f in {Or, And, Coalesce}
    ensures ApplyBinary(host, heap, f, a, b).c.Normal?
    ensures ApplyBinary(host, heap, f, a, b).c.value in {a, b}
    ensures f == Coalesce && !IsNullish(a) ==> ApplyBinary(host, heap, f, a, b).c.value == a
  {
  }

  /** `!==` is the negation of `===`. */
  lemma StrictInequalityNegates(host: Host, heap: Heap, a: Val, b: Val)
    ensures ApplyBinary(host, heap, StrictNe, a, b).c.value == Bool(!ApplyBinary(host, heap, StrictEq, a, b).c.value.b)
  {
  }
}

=== FILE: optional.dfy ===
/** The absent-or-present wrapper used throughout the model (JavaScript's `x | null`). */
module Optional {

  datatype Option<+T> = None | Some(value: T) {

    /** The wrapped value, or `default` when absent (JavaScript's `x ?? default`). */
    function GetOr(default: T): T {
      match this
      case Some(v) => v
      case None => default
    }
  }
}

=== FILE: paths.dfy ===
/**
 * Projection steps: how a destructured binding reaches its value from the value of the
 * declaration's initializer. The scope analyser compiles every pattern position into a list of
 * steps, and the evaluator applies them left to right.
 */
module Paths {
  import opened Numerals
  import opened Values
  import opened Objects
  import Syntax

  /**
   * One projection: `v[i]` (array pattern element), `v.slice(i)` (array rest element), `v[key]`
   * (object pattern property, import specifier) and the object rest that copies every own entry
   * whose key is not among the sibling keys.
   */
  datatype Step =
    | Index(i: nat)
    | SliceFrom(i: nat)
    | Property(key: string)
    | OmitKeys(keys: seq<Syntax.ObjKey>)

  datatype Projected = Projected(v: Val, heap: Heap)

  function Min(a: nat, b: nat): nat {
    if a <= b then a else b
  }

  /**
   * The entries an object rest keeps. The sibling keys are compared with the entry names as
   * they are, so only string keys exclude anything: a numeric sibling key never matches the
   * string name of an entry, as in the original.
   */
  function Omit(entries: map<string, Val>, keys: seq<Syntax.ObjKey>): (r: map<string, Val>)
    ensures r.Keys <= entries.Keys
    ensures forall k :: k in r ==> r[k] == entries[k]
  {
    map k | k in entries && Syntax.StrKey(k) !in keys :: entries[k]
  }

  /** One step applied to a value other than the sentinel; it may throw, and it may allocate. */
  function ApplyStep(heap: Heap, v: Val, step: Step): (r: (Completion, Heap))
    ensures |r.1| >= |heap| && r.1[..|heap|] == heap
  {
    match step
    case Index(i) => (RawGet(heap, v, NatToString(i)), heap)
    case Property(key) => (RawGet(heap, v, key), heap)
    case SliceFrom(i) =>
      if v.Str? then (Normal(Str(v.s[Min(i, |v.s|)..])), heap)
      else if v.Ref? && v.h < |heap| && heap[v.h].ArrayObj? then
        var slots := heap[v.h].slots;
        var (h, a) := Alloc(heap, ArrayObj(slots[Min(i, |slots|)..]));
        (Normal(a), h)
      else (Abrupt, heap)  // there is no `slice` to call
    case OmitKeys(keys) =>
      if IsNullish(v) then (Abrupt, heap)  // `Object.entries` of null or undefined throws
      else
        var (h, o) := Alloc(heap, PlainObj(Omit(OwnEntries(heap, v), keys)));
        (Normal(o), h)
  }

  /** One call of the reducer: the sentinel stays the sentinel, and a throwing step gives it. */
  function Visit(heap: Heap, v: Val, step: Step): (r: Projected)
    ensures v == Unknown ==> r == Projected(Unknown, heap)
    ensures |r.heap| >= |heap| && r.heap[..|heap|] == heap
  {
    if v == Unknown then Projected(Unknown, heap)
    else
      var (c, h) := ApplyStep(heap, v, step);
      Projected(if c.Normal? then c.value else Unknown, h)
  }

  /** The steps folded over the initializer's value, left to right. */
  function ApplySteps(heap: Heap, v: Val, steps: seq<Step>): (r: Projected)
    ensures |r.heap| >= |heap| && r.heap[..|heap|] == heap
    decreases |steps|
  {
    if |steps| == 0 then Projected(v, heap)
    else
      var next := Visit(heap, v, steps[0]);
      ApplySteps(next.heap, next.v, steps[1..])
  }

  /** Once the running value is the sentinel, no further step changes anything. */
  lemma {:induction false} UnknownAbsorbs(heap: Heap, steps: seq<Step>)
    ensures ApplySteps(heap, Unknown, steps) == Projected(Unknown, heap)
    decreases |steps|
  {
    if |steps| > 0 {
      UnknownAbsorbs(heap, steps[1..]);
    }
  }

  /** Applying `a + b` is applying `a`, then `b` to what `a` produced. */
  lemma {:induction false} StepsCompose(heap: Heap, v: Val, a: seq<Step>, b: seq<Step>)
    ensures ApplySteps(heap, v, a + b) == ApplySteps(ApplySteps(heap, v, a).heap, ApplySteps(heap, v, a).v, b)
    decreases |a|
  {
    if |a| > 0 {
      assert (a + b)[0] == a[0];
      assert (a + b)[1..] == a[1..] + b;
      var next := Visit(heap, v, a[0]);
      assert ApplySteps(heap, v, a + b) == ApplySteps(next.heap, next.v, a[1..] + b);
      assert ApplySteps(heap, v, a) == ApplySteps(next.heap, next.v, a[1..]);
      StepsCompose(next.heap, next.v, a[1..], b);
    } else {
      assert a + b == b;
    }
  }

  /** A step that throws turns the whole projection into the sentinel, whatever follows it. */
  lemma ThrowingStepGivesUnknown(heap: Heap, v: Val, step: Step, rest: seq<Step>)
    requires v != Unknown && ApplyStep(heap, v, step).0.Abrupt?
    ensures ApplySteps(heap, v, [step] + rest).v == Unknown
  {
    StepsCompose(heap, v, [step], rest);
    UnknownAbsorbs(ApplyStep(heap, v, step).1, rest);
  }

  /** `v[i]` on an array reads slot `i`; a hole or an index past the end reads `undefined`. */
  lemma IndexReadsSlot(heap: Heap, h: Handle, i: nat)
    requires h < |heap| && heap[h].ArrayObj?
    ensures ApplySteps(heap, Ref(h), [Index(i)]).v ==
      if i < |heap[h].slots| && heap[h].slots[i].Item? then heap[h].slots[i].v else Undefined
  {
    IndexRoundTrip(i);
  }

  /**
   * `v.slice(i)` followed by `[j]` reads what `[i + j]` reads on the original array: the rest
   * element of an array pattern sees the elements after its position.
   */
  lemma SliceThenIndex(heap: Heap, h: Handle, i: nat, j: nat)
    requires h < |heap| && heap[h].ArrayObj?
    requires i <= |heap[h].slots|
    ensures ApplySteps(heap, Ref(h), [SliceFrom(i), Index(j)]).v == ApplySteps(heap, Ref(h), [Index(i + j)]).v
  {
    var slots := heap[h].slots;
    var heap' := heap + [ArrayObj(slots[i..])];
    SliceOfArray(heap, h, i);
    assert [SliceFrom(i), Index(j)] == [SliceFrom(i)] + [Index(j)];
    StepsCompose(heap, Ref(h), [SliceFrom(i)], [Index(j)]);
    IndexReadsSlot(heap', |heap|, j);
    IndexReadsSlot(heap, h, i + j);
  }

  lemma SliceOfArray(heap: Heap, h: Handle, i: nat)
    requires h < |heap| && heap[h].ArrayObj?
    requires i <= |heap[h].slots|
    ensures ApplySteps(heap, Ref(h), [SliceFrom(i)]) == Projected(Ref(|heap|), heap + [ArrayObj(heap[h].slots[i..])])
  {
    assert [SliceFrom(i)][1..] == [];
  }

  /**
   * The object rest keeps exactly the own entries whose names are not sibling string keys, with
   * their values.
   */
  lemma OmitKeysKeepsTheOthers(heap: Heap, v: Val, keys: seq<Syntax.ObjKey>, k: string)
    requires v != Unknown && !IsNullish(v)
    ensures var p := ApplySteps(heap, v, [OmitKeys(keys)]);
      && p.v == Ref(|heap|)
      && (k in p.heap[|heap|].props <==> k in OwnEntries(heap, v) && Syntax.StrKey(k) !in keys)
      && (k in p.heap[|heap|].props ==> p.heap[|heap|].props[k] == OwnEntries(heap, v)[k])
  {
  }
}

=== FILE: reflect.dfy ===
/**
 * The safety model. Objects are invoked for real only when they are marked safe: values the
 * caller supplied, and whatever is read from or returned by a safe object. Primitives are
 * always safe. The original keeps the marks in a process-wide weak set; here the set of marked
 * handles is passed and returned explicitly.
 */
module Reflect {
  import opened Values
  import opened Objects
  import opened Hosting

  /** `isObject`: the values that can carry a mark, a related link or properties of their own. */
  predicate IsObject(v: Val) {
    v.Ref?
  }

  /** `isObject` holds exactly for truthy values whose `typeof` is `object` or `function`. */
  lemma IsObjectCharacterised(heap: Heap, v: Val)
    ensures IsObject(v) <==> Truthy(v) && TypeOf(heap, v) in {"object", "function"}
  {
  }

  /** `markAsSafe`: the value is returned unchanged by the original, so only the set is returned. */
  function MarkAsSafe(safe: set<Handle>, v: Val): (r: set<Handle>)
    ensures safe <= r
    ensures forall h :: h in r - safe ==> v == Ref(h)
  {
    if IsObject(v) then safe + {v.h} else safe
  }

  /** `isMarkedAsSafe`: primitives always, objects when they carry the mark. */
  predicate IsMarkedAsSafe(v: Val, safe: set<Handle>) {
    !IsObject(v) || v.h in safe
  }

  /**
   * After marking `v`, exactly the values that were already safe and `v` itself are safe: the
   * mark lands on `v` and on nothing else.
   */
  lemma MarkAsSafeExactly(safe: set<Handle>, v: Val, w: Val)
    ensures IsMarkedAsSafe(w, MarkAsSafe(safe, v)) <==> IsMarkedAsSafe(w, safe) || w == v
  {
  }

  /** Safety is monotone: a value safe under a set stays safe under any larger set. */
  lemma SafeUnderLargerSet(v: Val, safe: set<Handle>, more: set<Handle>)
    requires safe <= more
    requires IsMarkedAsSafe(v, safe)
    ensures IsMarkedAsSafe(v, more)
  {
  }

  /** A property read, and the safe set it leaves. */
  datatype Access = Access(c: Completion, safe: set<Handle>)

  /** `get(target, key)`: read the property; the result of reading a safe target is safe too. */
  function Get(heap: Heap, safe: set<Handle>, target: Val, key: string): (r: Access)
    ensures r.c == RawGet(heap, target, key)
    ensures r.c.Normal? && IsMarkedAsSafe(target, safe) ==> IsMarkedAsSafe(r.c.value, r.safe)
    ensures !IsMarkedAsSafe(target, safe) ==> r.safe == safe
    ensures safe <= r.safe && forall h :: h in r.safe - safe ==> r.c == Normal(Ref(h))
  {
    var c := RawGet(heap, target, key);
    if c.Normal? && IsMarkedAsSafe(target, safe) then Access(c, MarkAsSafe(safe, c.value))
    else Access(c, safe)
  }

  /** An invocation: its completion, the heap afterwards and the safe set afterwards. */
  datatype Invocation = Invocation(c: Completion, heap: Heap, safe: set<Handle>)

  function Invoked(reply: Reply, safe: set<Handle>): (r: Invocation)
    ensures r.c == reply.c && r.heap == reply.heap
    ensures r.c.Normal? ==> IsMarkedAsSafe(r.c.value, r.safe)
    ensures safe <= r.safe && forall h :: h in r.safe - safe ==> r.c == Normal(Ref(h))
  {
    if reply.c.Normal? then Invocation(reply.c, reply.heap, MarkAsSafe(safe, reply.c.value))
    else Invocation(reply.c, reply.heap, safe)
  }

  /**
   * `apply(target, thisArg, args)`: an unsafe target is not invoked and yields the sentinel with
   * nothing changed; a safe one is invoked and its result is marked safe.
   */
  function Apply(host: Host, heap: Heap, safe: set<Handle>, target: Val, thisArg: Val, args: seq<Val>): (r: Invocation)
    ensures !IsMarkedAsSafe(target, safe) ==> r == Invocation(Normal(Unknown), heap, safe)
    ensures IsMarkedAsSafe(target, safe) ==>
      r.c == CallFunction(host, heap, target, thisArg, args).c && r.heap == CallFunction(host, heap, target, thisArg, args).heap
    ensures r.c.Normal? ==> IsMarkedAsSafe(r.c.value, r.safe)
    ensures safe <= r.safe
  {
    if IsMarkedAsSafe(target, safe) then Invoked(CallFunction(host, heap, target, thisArg, args), safe)
    else Invocation(Normal(Unknown), heap, safe)
  }

  /** `construct(target, args)`: as `Apply`, through `new`. */
  function Construct(host: Host, heap: Heap, safe: set<Handle>, target: Val, args: seq<Val>): (r: Invocation)
    ensures !IsMarkedAsSafe(target, safe) ==> r == Invocation(Normal(Unknown), heap, safe)
    ensures IsMarkedAsSafe(target, safe) ==>
      r.c == ConstructFunction(host, heap, target, args).c && r.heap == ConstructFunction(host, heap, target, args).heap
    ensures r.c.Normal? ==> IsMarkedAsSafe(r.c.value, r.safe)
    ensures safe <= r.safe
  {
    if IsMarkedAsSafe(target, safe) then Invoked(ConstructFunction(host, heap, target, args), safe)
    else Invocation(Normal(Unknown), heap, safe)
  }
}

=== FILE: related.dfy ===
/**
 * The related link: a side table from an object to the value it stands for statically. A
 * function object evaluated from source is linked to its body's value (and an async one to a
 * promise linked to that value), so that calling an unsafe function yields the body's value
 * instead of invoking anything. The original keeps the table in a process-wide weak map; here it
 * is passed and returned explicitly.
 */
module Related {
  import opened Values
  import opened Reflect

  /** `attachRelated`: only objects can carry a link; the value itself is returned unchanged. */
  function AttachRelated(related: map<Handle, Val>, v: Val, linked: Val): (r: map<Handle, Val>)
    ensures r.Keys == if IsObject(v) then related.Keys + {v.h} else related.Keys
  {
    if IsObject(v) then related[v.h := linked] else related
  }

  /** `extractRelated`: the linked value of an object, and the sentinel for anything unlinked. */
  function ExtractRelated(related: map<Handle, Val>, v: Val): (r: Val)
    ensures !IsObject(v) ==> r == Unknown
    ensures IsObject(v) && v.h !in related ==> r == Unknown
  {
    if IsObject(v) && v.h in related then related[v.h] else Unknown
  }

  /** Round trip: what is attached to an object is what is extracted from it. */
  lemma ExtractAttached(related: map<Handle, Val>, v: Val, linked: Val)
    requires IsObject(v)
    ensures ExtractRelated(AttachRelated(related, v, linked), v) == linked
  {
  }

  /** Attaching to one value leaves every other value's link as it was. */
  lemma AttachIsLocal(related: map<Handle, Val>, v: Val, linked: Val, w: Val)
    requires w != v
    ensures ExtractRelated(AttachRelated(related, v, linked), w) == ExtractRelated(related, w)
  {
  }
}

=== FILE: scope_walk.dfy ===
/**
 * `analyzeScopes`: one walk over the tree that declares names as it enters nodes, pushes a new
 * scope for functions, loops, free-standing blocks and catch clauses, records for every node
 * the scope that is current once the node has been entered, and pops a scope when the walk
 * leaves the node that owns it.
 */
module ScopeWalk {
  import opened Optional
  import opened Syntax
  import opened Scopes

  /** The walk's state: the scopes made so far, the current scope, and the recorded scopes. */
  datatype Walker = Walker(arena: seq<Scope>, current: nat, scopeOf: map<NodeId, nat>)

  predicate Valid(w: Walker) {
    && WellFormed(w.arena)
    && w.current < |w.arena|
    && forall id :: id in w.scopeOf ==> w.scopeOf[id] < |w.arena|
  }

  /** Every scope keeps its place, owner, kind and parent, and its table only gains names. */
  predicate Grown(a: seq<Scope>, b: seq<Scope>) {
    && SameShape(a, b)
    && forall i :: 0 <= i < |a| ==> a[i].refs.Keys <= b[i].refs.Keys
  }

  lemma GrownTransitive(a: seq<Scope>, b: seq<Scope>, c: seq<Scope>)
    requires Grown(a, b) && Grown(b, c)
    ensures Grown(a, c)
  {
  }

  /** Where a declaration lands depends only on the shape of the scopes, not on their tables. */
  lemma {:induction false} TargetOfSameShape(a: seq<Scope>, b: seq<Scope>, sid: nat, isBlockDecl: bool)
    requires WellFormed(a) && WellFormed(b) && sid < |a| && SameShape(a, b)
    ensures Target(a, sid, isBlockDecl) == Target(b, sid, isBlockDecl)
    decreases sid
  {
    if !isBlockDecl && a[sid].isBlock && a[sid].parent.Some? {
      TargetOfSameShape(a, b, a[sid].parent.value, isBlockDecl);
    }
  }

  /** `add` registers every name the declaration binds in the scope it targets. */
  lemma AddRegisters(arena: seq<Scope>, sid: nat, decl: Node, isBlockDecl: bool)
    requires WellFormed(arena) && sid < |arena| && Target(arena, sid, isBlockDecl).Some?
    ensures forall name :: name in Names(ResolveReferences(decl)) ==>
      name in Add(arena, sid, decl, isBlockDecl)[Target(arena, sid, isBlockDecl).value].refs
  {
    var bs := ResolveReferences(decl);
    forall name | name in Names(bs) ensures name in set b | b in bs :: b.name {
      var i :| 0 <= i < |bs| && Names(bs)[i] == name;
      assert bs[i] in bs;
    }
  }

  /** `add` only ever adds names, and leaves everything alone when it has no target. */
  lemma AddGrows(arena: seq<Scope>, sid: nat, decl: Node, isBlockDecl: bool)
    requires WellFormed(arena) && sid < |arena|
    ensures Grown(arena, Add(arena, sid, decl, isBlockDecl))
    ensures Target(arena, sid, isBlockDecl).None? ==> Add(arena, sid, decl, isBlockDecl) == arena
  {
    var r := Add(arena, sid, decl, isBlockDecl);
    if Target(arena, sid, isBlockDecl).None? {
      assert forall i :: 0 <= i < |arena| ==> r[i] == arena[i];
    }
  }

  /** The declarations added in order, all with the same block-scoping. */
  function AddAll(arena: seq<Scope>, sid: nat, decls: seq<Node>, isBlockDecl: bool): (r: seq<Scope>)
    requires WellFormed(arena) && sid < |arena|
    ensures |r| == |arena| && WellFormed(r) && Grown(arena, r)
    ensures Target(arena, sid, isBlockDecl).None? ==> r == arena
    ensures Target(arena, sid, isBlockDecl).Some? ==>
      forall d, name :: d in decls && name in Names(ResolveReferences(d)) ==>
        name in r[Target(arena, sid, isBlockDecl).value].refs
    decreases |decls|
  {
    if |decls| == 0 then arena
    else
      var next := Add(arena, sid, decls[0], isBlockDecl);
      AddGrows(arena, sid, decls[0], isBlockDecl);
      TargetOfSameShape(arena, next, sid, isBlockDecl);
      if Target(arena, sid, isBlockDecl).Some? then
        AddRegisters(arena, sid, decls[0], isBlockDecl);
        assert forall d :: d in decls ==> d == decls[0] || d in decls[1..];
        AddAll(next, sid, decls[1..], isBlockDecl)
      else
        AddAll(next, sid, decls[1..], isBlockDecl)
  }

  /**
   * The first half of `enter`: imports, `import x = require(...)`, function declarations and
   * expressions and class declarations are added as not block-scoped; each declarator of a
   * variable declaration is added as block-scoped unless the declaration is a `var`.
   */
  function Declare(arena: seq<Scope>, sid: nat, n: Node): (r: seq<Scope>)
    requires WellFormed(arena) && sid < |arena|
    ensures |r| == |arena| && WellFormed(r) && Grown(arena, r)
    ensures n.kind.VariableDeclaration? && Target(arena, sid, n.kind.declKind != Var).Some? ==>
      forall d, name :: d in n.kind.declarations && name in Names(ResolveReferences(d)) ==>
        name in r[Target(arena, sid, n.kind.declKind != Var).value].refs
    ensures IsDeclaredWhole(n.kind) && Target(arena, sid, false).Some? ==>
      forall name :: name in Names(ResolveReferences(n)) ==> name in r[Target(arena, sid, false).value].refs
    ensures !IsDeclaredWhole(n.kind) && !n.kind.VariableDeclaration? ==> r == arena
  {
    if IsDeclaredWhole(n.kind) then
      AddGrows(arena, sid, n, false);
      if Target(arena, sid, false).Some? then
        AddRegisters(arena, sid, n, false);
        Add(arena, sid, n, false)
      else Add(arena, sid, n, false)
    else if n.kind.VariableDeclaration? then
      AddAll(arena, sid, n.kind.declarations, n.kind.declKind != Var)
    else arena
  }

  /** The nodes that are themselves handed to `add` when the walk enters them. */
  predicate IsDeclaredWhole(k: Kind) {
    || k.ImportDeclaration? || k.TSImportEqualsDeclaration? || k.FunctionDeclaration?
    || k.FunctionExpression? || k.ClassDeclaration?
  }

  predicate IsFunction(k: Kind) {
    k.FunctionDeclaration? || k.FunctionExpression?
  }

  /**
   * The nodes that open a scope: function declarations and expressions (a function scope), the
   * three `for` loops and catch clauses (block scopes), and a block statement that is not the
   * body of a function declaration or expression (a block scope). Arrow functions and methods
   * open none of their own; their block bodies open a block scope.
   */
  predicate PushesScope(n: Node, parent: Option<Kind>) {
    || IsFunction(n.kind)
    || n.kind.ForStatement? || n.kind.ForInStatement? || n.kind.ForOfStatement?
    || n.kind.CatchClause?
    || (n.kind.BlockStatement? && !(parent.Some? && IsFunction(parent.value)))
  }

  /**
   * The second half of `enter`: open the node's scope if it has one, then add a function's
   * parameters to it, or a catch clause's parameter (which, added as not block-scoped to a block
   * scope, lands in an enclosing scope).
   */
  function Push(arena: seq<Scope>, sid: nat, n: Node, parent: Option<Kind>): (r: (seq<Scope>, nat))
    requires WellFormed(arena) && sid < |arena|
    ensures WellFormed(r.0) && r.1 < |r.0| && Grown(arena, r.0)
    ensures !PushesScope(n, parent) ==> r == (arena, sid)
    ensures PushesScope(n, parent) ==>
      && |r.0| == |arena| + 1 && r.1 == |arena|
      && r.0[r.1].owner == n.id && r.0[r.1].parent == Some(sid) && r.0[r.1].isBlock == !IsFunction(n.kind)
  {
    if !PushesScope(n, parent) then (arena, sid)
    else
      var s := |arena|;
      var pushed := arena + [Scope(n.id, !IsFunction(n.kind), Some(sid), map[])];
      assert Grown(arena, pushed);
      if IsFunction(n.kind) then (AddAll(pushed, s, n.kind.params, false), s)
      else if n.kind.CatchClause? && n.kind.param.Some? then
        AddGrows(pushed, s, n.kind.param.value, false);
        (Add(pushed, s, n.kind.param.value, false), s)
      else (pushed, s)
  }

  /** `enter(node, parent)`: declare, open a scope, and record the current scope for the node. */
  function Enter(w: Walker, n: Node, parent: Option<Kind>): (r: Walker)
    requires Valid(w)
    ensures Valid(r) && Grown(w.arena, r.arena)
    ensures r.scopeOf == w.scopeOf[n.id := r.current]
    ensures !PushesScope(n, parent) ==> r.current == w.current && |r.arena| == |w.arena|
    ensures PushesScope(n, parent) ==>
      && r.current == |w.arena| && |r.arena| == |w.arena| + 1
      && r.arena[r.current].owner == n.id && r.arena[r.current].parent == Some(w.current)
  {
    var declared := Declare(w.arena, w.current, n);
    var (arena, current) := Push(declared, w.current, n, parent);
    Walker(arena, current, w.scopeOf[n.id := current])
  }

  /**
   * `leave(node)`: the scope the node opened is closed. Leaving the root, whose scope has no
   * parent, leaves the current scope as it is; the walk ends there.
   */
  function Leave(w: Walker, n: Node): (r: Walker)
    requires Valid(w)
    ensures Valid(r) && r.arena == w.arena && r.scopeOf == w.scopeOf
    ensures w.arena[w.current].owner != n.id ==> r.current == w.current
    ensures w.arena[w.current].owner == n.id && w.arena[w.current].parent.Some? ==>
      r.current == w.arena[w.current].parent.value
  {
    if w.arena[w.current].owner == n.id && w.arena[w.current].parent.Some? then
      w.(current := w.arena[w.current].parent.value)
    else w
  }

  /** The walk over a subtree: enter, the children in order, leave. */
  function Walk(w: Walker, n: Node, parent: Option<Kind>): (r: Walker)
    requires Valid(w)
    ensures Valid(r) && Grown(w.arena, r.arena)
    ensures r.scopeOf.Keys == w.scopeOf.Keys + Ids(n)
    decreases n, 1
  {
    var entered := Enter(w, n, parent);
    var visited := WalkAll(entered, n, Children(n));
    GrownTransitive(w.arena, entered.arena, visited.arena);
    Leave(visited, n)
  }

  function WalkAll(w: Walker, owner: Node, xs: seq<Node>): (r: Walker)
    requires Valid(w)
    requires forall c :: c in xs ==> c < owner
    ensures Valid(r) && Grown(w.arena, r.arena)
    ensures r.scopeOf.Keys == w.scopeOf.Keys + IdsOfAll(owner, xs)
    decreases owner, 0, |xs|
  {
    if |xs| == 0 then w
    else
      assert xs[0] in xs;
      assert forall c :: c in xs[1..] ==> c in xs;
      var first := Walk(w, xs[0], Some(owner.kind));
      var r := WalkAll(first, owner, xs[1..]);
      GrownTransitive(w.arena, first.arena, r.arena);
      r
  }

  /** What the analysis returns: the scopes, and the scope recorded for every node. */
  datatype Analysis = Analysis(arena: seq<Scope>, scopeOf: map<NodeId, nat>)

  predicate ValidAnalysis(a: Analysis) {
    WellFormed(a.arena) && forall id :: id in a.scopeOf ==> a.scopeOf[id] < |a.arena|
  }

  type ScopeMap = a: Analysis | ValidAnalysis(a) witness Analysis([], map[])

  /** The root scope: owned by the root node, a function-level scope, with no parent. */
  function RootScope(root: Node): Scope {
    Scope(root.id, false, None, map[])
  }

  /**
   * `analyzeScopes(ast)`: the root scope is made first and recorded for the root; the walk then
   * records a scope for every node of the tree and for nothing else.
   */
  function AnalyzeScopes(root: Node): (r: ScopeMap)
    ensures r.scopeOf.Keys == Ids(root)
    ensures |r.arena| > 0 && r.arena[0].owner == root.id && !r.arena[0].isBlock && r.arena[0].parent.None?
  {
    var w := Walk(Walker([RootScope(root)], 0, map[root.id := 0]), root, None);
    Analysis(w.arena, w.scopeOf)
  }

  /**
   * The walk is balanced: when the current scope is not owned by a node of the subtree (and
   * the subtree's nodes are distinct), the walk ends in the scope it started in, because every
   * scope a node opens is closed when the walk leaves that node.
   */
  lemma {:induction false} WalkBalanced(w: Walker, n: Node, parent: Option<Kind>)
    requires Valid(w) && UniqueIds(n)
    requires w.arena[w.current].owner !in Ids(n)
    ensures Walk(w, n, parent).current == w.current
    decreases n, 1
  {
    WalkAllBalanced(Enter(w, n, parent), n, Children(n));
  }

  lemma {:induction false} WalkAllBalanced(w: Walker, owner: Node, xs: seq<Node>)
    requires Valid(w)
    requires forall c :: c in xs ==> c < owner
    requires UniqueAll(owner, xs)
    requires w.arena[w.current].owner !in IdsOfAll(owner, xs)
    ensures WalkAll(w, owner, xs).current == w.current
    decreases owner, 0, |xs|
  {
    if |xs| > 0 {
      assert xs[0] in xs;
      assert forall c :: c in xs[1..] ==> c in xs;
      WalkBalanced(w, xs[0], Some(owner.kind));
      WalkAllBalanced(Walk(w, xs[0], Some(owner.kind)), owner, xs[1..]);
    }
  }

  /**
   * The names of a `let` or `const` declaration are registered in the current scope; those of a
   * `var` declaration in the scope a non-block declaration targets, which is the nearest
   * enclosing scope that is not a block scope.
   */
  lemma VariableDeclarationRegisters(w: Walker, n: Node, parent: Option<Kind>)
    requires Valid(w) && n.kind.VariableDeclaration?
    ensures n.kind.declKind != Var ==>
      forall d, name :: d in n.kind.declarations && name in Names(ResolveReferences(d)) ==>
        name in Enter(w, n, parent).arena[w.current].refs
    ensures n.kind.declKind == Var && Target(w.arena, w.current, false).Some? ==>
      forall d, name :: d in n.kind.declarations && name in Names(ResolveReferences(d)) ==>
        name in Enter(w, n, parent).arena[Target(w.arena, w.current, false).value].refs
  {
  }

  /**
   * Entering a function declaration or expression registers its name in the scope a non-block
   * declaration targets from the enclosing scope, and its parameters' names in its own new
   * function scope.
   */
  lemma FunctionEntry(w: Walker, n: Node, parent: Option<Kind>)
    requires Valid(w) && IsFunction(n.kind)
    ensures var r := Enter(w, n, parent);
      && (Target(w.arena, w.current, false).Some? && n.kind.name.Some? ==>
          n.kind.name.value in r.arena[Target(w.arena, w.current, false).value].refs)
      && (forall d, name :: d in n.kind.params && name in Names(ResolveReferences(d)) ==> name in r.arena[r.current].refs)
  {
    var declared := Declare(w.arena, w.current, n);
    var pushed := declared + [Scope(n.id, false, Some(w.current), map[])];
    assert Target(pushed, |declared|, false) == Some(|declared|);
    if n.kind.name.Some? {
      assert Names(ResolveReferences(n)) == [n.kind.name.value];
    }
  }

  /**
   * A catch clause's parameter is added as not block-scoped to the catch clause's own block
   * scope, so it lands in the scope a non-block declaration targets from the enclosing scope.
   */
  lemma CatchParameterLandsOutside(w: Walker, n: Node, parent: Option<Kind>)
    requires Valid(w) && n.kind.CatchClause? && n.kind.param.Some?
    requires Target(w.arena, w.current, false).Some?
    ensures forall name :: name in Names(ResolveReferences(n.kind.param.value)) ==>
      name in Enter(w, n, parent).arena[Target(w.arena, w.current, false).value].refs
  {
    var pushed := w.arena + [Scope(n.id, true, Some(w.current), map[])];
    TargetOfSameShape(w.arena, pushed, w.current, false);
    assert Target(pushed, |w.arena|, false) == Target(pushed, w.current, false);
    AddRegisters(pushed, |w.arena|, n.kind.param.value, false);
  }
}

=== FILE: scopes.dfy ===
/**
 * Declarations and scopes. A declaration is compiled into named references, each an
 * initializer node and the projection steps that lead from the initializer's value to the
 * name's value. A scope is a table from names to references with a link to its parent scope.
 * Scopes live in an arena and refer to their parent by index, so that the tree walk can extend
 * an ancestor's table after a child scope has been pushed, as the original mutates shared scope
 * objects.
 */
module Scopes {
  import opened Optional
  import opened Syntax
  import opened Paths

  /** `Reference`: no initializer (a parameter, a default, an unresolvable key) or one with steps. */
  datatype Reference = Reference(init: Option<Node>, path: seq<Step>)

  /** `NamedReference`. */
  datatype Binding = Binding(name: string, ref: Reference)

  function Names(bs: seq<Binding>): (r: seq<string>)
    ensures |r| == |bs| && forall i :: 0 <= i < |bs| ==> r[i] == bs[i].name
  {
    seq(|bs|, i requires 0 <= i < |bs| => bs[i].name)
  }

  lemma NamesAppend(a: seq<Binding>, b: seq<Binding>)
    ensures Names(a + b) == Names(a) + Names(b)
  {
  }

  /** A binding that kept an initializer kept the given one, and extends the given path. */
  predicate Inherits(bs: seq<Binding>, init: Option<Node>, path: seq<Step>) {
    forall b :: b in bs && b.ref.init.Some? ==> b.ref.init == init && path <= b.ref.path
  }

  /** The keys of an object pattern's non-rest properties, as `tryResolveObjectKey` gives them. */
  function SiblingKeys(properties: seq<Node>): (r: seq<Option<ObjKey>>)
    ensures |r| <= |properties|
  {
    if |properties| == 0 then []
    else if properties[0].kind.RestElement? then SiblingKeys(properties[1..])
    else [PropertyKeyOf(properties[0])] + SiblingKeys(properties[1..])
  }

  predicate AllResolved(keys: seq<Option<ObjKey>>) {
    forall i :: 0 <= i < |keys| ==> keys[i].Some?
  }

  function Resolved(keys: seq<Option<ObjKey>>): (r: seq<ObjKey>)
    requires AllResolved(keys)
    ensures |r| == |keys| && forall i :: 0 <= i < |keys| ==> r[i] == keys[i].value
  {
    seq(|keys|, i requires 0 <= i < |keys| => keys[i].value)
  }

  /**
   * `resolveChildReferences(id, init, paths)`: the names a binding pattern introduces. Only an
   * identifier binds; an expression (which includes a plain identifier's other forms) binds
   * nothing; array and object patterns append one step per position; a default drops the
   * initializer; a rest element passes everything on to its argument.
   */
  function ResolveChildReferences(id: Node, init: Option<Node>, path: seq<Step>): (r: seq<Binding>)
    ensures Inherits(r, init, path)
    decreases id, 1
  {
    match id.kind
    case Identifier(name) => [Binding(name, Reference(init, path))]
    case ArrayPattern(elements) => ArrayElementReferences(id, elements, 0, init, path)
    case ObjectPattern(properties) =>
      ObjectPropertyReferences(id, properties, 0, SiblingKeys(properties), init, path)
    case AssignmentPattern(left, _) => ResolveChildReferences(left, None, [])
    case RestElement(argument) => ResolveChildReferences(argument, init, path)
    case _ => []
  }

  /** The elements of an array pattern from index `i` on: a hole binds nothing. */
  function ArrayElementReferences(owner: Node, elements: seq<Option<Node>>, i: nat, init: Option<Node>, path: seq<Step>): (r: seq<Binding>)
    requires i <= |elements|
    requires forall k :: 0 <= k < |elements| && elements[k].Some? ==> elements[k].value < owner
    ensures Inherits(r, init, path)
    decreases owner, 0, |elements| - i
  {
    if i == |elements| then []
    else
      var here := match elements[i]
        case None => []
        case Some(item) =>
          var step := if item.kind.RestElement? then SliceFrom(i) else Index(i);
          ResolveChildReferences(item, init, path + [step]);
      here + ArrayElementReferences(owner, elements, i + 1, init, path)
  }

  /**
   * The properties of an object pattern from index `i` on. A property whose key resolves to a
   * string reads that key; any other key loses the initializer. The rest element omits the
   * sibling keys when every one of them resolves, and loses the initializer otherwise.
   */
  function ObjectPropertyReferences(owner: Node, properties: seq<Node>, i: nat, keys: seq<Option<ObjKey>>, init: Option<Node>, path: seq<Step>): (r: seq<Binding>)
    requires i <= |properties|
    requires forall k :: 0 <= k < |properties| ==> properties[k] < owner
    ensures Inherits(r, init, path)
    decreases owner, 0, |properties| - i
  {
    if i == |properties| then []
    else
      var item := properties[i];
      var here := match item.kind
        case RestElement(_) =>
          if AllResolved(keys) then ResolveChildReferences(item, init, path + [OmitKeys(Resolved(keys))])
          else ResolveChildReferences(item, None, [])
        case ObjectProperty(key, value) =>
          (match ResolveObjectKey(key)
           case Some(StrKey(s)) => ResolveChildReferences(value, init, path + [Property(s)])
           case _ => ResolveChildReferences(value, None, []))
        case _ => [];
      here + ObjectPropertyReferences(owner, properties, i + 1, keys, init, path)
  }

  /** The names a binding pattern introduces, in source order: an independent definition. */
  function BoundNames(p: Node): seq<string>
    decreases p, 1
  {
    match p.kind
    case Identifier(name) => [name]
    case ArrayPattern(elements) => BoundNamesOfElements(p, elements, 0)
    case ObjectPattern(properties) => BoundNamesOfProperties(p, properties, 0)
    case AssignmentPattern(left, _) => BoundNames(left)
    case RestElement(argument) => BoundNames(argument)
    case _ => []
  }

  function BoundNamesOfElements(owner: Node, elements: seq<Option<Node>>, i: nat): seq<string>
    requires i <= |elements|
    requires forall k :: 0 <= k < |elements| && elements[k].Some? ==> elements[k].value < owner
    decreases owner, 0, |elements| - i
  {
    if i == |elements| then []
    else (if elements[i].Some? then BoundNames(elements[i].value) else []) + BoundNamesOfElements(owner, elements, i + 1)
  }

  function BoundNamesOfProperties(owner: Node, properties: seq<Node>, i: nat): seq<string>
    requires i <= |properties|
    requires forall k :: 0 <= k < |properties| ==> properties[k] < owner
    decreases owner, 0, |properties| - i
  {
    if i == |properties| then []
    else
      var here := match properties[i].kind
        case RestElement(argument) => BoundNames(argument)
        case ObjectProperty(_, value) => BoundNames(value)
        case _ => [];
      here + BoundNamesOfProperties(owner, properties, i + 1)
  }

  /** A pattern binds exactly its bound names, in order, whatever the initializer and path. */
  lemma {:induction false} ResolvedNamesAreBoundNames(id: Node, init: Option<Node>, path: seq<Step>)
    ensures Names(ResolveChildReferences(id, init, path)) == BoundNames(id)
    decreases id, 1
  {
    match id.kind
    case Identifier(_) =>
    case ArrayPattern(elements) => ElementNamesAreBoundNames(id, elements, 0, init, path);
    case ObjectPattern(properties) =>
      PropertyNamesAreBoundNames(id, properties, 0, SiblingKeys(properties), init, path);
    case AssignmentPattern(left, _) => ResolvedNamesAreBoundNames(left, None, []);
    case RestElement(argument) => ResolvedNamesAreBoundNames(argument, init, path);
    case _ =>
  }

  lemma {:induction false} ElementNamesAreBoundNames(owner: Node, elements: seq<Option<Node>>, i: nat, init: Option<Node>, path: seq<Step>)
    requires i <= |elements|
    requires forall k :: 0 <= k < |elements| && elements[k].Some? ==> elements[k].value < owner
    ensures Names(ArrayElementReferences(owner, elements, i, init, path)) == BoundNamesOfElements(owner, elements, i)
    decreases owner, 0, |elements| - i
  {
    if i < |elements| {
      var here := match elements[i]
        case None => []
        case Some(item) =>
          var step := if item.kind.RestElement? then SliceFrom(i) else Index(i);
          ResolveChildReferences(item, init, path + [step]);
      if elements[i].Some? {
        var item := elements[i].value;
        ResolvedNamesAreBoundNames(item, init, path + [if item.kind.RestElement? then SliceFrom(i) else Index(i)]);
      }
      ElementNamesAreBoundNames(owner, elements, i + 1, init, path);
      NamesAppend(here, ArrayElementReferences(owner, elements, i + 1, init, path));
    }
  }

  lemma {:induction false} PropertyNamesAreBoundNames(owner: Node, properties: seq<Node>, i: nat, keys: seq<Option<ObjKey>>, init: Option<Node>, path: seq<Step>)
    requires i <= |properties|
    requires forall k :: 0 <= k < |properties| ==> properties[k] < owner
    ensures Names(ObjectPropertyReferences(owner, properties, i, keys, init, path)) == BoundNamesOfProperties(owner, properties, i)
    decreases owner, 0, |properties| - i
  {
    if i < |properties| {
      var item := properties[i];
      var rest := ObjectPropertyReferences(owner, properties, i + 1, keys, init, path);
      PropertyNamesAreBoundNames(owner, properties, i + 1, keys, init, path);
      if item.kind.RestElement? {
        var here := if AllResolved(keys) then ResolveChildReferences(item, init, path + [OmitKeys(Resolved(keys))])
          else ResolveChildReferences(item, None, []);
        if AllResolved(keys) {
          ResolvedNamesAreBoundNames(item, init, path + [OmitKeys(Resolved(keys))]);
        } else {
          ResolvedNamesAreBoundNames(item, None, []);
        }
        NamesAppend(here, rest);
      } else if item.kind.ObjectProperty? {
        var value := item.kind.value;
        var here := match ResolveObjectKey(item.kind.key)
          case Some(StrKey(s)) => ResolveChildReferences(value, init, path + [Property(s)])
          case _ => ResolveChildReferences(value, None, []);
        match ResolveObjectKey(item.kind.key) {
          case Some(StrKey(s)) => ResolvedNamesAreBoundNames(value, init, path + [Property(s)]);
          case _ => ResolvedNamesAreBoundNames(value, None, []);
        }
        NamesAppend(here, rest);
      } else {
        NamesAppend([], rest);
      }
    }
  }

  /** An identifier at position `i` of an array pattern reads element `i` of the value. */
  lemma ArrayElementIdentifier(id: Node, init: Option<Node>, path: seq<Step>, i: nat, name: string, elemId: NodeId)
    requires id.kind.ArrayPattern? && i < |id.kind.elements|
    requires id.kind.elements[i] == Some(Node(elemId, Identifier(name)))
    ensures Binding(name, Reference(init, path + [Index(i)])) in ResolveChildReferences(id, init, path)
  {
    var elements := id.kind.elements;
    ElementsContain(id, elements, 0, init, path, i, Binding(name, Reference(init, path + [Index(i)])));
  }

  lemma {:induction false} ElementsContain(owner: Node, elements: seq<Option<Node>>, j: nat, init: Option<Node>, path: seq<Step>, i: nat, b: Binding)
    requires j <= i < |elements|
    requires forall k :: 0 <= k < |elements| && elements[k].Some? ==> elements[k].value < owner
    requires elements[i].Some? && !elements[i].value.kind.RestElement?
    requires b in ResolveChildReferences(elements[i].value, init, path + [Index(i)])
    ensures b in ArrayElementReferences(owner, elements, j, init, path)
    decreases |elements| - j
  {
    if j < i {
      ElementsContain(owner, elements, j + 1, init, path, i, b);
    }
  }

  /** The bindings of a later part of an array pattern are bindings of the part from `j` on. */
  lemma {:induction false} ElementSuffixIncluded(owner: Node, elements: seq<Option<Node>>, j: nat, i: nat, init: Option<Node>, path: seq<Step>)
    requires j <= i <= |elements|
    requires forall k :: 0 <= k < |elements| && elements[k].Some? ==> elements[k].value < owner
    ensures forall b :: b in ArrayElementReferences(owner, elements, i, init, path) ==> b in ArrayElementReferences(owner, elements, j, init, path)
    decreases i - j
  {
    if j < i {
      ElementSuffixIncluded(owner, elements, j + 1, i, init, path);
    }
  }

  /** The bindings of a later part of an object pattern are bindings of the part from `j` on. */
  lemma {:induction false} PropertySuffixIncluded(owner: Node, properties: seq<Node>, j: nat, i: nat, keys: seq<Option<ObjKey>>, init: Option<Node>, path: seq<Step>)
    requires j <= i <= |properties|
    requires forall k :: 0 <= k < |properties| ==> properties[k] < owner
    ensures forall b :: b in ObjectPropertyReferences(owner, properties, i, keys, init, path) ==> b in ObjectPropertyReferences(owner, properties, j, keys, init, path)
    decreases i - j
  {
    if j < i {
      PropertySuffixIncluded(owner, properties, j + 1, i, keys, init, path);
    }
  }

  /**
   * The element at position `i` of an array pattern binds against the initializer projected by
   * `Index(i)`, or by `SliceFrom(i)` when it is a rest element.
   */
  lemma ArrayElementProjection(id: Node, init: Option<Node>, path: seq<Step>, i: nat)
    requires id.kind.ArrayPattern? && i < |id.kind.elements| && id.kind.elements[i].Some?
    ensures var item := id.kind.elements[i].value;
      var step := if item.kind.RestElement? then SliceFrom(i) else Index(i);
      forall b :: b in ResolveChildReferences(item, init, path + [step]) ==> b in ResolveChildReferences(id, init, path)
  {
    var elements := id.kind.elements;
    ElementSuffixIncluded(id, elements, 0, i, init, path);
  }

  /** `[a, ...rest]`: a rest identifier at position `i` is bound to the slice from `i` on. */
  lemma ArrayRestIdentifier(id: Node, init: Option<Node>, path: seq<Step>, i: nat, restId: NodeId, name: string, nameId: NodeId)
    requires id.kind.ArrayPattern? && i < |id.kind.elements|
    requires id.kind.elements[i] == Some(Node(restId, RestElement(Node(nameId, Identifier(name)))))
    ensures Binding(name, Reference(init, path + [SliceFrom(i)])) in ResolveChildReferences(id, init, path)
  {
    ArrayElementProjection(id, init, path, i);
    var inner := Node(nameId, Identifier(name));
    assert ResolveChildReferences(inner, init, path + [SliceFrom(i)]) == [Binding(name, Reference(init, path + [SliceFrom(i)]))];
    assert ResolveChildReferences(id.kind.elements[i].value, init, path + [SliceFrom(i)]) == ResolveChildReferences(inner, init, path + [SliceFrom(i)]);
  }

  /**
   * A property `k: p` of an object pattern whose key resolves to the string `k` binds `p`
   * against the initializer projected by `Property(k)`; with any other key (a number or a
   * computed key) it binds `p` with no initializer.
   */
  lemma ObjectPropertyProjection(id: Node, init: Option<Node>, path: seq<Step>, i: nat)
    requires id.kind.ObjectPattern? && i < |id.kind.properties| && id.kind.properties[i].kind.ObjectProperty?
    ensures var p := id.kind.properties[i].kind;
      var key := ResolveObjectKey(p.key);
      && (key.Some? && key.value.StrKey? ==>
            forall b :: b in ResolveChildReferences(p.value, init, path + [Property(key.value.s)]) ==> b in ResolveChildReferences(id, init, path))
      && (!(key.Some? && key.value.StrKey?) ==>
            forall b :: b in ResolveChildReferences(p.value, None, []) ==> b in ResolveChildReferences(id, init, path))
  {
    var properties := id.kind.properties;
    PropertySuffixIncluded(id, properties, 0, i, SiblingKeys(properties), init, path);
  }

  /** `{k: x}`: an identifier under a string key `k` is bound to the initializer's property `k`. */
  lemma ObjectPropertyIdentifier(id: Node, init: Option<Node>, path: seq<Step>, i: nat, key: PropKey, name: string, nameId: NodeId, k: string)
    requires id.kind.ObjectPattern? && i < |id.kind.properties|
    requires id.kind.properties[i].kind == ObjectProperty(key, Node(nameId, Identifier(name)))
    requires ResolveObjectKey(key) == Some(StrKey(k))
    ensures Binding(name, Reference(init, path + [Property(k)])) in ResolveChildReferences(id, init, path)
  {
    ObjectPropertyProjection(id, init, path, i);
  }

  /** `{0: x}` or `{[k]: x}`: an identifier under a key that is not a string has no initializer. */
  lemma ObjectPropertyUnresolved(id: Node, init: Option<Node>, path: seq<Step>, i: nat, key: PropKey, name: string, nameId: NodeId)
    requires id.kind.ObjectPattern? && i < |id.kind.properties|
    requires id.kind.properties[i].kind == ObjectProperty(key, Node(nameId, Identifier(name)))
    requires !(ResolveObjectKey(key).Some? && ResolveObjectKey(key).value.StrKey?)
    ensures Binding(name, Reference(None, [])) in ResolveChildReferences(id, init, path)
  {
    ObjectPropertyProjection(id, init, path, i);
  }

  /**
   * `{a, b, ...rest}`: the rest element binds against the initializer with the sibling keys
   * omitted when every sibling key resolves, and with no initializer otherwise.
   */
  lemma ObjectRestProjection(id: Node, init: Option<Node>, path: seq<Step>, i: nat)
    requires id.kind.ObjectPattern? && i < |id.kind.properties| && id.kind.properties[i].kind.RestElement?
    ensures var properties := id.kind.properties;
      var keys := SiblingKeys(properties);
      && (AllResolved(keys) ==>
            forall b :: b in ResolveChildReferences(properties[i], init, path + [OmitKeys(Resolved(keys))]) ==> b in ResolveChildReferences(id, init, path))
      && (!AllResolved(keys) ==>
            forall b :: b in ResolveChildReferences(properties[i], None, []) ==> b in ResolveChildReferences(id, init, path))
  {
    var properties := id.kind.properties;
    PropertySuffixIncluded(id, properties, 0, i, SiblingKeys(properties), init, path);
  }

  /** `{a, ...rest}` with a rest identifier: bound to the initializer without the sibling keys. */
  lemma ObjectRestIdentifier(id: Node, init: Option<Node>, path: seq<Step>, i: nat, restId: NodeId, name: string, nameId: NodeId)
    requires id.kind.ObjectPattern? && i < |id.kind.properties|
    requires id.kind.properties[i] == Node(restId, RestElement(Node(nameId, Identifier(name))))
    ensures var keys := SiblingKeys(id.kind.properties);
      Binding(name, if AllResolved(keys) then Reference(init, path + [OmitKeys(Resolved(keys))]) else Reference(None, []))
        in ResolveChildReferences(id, init, path)
  {
    ObjectRestProjection(id, init, path, i);
    var keys := SiblingKeys(id.kind.properties);
    var inner := Node(nameId, Identifier(name));
    if AllResolved(keys) {
      var p := path + [OmitKeys(Resolved(keys))];
      assert ResolveChildReferences(inner, init, p) == [Binding(name, Reference(init, p))];
      assert ResolveChildReferences(id.kind.properties[i], init, p) == ResolveChildReferences(inner, init, p);
    } else {
      assert ResolveChildReferences(inner, None, []) == [Binding(name, Reference(None, []))];
      assert ResolveChildReferences(id.kind.properties[i], None, []) == ResolveChildReferences(inner, None, []);
    }
  }

  // ---------------------------------------------------------------------------------------
  // Declarations

  /** The reference one import specifier introduces: the whole module, `default`, or a name. */
  function ImportBinding(decl: Node, spec: ImportSpecifier): Binding {
    match spec
    case ImportNamespace(local) => Binding(local, Reference(Some(decl), []))
    case ImportDefault(local) => Binding(local, Reference(Some(decl), [Property("default")]))
    case ImportNamed(imported, local) => Binding(local, Reference(Some(decl), [Property(imported)]))
  }

  function ImportBindings(decl: Node, specifiers: seq<ImportSpecifier>): (r: seq<Binding>)
    ensures |r| == |specifiers| && forall i :: 0 <= i < |r| ==> r[i] == ImportBinding(decl, specifiers[i])
  {
    seq(|specifiers|, i requires 0 <= i < |specifiers| => ImportBinding(decl, specifiers[i]))
  }

  /** Declarations that take a parameter's shape: they bind with no initializer. */
  predicate IsParameterPattern(k: Kind) {
    k.Identifier? || k.ArrayPattern? || k.AssignmentPattern? || k.ObjectPattern? || k.RestElement?
  }

  /**
   * `resolveReferences(node)`: imports bind their specifiers to the import declaration,
   * `import x = require(...)` binds its id to itself, a named function or class declaration
   * binds its name to itself, a variable declarator destructures its initializer, and a
   * parameter binds its names with no initializer at all.
   */
  function ResolveReferences(decl: Node): (r: seq<Binding>)
    ensures decl.kind.ImportDeclaration? ==>
      |r| == |decl.kind.specifiers| &&
      forall i :: 0 <= i < |r| ==> r[i].name == decl.kind.specifiers[i].local && r[i].ref.init == Some(decl)
    ensures IsParameterPattern(decl.kind) ==> forall b :: b in r ==> b.ref.init.None?
    ensures (decl.kind.FunctionDeclaration? || decl.kind.FunctionExpression? || decl.kind.ClassDeclaration?) ==>
      (if decl.kind.name.Some? then r == [Binding(decl.kind.name.value, Reference(Some(decl), []))] else r == [])
    ensures decl.kind.VariableDeclarator? ==> Names(r) == BoundNames(decl.kind.target)
  {
    var k := decl.kind;
    if k.ImportDeclaration? then ImportBindings(decl, k.specifiers)
    else if k.TSImportEqualsDeclaration? then ResolveChildReferences(k.target, Some(decl), [])
    else if k.FunctionDeclaration? || k.FunctionExpression? || k.ClassDeclaration? then NamedDeclaration(decl, k.name)
    else if k.VariableDeclarator? then
      ResolvedNamesAreBoundNames(k.target, k.init, []);
      ResolveChildReferences(k.target, k.init, [])
    else if IsParameterPattern(k) then ResolveChildReferences(decl, None, [])
    else []
  }

  function NamedDeclaration(decl: Node, name: Option<string>): seq<Binding> {
    match name
    case Some(n) => [Binding(n, Reference(Some(decl), []))]
    case None => []
  }

  // ---------------------------------------------------------------------------------------
  // Scopes

  /** `Scope`: the node that owns it, whether it is a block scope, its parent, its table. */
  datatype Scope = Scope(owner: NodeId, isBlock: bool, parent: Option<nat>, refs: map<string, Reference>)

  /** Every parent link points to an earlier scope, so the parent chain is finite. */
  predicate WellFormed(arena: seq<Scope>) {
    forall i :: 0 <= i < |arena| && arena[i].parent.Some? ==> arena[i].parent.value < i
  }

  /** The same scopes, owners, kinds and parents, possibly with more scopes after them. */
  predicate SameShape(a: seq<Scope>, b: seq<Scope>) {
    && |a| <= |b|
    && forall i :: 0 <= i < |a| ==>
      b[i].owner == a[i].owner && b[i].isBlock == a[i].isBlock && b[i].parent == a[i].parent
  }

  lemma SameShapeTransitive(a: seq<Scope>, b: seq<Scope>, c: seq<Scope>)
    requires SameShape(a, b) && SameShape(b, c)
    ensures SameShape(a, c)
  {
  }

  lemma SameShapeWellFormed(a: seq<Scope>, b: seq<Scope>)
    requires WellFormed(a) && SameShape(a, b) && |a| == |b|
    ensures WellFormed(b)
  {
  }

  /** The table after the bindings are set in order: a later binding of a name overwrites. */
  function Register(refs: map<string, Reference>, bs: seq<Binding>): (r: map<string, Reference>)
    ensures r.Keys == refs.Keys + set b | b in bs :: b.name
    decreases |bs|
  {
    if |bs| == 0 then refs
    else
      assert forall b :: b in bs[1..] ==> b in bs;
      assert forall b :: b in bs ==> b == bs[0] || b in bs[1..];
      Register(refs[bs[0].name := bs[0].ref], bs[1..])
  }

  /** The last binding of a name is the one the table keeps. */
  lemma {:induction false} RegisterKeepsLastBinding(refs: map<string, Reference>, bs: seq<Binding>, i: nat)
    requires i < |bs|
    requires forall j :: i < j < |bs| ==> bs[j].name != bs[i].name
    ensures Register(refs, bs)[bs[i].name] == bs[i].ref
    decreases |bs|
  {
    if i == 0 {
      RegisterLeavesOthers(refs[bs[0].name := bs[0].ref], bs[1..], bs[0].name);
    } else {
      RegisterKeepsLastBinding(refs[bs[0].name := bs[0].ref], bs[1..], i - 1);
    }
  }

  /** A name no binding mentions keeps its previous entry. */
  lemma {:induction false} RegisterLeavesOthers(refs: map<string, Reference>, bs: seq<Binding>, name: string)
    requires name in refs
    requires forall j :: 0 <= j < |bs| ==> bs[j].name != name
    ensures Register(refs, bs)[name] == refs[name]
    decreases |bs|
  {
    if |bs| > 0 {
      RegisterLeavesOthers(refs[bs[0].name := bs[0].ref], bs[1..], name);
    }
  }

  /** The scope that `add(node, isBlockDeclaration)` on scope `sid` registers into, if any. */
  function Target(arena: seq<Scope>, sid: nat, isBlockDecl: bool): (r: Option<nat>)
    requires WellFormed(arena) && sid < |arena|
    ensures r.Some? ==> r.value <= sid
    decreases sid
  {
    if !isBlockDecl && arena[sid].isBlock then
      match arena[sid].parent
      case Some(p) => Target(arena, p, isBlockDecl)
      case None => None
    else Some(sid)
  }

  /**
   * `Scope.add`: a declaration that is not block-scoped, made in a block scope, is handed to the
   * parent (and dropped at a root block scope); otherwise its references are registered here.
   */
  function Add(arena: seq<Scope>, sid: nat, decl: Node, isBlockDecl: bool): (r: seq<Scope>)
    requires WellFormed(arena) && sid < |arena|
    ensures SameShape(arena, r) && |r| == |arena| && WellFormed(r)
    ensures forall i :: 0 <= i < |arena| && Target(arena, sid, isBlockDecl) != Some(i) ==> r[i] == arena[i]
    ensures Target(arena, sid, isBlockDecl).Some? ==>
      var t := Target(arena, sid, isBlockDecl).value;
      r[t].refs == Register(arena[t].refs, ResolveReferences(decl))
    decreases sid
  {
    if !isBlockDecl && arena[sid].isBlock then
      match arena[sid].parent
      case Some(p) => Add(arena, p, decl, isBlockDecl)
      case None => arena
    else
      arena[sid := arena[sid].(refs := Register(arena[sid].refs, ResolveReferences(decl)))]
  }

  /** The parent chain of a scope, innermost first. */
  function Chain(arena: seq<Scope>, sid: nat): (r: seq<nat>)
    requires WellFormed(arena) && sid < |arena|
    ensures |r| > 0 && r[0] == sid
    ensures forall k :: 0 <= k < |r| ==> r[k] <= sid
    decreases sid
  {
    match arena[sid].parent
    case Some(p) => [sid] + Chain(arena, p)
    case None => [sid]
  }

  /** The chain climbs strictly outwards, so it visits no scope twice. */
  lemma {:induction false} ChainDescends(arena: seq<Scope>, sid: nat)
    requires WellFormed(arena) && sid < |arena|
    ensures forall i, j :: 0 <= i < j < |Chain(arena, sid)| ==> Chain(arena, sid)[i] > Chain(arena, sid)[j]
    decreases sid
  {
    var c := Chain(arena, sid);
    if arena[sid].parent.Some? {
      var p := arena[sid].parent.value;
      ChainDescends(arena, p);
      assert c == [sid] + Chain(arena, p);
      forall i, j | 0 <= i < j < |c| ensures c[i] > c[j] {
        assert c[j] == Chain(arena, p)[j - 1];
        if i > 0 {
          assert c[i] == Chain(arena, p)[i - 1];
        }
      }
    }
  }

  /** `s` is on the chain, and every scope on the chain inside it (nearer `sid`) is a block scope. */
  predicate NearestNonBlock(arena: seq<Scope>, c: seq<nat>, s: nat)
    requires forall k :: 0 <= k < |c| ==> c[k] < |arena|
    requires s < |arena|
  {
    && s in c && !arena[s].isBlock
    && forall j :: 0 <= j < |c| && c[j] > s ==> arena[c[j]].isBlock
  }

  /**
   * The registering scope of a declaration that is not block-scoped is the nearest scope on the
   * chain that is not a block scope, and there is none exactly when every scope on the chain is
   * a block scope.
   */
  lemma {:induction false} TargetIsNearestNonBlock(arena: seq<Scope>, sid: nat)
    requires WellFormed(arena) && sid < |arena|
    ensures forall s: nat :: s < |arena| && NearestNonBlock(arena, Chain(arena, sid), s) ==> Target(arena, sid, false) == Some(s)
    ensures Target(arena, sid, false).None? <==> forall k :: 0 <= k < |Chain(arena, sid)| ==> arena[Chain(arena, sid)[k]].isBlock
    decreases sid
  {
    var c := Chain(arena, sid);
    if arena[sid].isBlock && arena[sid].parent.Some? {
      var p := arena[sid].parent.value;
      TargetIsNearestNonBlock(arena, p);
      assert c == [sid] + Chain(arena, p);
      forall s: nat | s < |arena| && NearestNonBlock(arena, c, s) ensures NearestNonBlock(arena, Chain(arena, p), s) {
        assert s != sid;
        assert s in Chain(arena, p);
        forall j | 0 <= j < |Chain(arena, p)| && Chain(arena, p)[j] > s ensures arena[Chain(arena, p)[j]].isBlock {
          assert Chain(arena, p)[j] == c[j + 1];
        }
      }
      if forall k :: 0 <= k < |Chain(arena, p)| ==> arena[Chain(arena, p)[k]].isBlock {
        forall k | 0 <= k < |c| ensures arena[c[k]].isBlock {
          if k > 0 { assert c[k] == Chain(arena, p)[k - 1]; }
        }
      } else {
        var k :| 0 <= k < |Chain(arena, p)| && !arena[Chain(arena, p)[k]].isBlock;
        assert c[k + 1] == Chain(arena, p)[k];
      }
    } else if !arena[sid].isBlock {
      forall s: nat | s < |arena| && NearestNonBlock(arena, c, s) ensures s == sid {
      }
    }
  }

  /** `Scope.get`: the innermost reference for a name along the parent chain. */
  function Get(arena: seq<Scope>, sid: nat, name: string): Option<Reference>
    requires WellFormed(arena) && sid < |arena|
    decreases sid
  {
    if name in arena[sid].refs then Some(arena[sid].refs[name])
    else
      match arena[sid].parent
      case Some(p) => Get(arena, p, name)
      case None => None
  }

  /** `s` is on the chain and binds the name, and no scope on the chain inside it does. */
  predicate InnermostBinder(arena: seq<Scope>, c: seq<nat>, s: nat, name: string)
    requires forall k :: 0 <= k < |c| ==> c[k] < |arena|
    requires s < |arena|
  {
    && s in c && name in arena[s].refs
    && forall j :: 0 <= j < |c| && c[j] > s ==> name !in arena[c[j]].refs
  }

  /** Lookup returns the reference of the innermost scope on the chain that binds the name. */
  lemma {:induction false} GetFindsInnermost(arena: seq<Scope>, sid: nat, name: string)
    requires WellFormed(arena) && sid < |arena|
    ensures forall s: nat :: s < |arena| && InnermostBinder(arena, Chain(arena, sid), s, name) ==>
      Get(arena, sid, name) == Some(arena[s].refs[name])
    decreases sid
  {
    var c := Chain(arena, sid);
    if name in arena[sid].refs {
      forall s: nat | s < |arena| && InnermostBinder(arena, c, s, name) ensures s == sid {
      }
    } else if arena[sid].parent.Some? {
      var p := arena[sid].parent.value;
      GetFindsInnermost(arena, p, name);
      assert c == [sid] + Chain(arena, p);
      forall s: nat | s < |arena| && InnermostBinder(arena, c, s, name) ensures InnermostBinder(arena, Chain(arena, p), s, name) {
        assert s != sid;
        assert s in Chain(arena, p);
        forall j | 0 <= j < |Chain(arena, p)| && Chain(arena, p)[j] > s ensures name !in arena[Chain(arena, p)[j]].refs {
          assert Chain(arena, p)[j] == c[j + 1];
        }
      }
    }
  }

  /** Lookup finds nothing exactly when no scope on the chain binds the name. */
  lemma {:induction false} GetFailsWhenUnbound(arena: seq<Scope>, sid: nat, name: string)
    requires WellFormed(arena) && sid < |arena|
    ensures Get(arena, sid, name).None? <==> forall k :: 0 <= k < |Chain(arena, sid)| ==> name !in arena[Chain(arena, sid)[k]].refs
    decreases sid
  {
    var c := Chain(arena, sid);
    if name in arena[sid].refs {
      assert Get(arena, sid, name).Some?;
      assert name in arena[Chain(arena, sid)[0]].refs;
    } else if arena[sid].parent.Some? {
      var p := arena[sid].parent.value;
      GetFailsWhenUnbound(arena, p, name);
      assert c == [sid] + Chain(arena, p);
      if forall k :: 0 <= k < |Chain(arena, p)| ==> name !in arena[Chain(arena, p)[k]].refs {
        forall k | 0 <= k < |c| ensures name !in arena[c[k]].refs {
          if k > 0 { assert c[k] == Chain(arena, p)[k - 1]; }
        }
      } else {
        var k :| 0 <= k < |Chain(arena, p)| && name in arena[Chain(arena, p)[k]].refs;
        assert c[k + 1] == Chain(arena, p)[k];
      }
    } else {
      assert c == [sid];
    }
  }
}

=== FILE: syntax.dfy ===
/**
 * The syntax tree the engine reads. It is produced by an external parser (Babel in the
 * original); only the node kinds the scope analyser or the evaluator distinguish are modelled,
 * and every other statement, TypeScript/Flow or JSX node falls into a catch-all kind that keeps
 * its children for the scope walk.
 *
 * Node identity matters to the engine (the memo and the scope map are keyed by node object), so
 * every node carries an `id`.
 */
module Syntax {
  import opened Optional

  type NodeId = nat

  datatype Node = Node(id: NodeId, kind: Kind)

  /** `var` declarations are hoisted to the enclosing function scope; `let`/`const` are not. */
  datatype DeclKind = Var | Let | Const

  /**
   * A property key as written: `a` (not computed), `'a'` or `['a']`, `1`, or any other computed
   * expression.
   */
  datatype PropKey =
    | KeyIdentifier(name: string)
    | KeyString(text: string)
    | KeyNumber(number: int)
    | KeyComputed(expression: Node)

  /** A property key once statically resolved: the host keeps numeric keys as numbers. */
  datatype ObjKey = StrKey(s: string) | NumKey(n: int)

  /** The property part of `a.b`, `a[e]` or `a.#p`. */
  datatype MemberProperty =
    | Static(name: string)
    | Computed(expression: Node)
    | PrivateName(name: string)

  datatype ImportSpecifier =
    | ImportNamespace(local: string)
    | ImportDefault(local: string)
    | ImportNamed(imported: string, local: string)

  datatype ExportSpecifier =
    | ExportSpec(local: Node, exported: string)
    | ExportNamespaceSpec(exported: string)
    | ExportDefaultSpec(exported: string)

  datatype EnumMember = EnumMember(name: string, initializer: Option<Node>)

  /**
   * Operator tokens as the parser produces them. `+` and `-` serve both as binary and as unary
   * operators; `OpCompound(op)` is the assignment operator `op=`; `OtherOperator` stands for any
   * token outside this set.
   */
  datatype Operator =
    | OpAdd | OpSub | OpDiv | OpRem | OpMul | OpPow
    | OpBitAnd | OpBitOr | OpShr | OpUShr | OpShl | OpBitXor
    | OpLooseEq | OpStrictEq | OpLooseNe | OpStrictNe | OpIn | OpInstanceOf
    | OpGt | OpLt | OpGe | OpLe
    | OpOr | OpAnd | OpCoalesce
    | OpPipeline
    | OpAssign
    | OpCompound(base: Operator)
    | OpVoid | OpThrow | OpDelete | OpNot | OpBitNot | OpTypeOf
    | OpIncrement | OpDecrement
    | OtherOperator(text: string)

  datatype Kind =
    // program structure and statements
    | File(program: Node)
    | Program(body: seq<Node>)
    | ExpressionStatement(expression: Node)
    | BlockStatement(body: seq<Node>)
    | ReturnStatement(returned: Option<Node>)
    | ThrowStatement(thrown: Node)
    | EmptyStatement
    | VariableDeclaration(declKind: DeclKind, declarations: seq<Node>)
    | VariableDeclarator(target: Node, init: Option<Node>)
    | ForStatement(parts: seq<Node>)
    | ForInStatement(parts: seq<Node>)
    | ForOfStatement(parts: seq<Node>)
    | CatchClause(param: Option<Node>, handler: Node)
    | OtherStatement(children: seq<Node>)
    // modules
    | ImportDeclaration(source: string, specifiers: seq<ImportSpecifier>)
    | ExportAllDeclaration(source: string)
    | ExportDefaultDeclaration(declaration: Node)
    | ExportNamedDeclaration(namedDeclaration: Option<Node>, exportSpecifiers: seq<ExportSpecifier>, from: Option<string>)
    // functions and classes
    | FunctionDeclaration(name: Option<string>, params: seq<Node>, fnBody: Node, isAsync: bool)
    | FunctionExpression(name: Option<string>, params: seq<Node>, fnBody: Node, isAsync: bool)
    | ArrowFunctionExpression(params: seq<Node>, fnBody: Node, isAsync: bool)
    | ObjectMethod(key: PropKey, params: seq<Node>, fnBody: Node, isAsync: bool)
    | ClassMethod(key: PropKey, isStatic: bool, params: seq<Node>, fnBody: Node, isAsync: bool)
    | ClassProperty(key: PropKey, isStatic: bool, initial: Option<Node>)
    | ClassDeclaration(name: Option<string>, classBody: Node)
    | ClassExpression(name: Option<string>, classBody: Node)
    | ClassBody(members: seq<Node>)
    // expressions
    | Identifier(identifier: string)
    | NumericLiteral(number: int)
    | StringLiteral(text: string)
    | BooleanLiteral(truth: bool)
    | NullLiteral
    | BigIntLiteral(bigint: int)
    | RegExpLiteral(pattern: string, flags: string)
    | TemplateLiteral(quasis: seq<string>, expressions: seq<Node>)
    | TemplateElement(cooked: Option<string>, raw: string)
    | TaggedTemplateExpression(tag: Node, quasiElements: seq<Node>, expressions: seq<Node>)
    | ArrayExpression(elements: seq<Option<Node>>)
    | ObjectExpression(properties: seq<Node>)
    | ObjectProperty(key: PropKey, value: Node)
    | SpreadElement(argument: Node)
    | UnaryExpression(operator: Operator, argument: Node)
    | UpdateExpression(operator: Operator, prefix: bool, argument: Node)
    | BinaryExpression(operator: Operator, left: Node, right: Node)
    | LogicalExpression(operator: Operator, left: Node, right: Node)
    | AssignmentExpression(operator: Operator, left: Node, right: Node)
    | ConditionalExpression(test: Node, consequent: Node, alternate: Node)
    | SequenceExpression(expressions: seq<Node>)
    | AwaitExpression(argument: Node)
    | CallExpression(callee: Node, arguments: seq<Node>)
    | OptionalCallExpression(callee: Node, arguments: seq<Node>)
    | NewExpression(callee: Node, arguments: seq<Node>)
    | Import
    | MemberExpression(obj: Node, property: MemberProperty)
    | OptionalMemberExpression(obj: Node, property: MemberProperty)
    // binding patterns
    | ArrayPattern(elements: seq<Option<Node>>)
    | ObjectPattern(properties: seq<Node>)
    | AssignmentPattern(left: Node, right: Node)
    | RestElement(argument: Node)
    // TypeScript (Flow type casts are the same expression wrapper)
    | TSExpression(expression: Node)
    | TSEnumDeclaration(enumName: string, enumMembers: seq<EnumMember>)
    | TSExternalModuleReference(source: string)
    | TSImportEqualsDeclaration(target: Node, moduleReference: Node)
    | TSModuleBlock(body: seq<Node>)
    | TSModuleDeclaration(moduleName: string, moduleBody: Node)
    | TSExportAssignment(expression: Node)
    | TSOther(declared: Option<string>, children: seq<Node>)
    // JSX
    | JSX(children: seq<Node>)

  /** Babel's `isExpression` on the kinds that can stand where a binding pattern is expected. */
  predicate IsExpression(k: Kind) {
    || k.Identifier? || k.NumericLiteral? || k.StringLiteral? || k.BooleanLiteral?
    || k.NullLiteral? || k.BigIntLiteral? || k.RegExpLiteral? || k.TemplateLiteral?
    || k.TaggedTemplateExpression? || k.ArrayExpression? || k.ObjectExpression?
    || k.FunctionExpression? || k.ArrowFunctionExpression? || k.ClassExpression?
    || k.UnaryExpression? || k.UpdateExpression? || k.BinaryExpression? || k.LogicalExpression?
    || k.AssignmentExpression? || k.ConditionalExpression? || k.SequenceExpression?
    || k.AwaitExpression? || k.CallExpression? || k.OptionalCallExpression? || k.NewExpression?
    || k.Import? || k.MemberExpression? || k.OptionalMemberExpression? || k.TSExpression?
    || k.JSX?
  }

  /**
   * Static resolution of an object or class key (the ast-kit helper `resolveObjectKey`, which the
   * engine wraps so that a throw becomes "no key"): an identifier that is not computed gives its
   * name, a string or numeric literal its value, anything else nothing.
   */
  function ResolveObjectKey(key: PropKey): (r: Option<ObjKey>)
    ensures r.None? <==> key.KeyComputed?
  {
    match key
    case KeyIdentifier(name) => Some(StrKey(name))
    case KeyString(text) => Some(StrKey(text))
    case KeyNumber(number) => Some(NumKey(number))
    case KeyComputed(_) => None
  }

  /** The resolved key of a property-like node (object property or method, class member). */
  function PropertyKeyOf(n: Node): (r: Option<ObjKey>)
    ensures r.Some? ==> n.kind.ObjectProperty? || n.kind.ObjectMethod? || n.kind.ClassMethod? || n.kind.ClassProperty?
  {
    match n.kind
    case ObjectProperty(key, _) => ResolveObjectKey(key)
    case ObjectMethod(key, _, _, _) => ResolveObjectKey(key)
    case ClassMethod(key, _, _, _, _) => ResolveObjectKey(key)
    case ClassProperty(key, _, _) => ResolveObjectKey(key)
    case _ => None
  }

  /** ast-kit's `resolveString` on an identifier or string literal. */
  function NameOf(n: Node): string {
    match n.kind
    case Identifier(name) => name
    case StringLiteral(text) => text
    case _ => ""
  }

  function Present(o: Option<Node>): (r: seq<Node>)
    ensures forall c :: c in r ==> o == Some(c)
  {
    match o
    case Some(c) => [c]
    case None => []
  }

  function Somes(xs: seq<Option<Node>>): (r: seq<Node>)
    ensures forall c :: c in r ==> Some(c) in xs
  {
    if |xs| == 0 then [] else Present(xs[0]) + Somes(xs[1..])
  }

  function KeyNodes(key: PropKey): (r: seq<Node>)
    ensures forall c :: c in r ==> key == KeyComputed(c)
  {
    match key
    case KeyComputed(e) => [e]
    case _ => []
  }

  function PropertyNodes(p: MemberProperty): (r: seq<Node>)
    ensures forall c :: c in r ==> p == Computed(c)
  {
    match p
    case Computed(e) => [e]
    case _ => []
  }

  function ExportLocals(specs: seq<ExportSpecifier>): (r: seq<Node>)
    ensures forall c :: c in r ==> exists i :: 0 <= i < |specs| && specs[i].ExportSpec? && specs[i].local == c
  {
    if |specs| == 0 then []
    else
      var head := if specs[0].ExportSpec? then [specs[0].local] else [];
      var tail := ExportLocals(specs[1..]);
      assert forall c :: c in tail ==> exists i :: 1 <= i < |specs| && specs[i].ExportSpec? && specs[i].local == c by {
        forall c | c in tail
          ensures exists i :: 1 <= i < |specs| && specs[i].ExportSpec? && specs[i].local == c
        {
          var j :| 0 <= j < |specs[1..]| && specs[1..][j].ExportSpec? && specs[1..][j].local == c;
          assert specs[j + 1] == specs[1..][j];
        }
      }
      head + tail
  }

  function EnumInitializers(ms: seq<EnumMember>): (r: seq<Node>)
    ensures forall c :: c in r ==> exists i :: 0 <= i < |ms| && ms[i].initializer == Some(c)
  {
    if |ms| == 0 then []
    else
      var tail := EnumInitializers(ms[1..]);
      assert forall c :: c in tail ==> exists i :: 1 <= i < |ms| && ms[i].initializer == Some(c) by {
        forall c | c in tail
          ensures exists i :: 1 <= i < |ms| && ms[i].initializer == Some(c)
        {
          var j :| 0 <= j < |ms[1..]| && ms[1..][j].initializer == Some(c);
          assert ms[j + 1] == ms[1..][j];
        }
      }
      Present(ms[0].initializer) + tail
  }

  /**
   * The child nodes a tree walk visits, in source order. Every child is structurally smaller than
   * its parent, which is what lets the walks recurse on them.
   */
  function Children(n: Node): (r: seq<Node>)
    ensures forall c :: c in r ==> c < n
  {
    match n.kind
    case File(program) => [program]
    case Program(body) => body
    case ExpressionStatement(e) => [e]
    case BlockStatement(body) => body
    case ReturnStatement(argument) => Present(argument)
    case ThrowStatement(argument) => [argument]
    case EmptyStatement => []
    case VariableDeclaration(_, declarations) => declarations
    case VariableDeclarator(target, init) => [target] + Present(init)
    case ForStatement(parts) => parts
    case ForInStatement(parts) => parts
    case ForOfStatement(parts) => parts
    case CatchClause(param, handler) => Present(param) + [handler]
    case OtherStatement(children) => children
    case ImportDeclaration(_, _) => []
    case ExportAllDeclaration(_) => []
    case ExportDefaultDeclaration(declaration) => [declaration]
    case ExportNamedDeclaration(declaration, specs, _) => Present(declaration) + ExportLocals(specs)
    case FunctionDeclaration(_, params, body, _) => params + [body]
    case FunctionExpression(_, params, body, _) => params + [body]
    case ArrowFunctionExpression(params, body, _) => params + [body]
    case ObjectMethod(key, params, body, _) => KeyNodes(key) + params + [body]
    case ClassMethod(key, _, params, body, _) => KeyNodes(key) + params + [body]
    case ClassProperty(key, _, value) => KeyNodes(key) + Present(value)
    case ClassDeclaration(_, body) => [body]
    case ClassExpression(_, body) => [body]
    case ClassBody(members) => members
    case Identifier(_) => []
    case NumericLiteral(_) => []
    case StringLiteral(_) => []
    case BooleanLiteral(_) => []
    case NullLiteral => []
    case BigIntLiteral(_) => []
    case RegExpLiteral(_, _) => []
    case TemplateLiteral(_, expressions) => expressions
    case TemplateElement(_, _) => []
    case TaggedTemplateExpression(tag, quasis, expressions) => [tag] + quasis + expressions
    case ArrayExpression(elements) => Somes(elements)
    case ObjectExpression(properties) => properties
    case ObjectProperty(key, value) => KeyNodes(key) + [value]
    case SpreadElement(argument) => [argument]
    case UnaryExpression(_, argument) => [argument]
    case UpdateExpression(_, _, argument) => [argument]
    case BinaryExpression(_, left, right) => [left, right]
    case LogicalExpression(_, left, right) => [left, right]
    case AssignmentExpression(_, left, right) => [left, right]
    case ConditionalExpression(test, consequent, alternate) => [test, consequent, alternate]
    case SequenceExpression(expressions) => expressions
    case AwaitExpression(argument) => [argument]
    case CallExpression(callee, arguments) => [callee] + arguments
    case OptionalCallExpression(callee, arguments) => [callee] + arguments
    case NewExpression(callee, arguments) => [callee] + arguments
    case Import => []
    case MemberExpression(obj, property) => [obj] + PropertyNodes(property)
    case OptionalMemberExpression(obj, property) => [obj] + PropertyNodes(property)
    case ArrayPattern(elements) => Somes(elements)
    case ObjectPattern(properties) => properties
    case AssignmentPattern(left, right) => [left, right]
    case RestElement(argument) => [argument]
    case TSExpression(expression) => [expression]
    case TSEnumDeclaration(_, members) => EnumInitializers(members)
    case TSExternalModuleReference(_) => []
    case TSImportEqualsDeclaration(target, moduleReference) => [target, moduleReference]
    case TSModuleBlock(body) => body
    case TSModuleDeclaration(_, body) => [body]
    case TSExportAssignment(expression) => [expression]
    case TSOther(_, children) => children
    case JSX(children) => children
  }

  /** The identities of every node in the subtree rooted at `n`. */
  function Ids(n: Node): (r: set<NodeId>)
    ensures n.id in r
    decreases n, 1
  {
    {n.id} + IdsOfAll(n, Children(n))
  }

  function IdsOfAll(owner: Node, xs: seq<Node>): set<NodeId>
    requires forall c :: c in xs ==> c < owner
    decreases owner, 0, |xs|
  {
    if |xs| == 0 then {}
    else
      assert xs[0] in xs;
      assert forall c :: c in xs[1..] ==> c in xs;
      Ids(xs[0]) + IdsOfAll(owner, xs[1..])
  }

  /**
   * The subtree's nodes have pairwise distinct identities, as object identity guarantees in the
   * original: no node is its own descendant's twin and sibling subtrees share no node.
   */
  predicate UniqueIds(n: Node)
    decreases n, 1
  {
    && n.id !in IdsOfAll(n, Children(n))
    && UniqueAll(n, Children(n))
  }

  predicate UniqueAll(owner: Node, xs: seq<Node>)
    requires forall c :: c in xs ==> c < owner
    decreases owner, 0, |xs|
  {
    |xs| == 0 || (
      assert xs[0] in xs;
      assert forall c :: c in xs[1..] ==> c in xs;
      && UniqueIds(xs[0])
      && Ids(xs[0]) !! IdsOfAll(owner, xs[1..])
      && UniqueAll(owner, xs[1..]))
  }
}

=== FILE: values.dfy ===
/**
 * The values the evaluator computes. Primitives are held directly; objects live in a heap and
 * are referred to by handle, so that object identity (which the safe set, the related map and
 * `===` all rely on) is explicit.
 *
 * Numbers are integers: fractional numbers, NaN, the infinities and negative zero are not part
 * of this model.
 */
module Values {
  import opened Optional

  type Handle = nat

  /**
   * `Unknown` is the engine's sentinel symbol: the value of anything it cannot work out
   * statically. It is the only symbol the engine produces.
   */
  datatype Val =
    | Unknown
    | Undefined
    | Null
    | Bool(b: bool)
    | Num(n: int)
    | BigInt(i: int)
    | Str(s: string)
    | Ref(h: Handle)

  /** An array slot: sparse arrays keep their holes. */
  datatype Slot = Hole | Item(v: Val)

  /** Where a function object comes from. */
  datatype Origin =
    | SourceFunction(isAsync: bool, isArrow: bool, body: Val)  // a stand-in that returns its body's value
    | ClassOrigin                                              // the placeholder class of a class body
    | HostFunction(tag: nat)                                   // supplied by the caller (variables, modules)

  datatype Obj =
    | ArrayObj(slots: seq<Slot>)
    | PlainObj(props: map<string, Val>)
    | FunctionObj(origin: Origin, props: map<string, Val>)
    | PromiseObj(result: Val)
    | RegExpObj(pattern: string, flags: string)

  type Heap = seq<Obj>

  /** The outcome of a step that may throw. */
  datatype Completion = Normal(value: Val) | Abrupt

  /** Allocation appends, so the new handle is fresh and every old object is untouched. */
  function Alloc(heap: Heap, o: Obj): (r: (Heap, Val))
    ensures r.1.Ref? && r.1.h == |heap|
    ensures |r.0| == |heap| + 1 && r.0[..|heap|] == heap && r.0[|heap|] == o
  {
    (heap + [o], Ref(|heap|))
  }

  function ObjAt(heap: Heap, v: Val): (r: Option<Obj>)
    ensures r.Some? <==> v.Ref? && v.h < |heap|
    ensures r.Some? ==> r.value == heap[v.h]
  {
    if v.Ref? && v.h < |heap| then Some(heap[v.h]) else None
  }

  // ---------------------------------------------------------------------------------------
  // Handles that name an object

  /** The value's handle, if it has one, names one of the first `n` objects. */
  predicate Fits(n: nat, v: Val) {
    v.Ref? ==> v.h < n
  }

  predicate PropsFit(n: nat, props: map<string, Val>) {
    forall k :: k in props ==> Fits(n, props[k])
  }

  predicate SlotsFit(n: nat, slots: seq<Slot>) {
    forall i :: 0 <= i < |slots| && slots[i].Item? ==> Fits(n, slots[i].v)
  }

  /** Every handle the object holds names one of the first `n` objects. */
  predicate ObjFits(n: nat, o: Obj) {
    match o
    case ArrayObj(slots) => SlotsFit(n, slots)
    case PlainObj(props) => PropsFit(n, props)
    case FunctionObj(origin, props) => (origin.SourceFunction? ==> Fits(n, origin.body)) && PropsFit(n, props)
    case PromiseObj(result) => Fits(n, result)
    case RegExpObj(_, _) => true
  }

  /** A heap in which no handle dangles: every handle an object holds names an object. */
  predicate Closed(heap: Heap) {
    forall i :: 0 <= i < |heap| ==> ObjFits(|heap|, heap[i])
  }

  /** What fits a heap fits any larger one. */
  lemma ObjFitsLarger(n: nat, m: nat, o: Obj)
    requires n <= m && ObjFits(n, o)
    ensures ObjFits(m, o)
  {
  }

  /** Appending an object whose handles name objects of the heap keeps the heap closed. */
  lemma AllocClosed(heap: Heap, o: Obj)
    requires Closed(heap) && ObjFits(|heap|, o)
    ensures Closed(heap + [o]) && ObjFits(|heap| + 1, o)
  {
    forall i | 0 <= i < |heap + [o]|
      ensures ObjFits(|heap| + 1, (heap + [o])[i])
    {
      if i < |heap| {
        ObjFitsLarger(|heap|, |heap| + 1, heap[i]);
      } else {
        ObjFitsLarger(|heap|, |heap| + 1, o);
      }
    }
  }

  /** `typeof value === 'function'`. */
  predicate IsCallable(heap: Heap, v: Val) {
    v.Ref? && v.h < |heap| && heap[v.h].FunctionObj?
  }

  /** JavaScript truthiness (the sentinel symbol is truthy). */
  predicate Truthy(v: Val) {
    match v
    case Unknown => true
    case Undefined => false
    case Null => false
    case Bool(b) => b
    case Num(n) => n != 0
    case BigInt(i) => i != 0
    case Str(s) => |s| > 0
    case Ref(_) => true
  }

  /** The `typeof` operator. */
  function TypeOf(heap: Heap, v: Val): (r: string)
    ensures r in {"symbol", "undefined", "object", "boolean", "number", "bigint", "string", "function"}
    ensures r == "function" <==> IsCallable(heap, v)
  {
    match v
    case Unknown => "symbol"
    case Undefined => "undefined"
    case Null => "object"
    case Bool(_) => "boolean"
    case Num(_) => "number"
    case BigInt(_) => "bigint"
    case Str(_) => "string"
    case Ref(_) => if IsCallable(heap, v) then "function" else "object"
  }

  /** Nullish: the values `??`, `?.` and `Object.assign` treat as absent. */
  predicate IsNullish(v: Val) {
    v == Undefined || v == Null
  }

  const TWO_32: int := 0x1_0000_0000
  const TWO_31: int := 0x8000_0000

  /** ECMAScript ToInt32 on an integral number: wrap modulo 2^32 into the signed range. */
  function ToInt32(n: int): (r: int)
    ensures -TWO_31 <= r < TWO_31
    ensures (r - n) % TWO_32 == 0
  {
    var m := n % TWO_32;
    if m >= TWO_31 then m - TWO_32 else m
  }

  lemma ToInt32OfInt32(n: int)
    requires -TWO_31 <= n < TWO_31
    ensures ToInt32(n) == n
  {
  }
}

=== FILE: wellformed.dfy ===
/**
 * No handle dangles. The original's safe set and related map are weak collections keyed by live
 * objects, so a newly created object is never already marked safe and never already linked.
 * Here objects are handles into a heap that only grows, so the same holds once every handle the
 * state mentions names an object of the heap: the next handle to be allocated is then fresh.
 *
 * `Valid` is that invariant, and the lemmas below show that every step of the evaluator keeps
 * it, provided the host is lawful (it frees no object and returns no dangling handle) and the
 * caller's options mention only objects of the starting heap.
 */
module WellFormed {
  import opened Optional
  import opened Syntax
  import opened Values
  import opened Hosting
  import opened Objects
  import Reflect
  import opened Related
  import opened Operators
  import opened Paths
  import opened ScopeWalk
  import opened Aggregate
  import opened Evaluator
  import EvaluatorLaws

  // ---------------------------------------------------------------------------------------
  // Reading, listing and building objects in a closed heap

  lemma SlotGetFits(n: nat, slots: seq<Slot>, key: string)
    requires SlotsFit(n, slots)
    ensures Fits(n, SlotGet(slots, key))
  {
  }

  /** A property read in a closed heap yields a value that names an object of it, if any. */
  lemma RawGetFits(heap: Heap, target: Val, key: string)
    requires Closed(heap)
    ensures RawGet(heap, target, key).Normal? ==> Fits(|heap|, RawGet(heap, target, key).value)
  {
    match target
    case Str(s) =>
      SlotGetFits(|heap|, CharSlots(s), key);
    case Ref(h) =>
      if h < |heap| && heap[h].ArrayObj? {
        assert ObjFits(|heap|, heap[h]);
        SlotGetFits(|heap|, heap[h].slots, key);
      } else if h < |heap| {
        assert ObjFits(|heap|, heap[h]);
      }
    case _ =>
  }

  lemma SlotEntriesFit(n: nat, slots: seq<Slot>)
    requires SlotsFit(n, slots)
    ensures PropsFit(n, SlotEntries(slots))
  {
    var r := SlotEntries(slots);
    forall k | k in r
      ensures Fits(n, r[k])
    {
      var i :| 0 <= i < |slots| && slots[i].Item? && k == NatToStringOf(i);
    }
  }

  function NatToStringOf(i: nat): string {
    Numerals.NatToString(i)
  }

  /** The own entries of a value in a closed heap name only objects of it. */
  lemma OwnEntriesFit(heap: Heap, v: Val)
    requires Closed(heap)
    ensures PropsFit(|heap|, OwnEntries(heap, v))
    ensures PropsFit(|heap|, AssignSource(heap, v))
  {
    match v
    case Str(s) =>
      SlotEntriesFit(|heap|, CharSlots(s));
    case Ref(h) =>
      if h < |heap| {
        assert ObjFits(|heap|, heap[h]);
        if heap[h].ArrayObj? {
          SlotEntriesFit(|heap|, heap[h].slots);
        }
      }
    case _ =>
  }

  /** The members' values all name objects of the first `n`. */
  predicate MembersFit(n: nat, ms: seq<Member>) {
    forall i :: 0 <= i < |ms| ==> Fits(n, ms[i].v)
  }

  lemma {:induction false} BuildObjectFits(heap: Heap, m: map<string, Val>, ms: seq<Member>)
    requires Closed(heap) && PropsFit(|heap|, m) && MembersFit(|heap|, ms)
    ensures PropsFit(|heap|, BuildObject(heap, m, ms))
    decreases |ms|
  {
    if |ms| > 0 {
      var next := Assign(heap, m, ms[0]);
      if ms[0].SpreadMember? {
        OwnEntriesFit(heap, ms[0].v);
      }
      assert PropsFit(|heap|, next);
      assert MembersFit(|heap|, ms[1..]) by {
        assert forall i :: 0 <= i < |ms[1..]| ==> ms[1..][i] == ms[i + 1];
      }
      BuildObjectFits(heap, next, ms[1..]);
    }
  }

  /** The elements' values all name objects of the first `n`. */
  predicate ElementsFit(n: nat, es: seq<Element>) {
    forall i :: 0 <= i < |es| && !es[i].Gap? ==> Fits(n, es[i].v)
  }

  lemma ElementsConsFit(n: nat, e: Element, es: seq<Element>)
    requires (e.Gap? || Fits(n, e.v)) && ElementsFit(n, es)
    ensures ElementsFit(n, [e] + es)
  {
    forall i | 0 <= i < |[e] + es| && !([e] + es)[i].Gap? ensures Fits(n, ([e] + es)[i].v) {
      if i > 0 { assert ([e] + es)[i] == es[i - 1]; }
    }
  }

  lemma {:induction false} BuildArrayFits(heap: Heap, acc: seq<Slot>, es: seq<Element>)
    requires Closed(heap) && SlotsFit(|heap|, acc) && ElementsFit(|heap|, es)
    ensures SlotsFit(|heap|, BuildArray(heap, acc, es))
    decreases |es|
  {
    if |es| > 0 {
      var more := ElementSlots(heap, es[0]);
      assert SlotsFit(|heap|, more) by {
        if es[0].Spread? && es[0].v != Unknown && ObjAt(heap, es[0].v).Some? {
          assert ObjFits(|heap|, heap[es[0].v.h]);
        }
      }
      assert SlotsFit(|heap|, acc + more) by {
        forall i | 0 <= i < |acc + more| && (acc + more)[i].Item?
          ensures Fits(|heap|, (acc + more)[i].v)
        {
          if i >= |acc| {
            assert (acc + more)[i] == more[i - |acc|];
          }
        }
      }
      assert ElementsFit(|heap|, es[1..]) by {
        assert forall i :: 0 <= i < |es[1..]| ==> es[1..][i] == es[i + 1];
      }
      BuildArrayFits(heap, acc + more, es[1..]);
    }
  }

  predicate ChunksFit(n: nat, cs: seq<EnumChunk>) {
    forall i :: 0 <= i < |cs| && cs[i].init.Some? ==> Fits(n, cs[i].init.value)
  }

  lemma {:induction false} EnumFoldFits(host: Host, heap: Heap, s: EnumState, cs: seq<EnumChunk>)
    requires PropsFit(|heap|, s.m) && Fits(|heap|, s.current) && ChunksFit(|heap|, cs)
    ensures EnumFold(host, heap, s, cs).Some? ==> PropsFit(|heap|, EnumFold(host, heap, s, cs).value.m)
    decreases |cs|
  {
    if |cs| > 0 {
      match EnumStep(host, heap, s, cs[0])
      case None =>
      case Some(next) =>
        assert PropsFit(|heap|, next.m) && Fits(|heap|, next.current);
        assert ChunksFit(|heap|, cs[1..]) by {
          assert forall i :: 0 <= i < |cs[1..]| ==> cs[1..][i] == cs[i + 1];
        }
        EnumFoldFits(host, heap, next, cs[1..]);
    }
  }

  /** Awaiting a value of a closed heap settles on a value of it. */
  lemma SettleFits(heap: Heap, v: Val)
    requires Closed(heap) && Fits(|heap|, v)
    ensures Fits(|heap|, Settle(heap, v))
  {
    if ObjAt(heap, v).Some? {
      assert ObjFits(|heap|, heap[v.h]);
    }
  }

  lemma PromiseResolveClosed(heap: Heap, v: Val)
    requires Closed(heap) && Fits(|heap|, v)
    ensures var (h, p) := PromiseResolve(heap, v);
      |heap| <= |h| && Closed(h) && Fits(|h|, p)
  {
    if !(ObjAt(heap, v).Some? && ObjAt(heap, v).value.PromiseObj?) {
      AllocClosed(heap, PromiseObj(v));
    }
  }

  /** One projection step keeps the heap closed and yields a value of it. */
  lemma ApplyStepClosed(heap: Heap, v: Val, step: Step)
    requires Closed(heap) && Fits(|heap|, v)
    ensures var (c, h) := ApplyStep(heap, v, step);
      |heap| <= |h| && Closed(h) && (c.Normal? ==> Fits(|h|, c.value))
  {
    match step
    case Index(i) => RawGetFits(heap, v, Numerals.NatToString(i));
    case Property(key) => RawGetFits(heap, v, key);
    case SliceFrom(i) =>
      if !v.Str? && v.Ref? && v.h < |heap| && heap[v.h].ArrayObj? {
        var slots := heap[v.h].slots;
        assert ObjFits(|heap|, heap[v.h]);
        var rest := slots[Min(i, |slots|)..];
        assert SlotsFit(|heap|, rest) by {
          forall j | 0 <= j < |rest| && rest[j].Item? ensures Fits(|heap|, rest[j].v) {
            assert rest[j] == slots[Min(i, |slots|) + j];
          }
        }
        AllocClosed(heap, ArrayObj(rest));
      }
    case OmitKeys(keys) =>
      if !IsNullish(v) {
        OwnEntriesFit(heap, v);
        AllocClosed(heap, PlainObj(Omit(OwnEntries(heap, v), keys)));
      }
  }

  /** A projection keeps the heap closed and yields a value of it. */
  lemma {:induction false} ApplyStepsClosed(heap: Heap, v: Val, steps: seq<Step>)
    requires Closed(heap) && Fits(|heap|, v)
    ensures var p := ApplySteps(heap, v, steps);
      |heap| <= |p.heap| && Closed(p.heap) && Fits(|p.heap|, p.v)
    decreases |steps|
  {
    if |steps| > 0 {
      if v != Unknown {
        ApplyStepClosed(heap, v, steps[0]);
      }
      var next := Visit(heap, v, steps[0]);
      ApplyStepsClosed(next.heap, next.v, steps[1..]);
    }
  }

  // ---------------------------------------------------------------------------------------
  // Invocations and operators under a lawful host

  /** Calling a function object in a closed heap is lawful: the stand-ins are, and so is the host. */
  lemma CallFunctionLawful(host: Host, heap: Heap, f: Val, thisArg: Val, args: seq<Val>)
    requires Lawful(host) && Closed(heap)
    ensures LawfulReply(heap, CallFunction(host, heap, f, thisArg, args))
  {
    match ObjAt(heap, f)
    case Some(FunctionObj(SourceFunction(isAsync, _, body), _)) =>
      assert ObjFits(|heap|, heap[f.h]);
      if isAsync {
        SettleFits(heap, body);
        AllocClosed(heap, PromiseObj(Settle(heap, body)));
      }
    case Some(FunctionObj(ClassOrigin, _)) =>
    case _ =>
  }

  lemma ConstructFunctionLawful(host: Host, heap: Heap, f: Val, args: seq<Val>)
    requires Lawful(host) && Closed(heap)
    ensures LawfulReply(heap, ConstructFunction(host, heap, f, args))
  {
    match ObjAt(heap, f)
    case Some(FunctionObj(SourceFunction(isAsync, isArrow, body), _)) =>
      assert ObjFits(|heap|, heap[f.h]);
      if !isAsync && !isArrow && !body.Ref? {
        AllocClosed(heap, PlainObj(map[]));
      }
    case Some(FunctionObj(ClassOrigin, _)) =>
      AllocClosed(heap, PlainObj(map[]));
    case _ =>
  }

  /** An operator applied to values of a closed heap is lawful under a lawful host. */
  lemma ApplyBinaryLawful(host: Host, heap: Heap, f: BinaryOp, a: Val, b: Val)
    requires Lawful(host) && Closed(heap) && Fits(|heap|, a) && Fits(|heap|, b)
    ensures LawfulReply(heap, ApplyBinary(host, heap, f, a, b))
  {
    if f == Pipeline {
      if IsCallable(heap, b) {
        CallFunctionLawful(host, heap, b, Undefined, [a]);
      }
    } else {
      var o := host.operate(OperatorText(f), a, b, heap);
      assert o.Normal? ==> Fits(|heap|, o.value);
      var r := ApplyBinary(host, heap, f, a, b);
      assert r.c == o || r.c == Abrupt || r.c == Normal(a) || r.c == Normal(b) || (r.c.Normal? && !r.c.value.Ref?);
    }
  }

  lemma CallBinaryLawful(host: Host, heap: Heap, f: BinaryOp, a: Val, b: Val)
    requires Lawful(host) && Closed(heap) && Fits(|heap|, a) && Fits(|heap|, b)
    ensures LawfulReply(heap, CallBinary(host, heap, f, a, b))
  {
    if a != Unknown && b != Unknown {
      ApplyBinaryLawful(host, heap, f, a, b);
    }
  }

  lemma CallUnaryFits(host: Host, heap: Heap, f: UnaryOp, v: Val)
    requires Lawful(host) && Closed(heap) && Fits(|heap|, v)
    ensures CallUnary(host, heap, f, v).Normal? ==> Fits(|heap|, CallUnary(host, heap, f, v).value)
  {
  }

  // ---------------------------------------------------------------------------------------
  // The invariant

  /**
   * Every handle the state and the options mention names an object of the heap, the heap holds
   * no dangling handle, and the host is lawful.
   */
  ghost predicate Valid(cfg: Config, st: State) {
    && Lawful(cfg.host)
    && Closed(st.heap)
    && PropsFit(|st.heap|, cfg.variables) && PropsFit(|st.heap|, cfg.modules) && PropsFit(|st.heap|, cfg.globals)
    && (forall id :: id in st.memo ==> Fits(|st.heap|, st.memo[id]))
    && (forall h :: h in st.safe ==> h < |st.heap|)
    && (forall h :: h in st.related ==> h < |st.heap| && Fits(|st.heap|, st.related[h]))
  }

  /** An evaluation from `st` that kept the state valid, grew the heap and yields a value of it. */
  ghost predicate ValidAfter(cfg: Config, st: State, r: Result) {
    |st.heap| <= |r.st.heap| && Valid(cfg, r.st) && (r.c.Normal? ==> Fits(|r.st.heap|, r.c.value))
  }

  ghost predicate ValidBatch(cfg: Config, st: State, r: Batch) {
    && |st.heap| <= |r.st.heap| && Valid(cfg, r.st)
    && (r.vals.Some? ==> forall i :: 0 <= i < |r.vals.value| ==> Fits(|r.st.heap|, r.vals.value[i]))
  }

  ghost predicate ValidElements(cfg: Config, st: State, r: ElementBatch) {
    |st.heap| <= |r.st.heap| && Valid(cfg, r.st) && (r.es.Some? ==> ElementsFit(|r.st.heap|, r.es.value))
  }

  ghost predicate ValidChunks(cfg: Config, st: State, r: ChunkBatch) {
    |st.heap| <= |r.st.heap| && Valid(cfg, r.st) && (r.chunks.Some? ==> ChunksFit(|r.st.heap|, r.chunks.value))
  }

  /**
   * In a valid state the next handle to be allocated is fresh: it is neither marked safe nor
   * linked to a related value, as a newly created object is in the original.
   */
  lemma FreshHandleIsUnmarked(cfg: Config, st: State)
    requires Valid(cfg, st)
    ensures !Reflect.IsMarkedAsSafe(Ref(|st.heap|), st.safe)
    ensures |st.heap| !in st.related && ExtractRelated(st.related, Ref(|st.heap|)) == Unknown
  {
  }

  /** A larger closed heap keeps the state valid. */
  lemma ValidGrown(cfg: Config, st: State, heap: Heap)
    requires Valid(cfg, st) && |st.heap| <= |heap| && Closed(heap)
    ensures Valid(cfg, st.(heap := heap))
  {
  }

  lemma ValidMemo(cfg: Config, st: State, id: NodeId, v: Val)
    requires Valid(cfg, st) && Fits(|st.heap|, v)
    ensures Valid(cfg, st.(memo := st.memo[id := v]))
  {
  }

  lemma ValidMarked(cfg: Config, st: State, v: Val)
    requires Valid(cfg, st) && Fits(|st.heap|, v)
    ensures Valid(cfg, st.(safe := Reflect.MarkAsSafe(st.safe, v)))
  {
  }

  lemma AllocatedKeepsValid(cfg: Config, st: State, o: Obj)
    requires Valid(cfg, st) && ObjFits(|st.heap|, o)
    ensures ValidAfter(cfg, st, Allocated(st, o))
  {
    AllocClosed(st.heap, o);
    ValidGrown(cfg, st, st.heap + [o]);
  }

  lemma ReadKeepsValid(cfg: Config, st: State, target: Val, key: string)
    requires Valid(cfg, st) && Fits(|st.heap|, target)
    ensures ValidAfter(cfg, st, Read(st, target, key))
  {
    RawGetFits(st.heap, target, key);
  }

  /** A safe invocation marks only its own result, which names an object of the heap. */
  lemma ApplyKeepsClosed(host: Host, heap: Heap, safe: set<Handle>, target: Val, thisArg: Val, args: seq<Val>)
    requires Lawful(host) && Closed(heap)
    ensures var inv := Reflect.Apply(host, heap, safe, target, thisArg, args);
      LawfulReply(heap, Reply(inv.c, inv.heap)) && forall h :: h in inv.safe - safe ==> h < |inv.heap|
  {
    CallFunctionLawful(host, heap, target, thisArg, args);
  }

  lemma ConstructKeepsClosed(host: Host, heap: Heap, safe: set<Handle>, target: Val, args: seq<Val>)
    requires Lawful(host) && Closed(heap)
    ensures var inv := Reflect.Construct(host, heap, safe, target, args);
      LawfulReply(heap, Reply(inv.c, inv.heap)) && forall h :: h in inv.safe - safe ==> h < |inv.heap|
  {
    ConstructFunctionLawful(host, heap, target, args);
  }

  lemma RecordKeepsValid(cfg: Config, st: State, names: seq<string>, vs: seq<Val>)
    requires Valid(cfg, st) && |names| == |vs|
    requires forall i :: 0 <= i < |vs| ==> Fits(|st.heap|, vs[i])
    ensures ValidAfter(cfg, st, Record(st, names, vs))
  {
    var ms := FromEntries(names, vs);
    assert MembersFit(|st.heap|, ms);
    BuildObjectFits(st.heap, map[], ms);
    AllocatedKeepsValid(cfg, st, PlainObj(BuildObject(st.heap, map[], ms)));
  }

  /** Re-exported values read from a value of a closed heap name objects of it. */
  lemma ReExportedFits(heap: Heap, m: Val, specs: seq<ExportSpecifier>)
    requires Closed(heap) && Fits(|heap|, m)
    ensures var r := ReExported(heap, m, specs);
      r.Some? ==> forall i :: 0 <= i < |r.value| ==> Fits(|heap|, r.value[i])
  {
    var r := ReExported(heap, m, specs);
    if r.Some? {
      forall i | 0 <= i < |r.value| ensures Fits(|heap|, r.value[i]) {
        RawGetFits(heap, m, "default");
        if specs[i].ExportSpec? {
          RawGetFits(heap, m, NameOf(specs[i].local));
        }
      }
    }
  }

  lemma FunctionValueKeepsValid(cfg: Config, st: State, isAsync: bool, isArrow: bool, body: Val)
    requires Valid(cfg, st) && Fits(|st.heap|, body)
    ensures ValidAfter(cfg, st, FunctionValue(st, isAsync, isArrow, body))
  {
    var o := FunctionObj(SourceFunction(isAsync, isArrow, body), map[]);
    AllocClosed(st.heap, o);
    var h1 := st.heap + [o];
    ValidGrown(cfg, st, h1);
    if isAsync {
      PromiseResolveClosed(h1, body);
      ValidGrown(cfg, st, PromiseResolve(h1, body).0);
    }
  }

  lemma UnfollowedImportKeepsValid(cfg: Config, st: State)
    requires Valid(cfg, st)
    ensures ValidAfter(cfg, st, UnfollowedImport(st))
  {
    PromiseResolveClosed(st.heap, Unknown);
    ValidGrown(cfg, st, PromiseResolve(st.heap, Unknown).0);
  }

  lemma DeepKeepsValid(ctx: Context, source: string, st: State)
    requires Valid(ctx.cfg, st)
    ensures ValidAfter(ctx.cfg, st, Deep(ctx, source, st))
  {
    var cfg := ctx.cfg;
    if source in cfg.modules {
      var definition := cfg.modules[source];
      if IsCallable(st.heap, definition) {
        var reply := CallFunction(cfg.host, st.heap, definition, Undefined, []);
        CallFunctionLawful(cfg.host, st.heap, definition, Undefined, []);
        ValidGrown(cfg, st, reply.heap);
        if reply.c.Normal? {
          SettleFits(reply.heap, reply.c.value);
          ValidMarked(cfg, st.(heap := reply.heap), Settle(reply.heap, reply.c.value));
        }
      } else {
        SettleFits(st.heap, definition);
        ValidMarked(cfg, st, Settle(st.heap, definition));
      }
    } else if cfg.deep {
      var imported := cfg.host.deep(source, st.heap);
      assert LawfulImport(st.heap, imported);
      ValidGrown(cfg, st, imported.heap);
    }
  }

  // ---------------------------------------------------------------------------------------
  // Every step of the evaluator keeps the state valid

  lemma {:induction false} EvalNodeKeepsValid(ctx: Context, fuel: nat, n: Node, st: State)
    requires Valid(ctx.cfg, st)
    ensures ValidAfter(ctx.cfg, st, EvalNode(ctx, fuel, n, st))
    decreases fuel, 0, 0
  {
    if n.id !in st.memo && fuel > 0 {
      var a := Analyze(ctx, fuel - 1, n, st);
      AnalyzeKeepsValid(ctx, fuel - 1, n, st);
      if a.c.Normal? {
        ValidMemo(ctx.cfg, a.st, n.id, a.c.value);
      }
    }
  }

  lemma {:induction false} EvalAllKeepsValid(ctx: Context, fuel: nat, xs: seq<Node>, st: State)
    requires Valid(ctx.cfg, st)
    ensures ValidBatch(ctx.cfg, st, EvalAll(ctx, fuel, xs, st))
    decreases fuel, 1, |xs|
  {
    if |xs| > 0 {
      var a := EvalNode(ctx, fuel, xs[0], st);
      EvalNodeKeepsValid(ctx, fuel, xs[0], st);
      if a.c.Normal? {
        var rest := EvalAll(ctx, fuel, xs[1..], a.st);
        EvalAllKeepsValid(ctx, fuel, xs[1..], a.st);
        if rest.vals.Some? {
          var vs := [a.c.value] + rest.vals.value;
          assert forall i :: 0 <= i < |vs| ==> Fits(|rest.st.heap|, vs[i]) by {
            forall i | 0 <= i < |vs| ensures Fits(|rest.st.heap|, vs[i]) {
              if i > 0 { assert vs[i] == rest.vals.value[i - 1]; }
            }
          }
        }
      }
    }
  }

  lemma {:induction false} EvaluateReferenceKeepsValid(ctx: Context, fuel: nat, node: Node, name: string, st: State)
    requires Valid(ctx.cfg, st)
    ensures ValidAfter(ctx.cfg, st, EvaluateReference(ctx, fuel, node, name, st))
    decreases fuel, 2, 0
  {
    if name in ctx.cfg.variables {
      ValidMarked(ctx.cfg, st, ctx.cfg.variables[name]);
    } else if ScopeReference(ctx, node, name).Some? && ScopeReference(ctx, node, name).value.init.Some? {
      var ref := ScopeReference(ctx, node, name).value;
      var a := EvalNode(ctx, fuel, ref.init.value, st);
      EvalNodeKeepsValid(ctx, fuel, ref.init.value, st);
      if a.c.Normal? {
        ApplyStepsClosed(a.st.heap, a.c.value, ref.path);
        ValidGrown(ctx.cfg, a.st, ApplySteps(a.st.heap, a.c.value, ref.path).heap);
      }
    }
  }

  lemma {:induction false} EvaluatePropertyKeepsValid(ctx: Context, fuel: nat, target: Val, property: MemberProperty, st: State)
    requires Valid(ctx.cfg, st) && Fits(|st.heap|, target)
    ensures ValidAfter(ctx.cfg, st, EvaluateProperty(ctx, fuel, target, property, st))
    decreases fuel, 2, 0
  {
    match property
    case Computed(e) =>
      var a := EvalNode(ctx, fuel, e, st);
      EvalNodeKeepsValid(ctx, fuel, e, st);
      if a.c.Normal? && a.c.value != Unknown {
        match ToText(ctx.cfg.host, a.st.heap, a.c.value)
        case None =>
        case Some(k) => ReadKeepsValid(ctx.cfg, a.st, target, k);
      }
    case Static(name) => ReadKeepsValid(ctx.cfg, st, target, name);
    case PrivateName(_) =>
  }

  lemma {:induction false} EvalArgsKeepsValid(ctx: Context, fuel: nat, args: seq<Arg>, st: State)
    requires Valid(ctx.cfg, st)
    ensures ValidBatch(ctx.cfg, st, EvalArgs(ctx, fuel, args, st))
    decreases fuel, 2, |args|
  {
    if |args| > 0 {
      var a := match args[0]
        case Expr(x) => EvalNode(ctx, fuel, x, st)
        case QuasiArray(elements) =>
          var b := EvalAll(ctx, fuel, elements, st);
          (match b.vals
           case None => Result(Abrupt, b.st)
           case Some(vs) => Allocated(b.st, ArrayObj(Items(vs))));
      if args[0].Expr? {
        EvalNodeKeepsValid(ctx, fuel, args[0].node, st);
      } else {
        var b := EvalAll(ctx, fuel, args[0].elements, st);
        EvalAllKeepsValid(ctx, fuel, args[0].elements, st);
        if b.vals.Some? {
          assert SlotsFit(|b.st.heap|, Items(b.vals.value));
          AllocatedKeepsValid(ctx.cfg, b.st, ArrayObj(Items(b.vals.value)));
        }
      }
      assert ValidAfter(ctx.cfg, st, a);
      if a.c.Normal? {
        var rest := EvalArgs(ctx, fuel, args[1..], a.st);
        EvalArgsKeepsValid(ctx, fuel, args[1..], a.st);
        if rest.vals.Some? {
          var vs := [a.c.value] + rest.vals.value;
          assert forall i :: 0 <= i < |vs| ==> Fits(|rest.st.heap|, vs[i]) by {
            forall i | 0 <= i < |vs| ensures Fits(|rest.st.heap|, vs[i]) {
              if i > 0 { assert vs[i] == rest.vals.value[i - 1]; }
            }
          }
        }
      }
    }
  }

  lemma {:induction false} EmulateKeepsValid(ctx: Context, fuel: nat, callee: Val, thisNode: Option<Node>, args: seq<Arg>, isConstruct: bool, st: State)
    requires Valid(ctx.cfg, st) && Fits(|st.heap|, callee)
    ensures ValidAfter(ctx.cfg, st, Emulate(ctx, fuel, callee, thisNode, args, isConstruct, st))
    decreases fuel, 3, 0
  {
    if Reflect.IsMarkedAsSafe(callee, st.safe) {
      var t := if thisNode.Some? then EvalNode(ctx, fuel, thisNode.value, st) else Done(st, Undefined);
      if thisNode.Some? {
        EvalNodeKeepsValid(ctx, fuel, thisNode.value, st);
      }
      if t.c.Normal? {
        var b := EvalArgs(ctx, fuel, args, t.st);
        EvalArgsKeepsValid(ctx, fuel, args, t.st);
        if b.vals.Some? {
          InvocationKeepsValid(ctx.cfg, b.st, callee, t.c.value, b.vals.value, isConstruct);
        }
      }
    }
  }

  /** The invocation `emulate` makes of a safe callee, once its receiver and arguments are evaluated. */
  lemma InvocationKeepsValid(cfg: Config, st: State, callee: Val, thisArg: Val, args: seq<Val>, isConstruct: bool)
    requires Valid(cfg, st)
    ensures var inv := if isConstruct then Reflect.Construct(cfg.host, st.heap, st.safe, callee, args)
                       else Reflect.Apply(cfg.host, st.heap, st.safe, callee, thisArg, args);
      ValidAfter(cfg, st, Result(inv.c, st.(heap := inv.heap, safe := inv.safe)))
  {
    if isConstruct {
      ConstructKeepsClosed(cfg.host, st.heap, st.safe, callee, args);
      ValidGrown(cfg, st, Reflect.Construct(cfg.host, st.heap, st.safe, callee, args).heap);
    } else {
      ApplyKeepsClosed(cfg.host, st.heap, st.safe, callee, thisArg, args);
      ValidGrown(cfg, st, Reflect.Apply(cfg.host, st.heap, st.safe, callee, thisArg, args).heap);
    }
  }

  lemma {:induction false} ExportsKeepsValid(ctx: Context, fuel: nat, body: seq<Node>, st: State)
    requires Valid(ctx.cfg, st)
    ensures ValidAfter(ctx.cfg, st, Exports(ctx, fuel, body, st))
    decreases fuel, 2, 0
  {
    var b := EvalAll(ctx, fuel, ExportStatements(body), st);
    EvalAllKeepsValid(ctx, fuel, ExportStatements(body), st);
    if b.vals.Some? {
      var ms := Spreads(b.vals.value);
      assert MembersFit(|b.st.heap|, ms);
      BuildObjectFits(b.st.heap, map[], ms);
      AllocatedKeepsValid(ctx.cfg, b.st, PlainObj(BuildObject(b.st.heap, map[], ms)));
    }
  }

  lemma {:induction false} EvalElementsKeepsValid(ctx: Context, fuel: nat, elements: seq<Option<Node>>, st: State)
    requires Valid(ctx.cfg, st)
    ensures ValidElements(ctx.cfg, st, EvalElements(ctx, fuel, elements, st))
    decreases fuel, 1, |elements|
  {
    if |elements| > 0 {
      var a := match elements[0]
        case None => Result(Normal(Undefined), st)
        case Some(x) => EvalNode(ctx, fuel, x, st);
      if elements[0].Some? {
        EvalNodeKeepsValid(ctx, fuel, elements[0].value, st);
      }
      if a.c.Normal? {
        var e := match elements[0]
          case None => Gap
          case Some(x) => if x.kind.SpreadElement? then Spread(a.c.value) else Single(a.c.value);
        var rest := EvalElements(ctx, fuel, elements[1..], a.st);
        EvalElementsKeepsValid(ctx, fuel, elements[1..], a.st);
        if rest.es.Some? {
          ElementsConsFit(|rest.st.heap|, e, rest.es.value);
        }
      }
    }
  }

  lemma {:induction false} ArrayValueKeepsValid(ctx: Context, fuel: nat, elements: seq<Option<Node>>, st: State)
    requires Valid(ctx.cfg, st)
    ensures ValidAfter(ctx.cfg, st, ArrayValue(ctx, fuel, elements, st))
    decreases fuel, 2, 0
  {
    var b := EvalElements(ctx, fuel, elements, st);
    EvalElementsKeepsValid(ctx, fuel, elements, st);
    if b.es.Some? {
      BuildArrayFits(b.st.heap, [], b.es.value);
      AllocatedKeepsValid(ctx.cfg, b.st, ArrayObj(BuildArray(b.st.heap, [], b.es.value)));
    }
  }

  lemma {:induction false} ObjectValueKeepsValid(ctx: Context, fuel: nat, properties: seq<Node>, st: State)
    requires Valid(ctx.cfg, st)
    ensures ValidAfter(ctx.cfg, st, ObjectValue(ctx, fuel, properties, st))
    decreases fuel, 2, 0
  {
    var b := EvalAll(ctx, fuel, properties, st);
    EvalAllKeepsValid(ctx, fuel, properties, st);
    if b.vals.Some? {
      var ms := ObjectMembers(properties, b.vals.value);
      assert MembersFit(|b.st.heap|, ms);
      BuildObjectFits(b.st.heap, map[], ms);
      AllocatedKeepsValid(ctx.cfg, b.st, PlainObj(BuildObject(b.st.heap, map[], ms)));
    }
  }

  lemma {:induction false} ClassValueKeepsValid(ctx: Context, fuel: nat, members: seq<Node>, st: State)
    requires Valid(ctx.cfg, st)
    ensures ValidAfter(ctx.cfg, st, ClassValue(ctx, fuel, members, st))
    decreases fuel, 2, 0
  {
    var statics := StaticMembers(members);
    var b := EvalAll(ctx, fuel, statics, st);
    EvalAllKeepsValid(ctx, fuel, statics, st);
    if b.vals.Some? {
      var ms := KeyedMembers(statics, b.vals.value);
      assert MembersFit(|b.st.heap|, ms);
      BuildObjectFits(b.st.heap, map[], ms);
      AllocatedKeepsValid(ctx.cfg, b.st, FunctionObj(ClassOrigin, BuildObject(b.st.heap, map[], ms)));
    }
  }

  lemma {:induction false} EvalEnumMembersKeepsValid(ctx: Context, fuel: nat, members: seq<EnumMember>, st: State)
    requires Valid(ctx.cfg, st)
    ensures ValidChunks(ctx.cfg, st, EvalEnumMembers(ctx, fuel, members, st))
    decreases fuel, 1, |members|
  {
    if |members| > 0 {
      var a := match members[0].initializer
        case None => Result(Normal(Undefined), st)
        case Some(x) => EvalNode(ctx, fuel, x, st);
      if members[0].initializer.Some? {
        EvalNodeKeepsValid(ctx, fuel, members[0].initializer.value, st);
      }
      if a.c.Normal? {
        var chunk := EnumChunk(if members[0].initializer.Some? then Some(a.c.value) else None, members[0].name);
        var rest := EvalEnumMembers(ctx, fuel, members[1..], a.st);
        EvalEnumMembersKeepsValid(ctx, fuel, members[1..], a.st);
        if rest.chunks.Some? {
          var cs := [chunk] + rest.chunks.value;
          assert ChunksFit(|rest.st.heap|, cs) by {
            forall i | 0 <= i < |cs| && cs[i].init.Some? ensures Fits(|rest.st.heap|, cs[i].init.value) {
              if i > 0 { assert cs[i] == rest.chunks.value[i - 1]; }
            }
          }
        }
      }
    }
  }

  lemma {:induction false} EnumValueKeepsValid(ctx: Context, fuel: nat, members: seq<EnumMember>, st: State)
    requires Valid(ctx.cfg, st)
    ensures ValidAfter(ctx.cfg, st, EnumValue(ctx, fuel, members, st))
    decreases fuel, 2, 0
  {
    var b := EvalEnumMembers(ctx, fuel, members, st);
    EvalEnumMembersKeepsValid(ctx, fuel, members, st);
    if b.chunks.Some? {
      EnumFoldFits(ctx.cfg.host, b.st.heap, EnumState(map[], Num(0)), b.chunks.value);
      match EnumRecord(ctx.cfg.host, b.st.heap, b.chunks.value)
      case None =>
      case Some(m) => AllocatedKeepsValid(ctx.cfg, b.st, PlainObj(m));
    }
  }

  lemma {:induction false} TemplateValueKeepsValid(ctx: Context, fuel: nat, quasis: seq<string>, expressions: seq<Node>, st: State)
    requires Valid(ctx.cfg, st)
    ensures ValidAfter(ctx.cfg, st, TemplateValue(ctx, fuel, quasis, expressions, st))
    decreases fuel, 2, 0
  {
    EvalAllKeepsValid(ctx, fuel, expressions, st);
  }

  lemma {:induction false} BinaryKeepsValid(ctx: Context, fuel: nat, op: Operator, left: Node, right: Node, st: State)
    requires Valid(ctx.cfg, st)
    ensures ValidAfter(ctx.cfg, st, Binary(ctx, fuel, op, left, right, st))
    decreases fuel, 2, 0
  {
    if BinaryOperator(op).Some? {
      var b := EvalAll(ctx, fuel, [left, right], st);
      EvalAllKeepsValid(ctx, fuel, [left, right], st);
      if b.vals.Some? {
        var vs := b.vals.value;
        var reply := CallBinary(ctx.cfg.host, b.st.heap, BinaryOperator(op).value, vs[0], vs[1]);
        CallBinaryLawful(ctx.cfg.host, b.st.heap, BinaryOperator(op).value, vs[0], vs[1]);
        ValidGrown(ctx.cfg, b.st, reply.heap);
      }
    }
  }

  lemma {:induction false} UnaryKeepsValid(ctx: Context, fuel: nat, op: Operator, prefix: bool, argument: Node, st: State)
    requires Valid(ctx.cfg, st)
    ensures ValidAfter(ctx.cfg, st, Unary(ctx, fuel, op, prefix, argument, st))
    decreases fuel, 2, 0
  {
    if UnaryOperator(op, prefix).Some? {
      var a := EvalNode(ctx, fuel, argument, st);
      EvalNodeKeepsValid(ctx, fuel, argument, st);
      if a.c.Normal? {
        CallUnaryFits(ctx.cfg.host, a.st.heap, UnaryOperator(op, prefix).value, a.c.value);
      }
    }
  }

  lemma {:induction false} CallKeepsValid(ctx: Context, fuel: nat, callee: Node, arguments: seq<Node>, st: State)
    requires Valid(ctx.cfg, st)
    ensures ValidAfter(ctx.cfg, st, Call(ctx, fuel, callee, arguments, st))
    decreases fuel, 4, 0
  {
    if callee.kind.Import? {
      if !ctx.cfg.deep {
        UnfollowedImportKeepsValid(ctx.cfg, st);
      } else if |arguments| > 0 {
        var a := EvalNode(ctx, fuel, arguments[0], st);
        EvalNodeKeepsValid(ctx, fuel, arguments[0], st);
        if a.c.Normal? {
          if a.c.value.Str? {
            DeepKeepsValid(ctx, a.c.value.s, a.st);
          } else {
            UnfollowedImportKeepsValid(ctx.cfg, a.st);
          }
        }
      }
    } else {
      var a := EvalNode(ctx, fuel, callee, st);
      EvalNodeKeepsValid(ctx, fuel, callee, st);
      if a.c.Normal? && IsCallable(a.st.heap, a.c.value) {
        EmulateKeepsValid(ctx, fuel, a.c.value, ThisOf(callee), Exprs(arguments), false, a.st);
      }
    }
  }

  lemma {:induction false} OptionalCallKeepsValid(ctx: Context, fuel: nat, callee: Node, arguments: seq<Node>, st: State)
    requires Valid(ctx.cfg, st)
    ensures ValidAfter(ctx.cfg, st, OptionalCall(ctx, fuel, callee, arguments, st))
    decreases fuel, 4, 0
  {
    var a := EvalNode(ctx, fuel, callee, st);
    EvalNodeKeepsValid(ctx, fuel, callee, st);
    if a.c.Normal? && IsCallable(a.st.heap, a.c.value) {
      EmulateKeepsValid(ctx, fuel, a.c.value, ThisOf(callee), Exprs(arguments), false, a.st);
    }
  }

  lemma {:induction false} NewKeepsValid(ctx: Context, fuel: nat, callee: Node, arguments: seq<Node>, st: State)
    requires Valid(ctx.cfg, st)
    ensures ValidAfter(ctx.cfg, st, New(ctx, fuel, callee, arguments, st))
    decreases fuel, 4, 0
  {
    var a := EvalNode(ctx, fuel, callee, st);
    EvalNodeKeepsValid(ctx, fuel, callee, st);
    if a.c.Normal? && IsCallable(a.st.heap, a.c.value) {
      EmulateKeepsValid(ctx, fuel, a.c.value, None, Exprs(arguments), true, a.st);
    }
  }

  lemma {:induction false} TaggedKeepsValid(ctx: Context, fuel: nat, tag: Node, quasiElements: seq<Node>, expressions: seq<Node>, st: State)
    requires Valid(ctx.cfg, st)
    ensures ValidAfter(ctx.cfg, st, Tagged(ctx, fuel, tag, quasiElements, expressions, st))
    decreases fuel, 4, 0
  {
    var a := EvalNode(ctx, fuel, tag, st);
    EvalNodeKeepsValid(ctx, fuel, tag, st);
    if a.c.Normal? && IsCallable(a.st.heap, a.c.value) {
      EmulateKeepsValid(ctx, fuel, a.c.value, ThisOf(tag), [QuasiArray(quasiElements)] + Exprs(expressions), false, a.st);
    }
  }

  lemma {:induction false} MemberAccessKeepsValid(ctx: Context, fuel: nat, obj: Node, property: MemberProperty, optional: bool, st: State)
    requires Valid(ctx.cfg, st)
    ensures ValidAfter(ctx.cfg, st, MemberAccess(ctx, fuel, obj, property, optional, st))
    decreases fuel, 3, 0
  {
    var a := EvalNode(ctx, fuel, obj, st);
    EvalNodeKeepsValid(ctx, fuel, obj, st);
    if a.c.Normal? {
      EvaluatePropertyKeepsValid(ctx, fuel, a.c.value, property, a.st);
    }
  }

  lemma {:induction false} AwaitKeepsValid(ctx: Context, fuel: nat, argument: Node, st: State)
    requires Valid(ctx.cfg, st)
    ensures ValidAfter(ctx.cfg, st, Await(ctx, fuel, argument, st))
    decreases fuel, 2, 0
  {
    EvalNodeKeepsValid(ctx, fuel, argument, st);
  }

  lemma {:induction false} ConditionalKeepsValid(ctx: Context, fuel: nat, test: Node, consequent: Node, alternate: Node, st: State)
    requires Valid(ctx.cfg, st)
    ensures ValidAfter(ctx.cfg, st, Conditional(ctx, fuel, test, consequent, alternate, st))
    decreases fuel, 2, 0
  {
    var a := EvalNode(ctx, fuel, test, st);
    EvalNodeKeepsValid(ctx, fuel, test, st);
    if a.c.Normal? {
      EvalNodeKeepsValid(ctx, fuel, consequent, a.st);
      EvalNodeKeepsValid(ctx, fuel, alternate, a.st);
    }
  }

  lemma {:induction false} ReferenceAllKeepsValid(ctx: Context, fuel: nat, at: Node, names: seq<string>, st: State)
    requires Valid(ctx.cfg, st)
    ensures ValidBatch(ctx.cfg, st, ReferenceAll(ctx, fuel, at, names, st))
    decreases fuel, 3, |names|
  {
    if |names| > 0 {
      var a := EvaluateReference(ctx, fuel, at, names[0], st);
      EvaluateReferenceKeepsValid(ctx, fuel, at, names[0], st);
      if a.c.Normal? {
        var rest := ReferenceAll(ctx, fuel, at, names[1..], a.st);
        ReferenceAllKeepsValid(ctx, fuel, at, names[1..], a.st);
        if rest.vals.Some? {
          var vs := [a.c.value] + rest.vals.value;
          assert forall i :: 0 <= i < |vs| ==> Fits(|rest.st.heap|, vs[i]) by {
            forall i | 0 <= i < |vs| ensures Fits(|rest.st.heap|, vs[i]) {
              if i > 0 { assert vs[i] == rest.vals.value[i - 1]; }
            }
          }
        }
      }
    }
  }

  lemma {:induction false} EvalSpecifiersKeepsValid(ctx: Context, fuel: nat, specs: seq<ExportSpecifier>, st: State)
    requires Valid(ctx.cfg, st)
    ensures ValidBatch(ctx.cfg, st, EvalSpecifiers(ctx, fuel, specs, st))
    decreases fuel, 1, |specs|
  {
    if |specs| > 0 {
      var a := match specs[0]
        case ExportSpec(local, _) => EvalNode(ctx, fuel, local, st)
        case _ => Done(st, Unknown);
      if specs[0].ExportSpec? {
        EvalNodeKeepsValid(ctx, fuel, specs[0].local, st);
      }
      if a.c.Normal? {
        var rest := EvalSpecifiers(ctx, fuel, specs[1..], a.st);
        EvalSpecifiersKeepsValid(ctx, fuel, specs[1..], a.st);
        if rest.vals.Some? {
          var vs := [a.c.value] + rest.vals.value;
          assert forall i :: 0 <= i < |vs| ==> Fits(|rest.st.heap|, vs[i]) by {
            forall i | 0 <= i < |vs| ensures Fits(|rest.st.heap|, vs[i]) {
              if i > 0 { assert vs[i] == rest.vals.value[i - 1]; }
            }
          }
        }
      }
    }
  }

  lemma {:induction false} ExportNamedKeepsValid(ctx: Context, fuel: nat, n: Node, declaration: Option<Node>, specs: seq<ExportSpecifier>, from: Option<string>, st: State)
    requires Valid(ctx.cfg, st)
    ensures ValidAfter(ctx.cfg, st, ExportNamed(ctx, fuel, n, declaration, specs, from, st))
    decreases fuel, 4, 1
  {
    if declaration.Some? {
      ExportDeclarationKeepsValid(ctx, fuel, n, declaration.value, specs, from, st);
    } else if from.Some? {
      ReExportKeepsValid(ctx, fuel, n, specs, from.value, st);
    } else {
      var b := EvalSpecifiers(ctx, fuel, specs, st);
      EvalSpecifiersKeepsValid(ctx, fuel, specs, st);
      if b.vals.Some? {
        RecordKeepsValid(ctx.cfg, b.st, ExportedNames(specs), b.vals.value);
      }
    }
  }

  lemma {:induction false} ExportDeclarationKeepsValid(ctx: Context, fuel: nat, n: Node, d: Node, specs: seq<ExportSpecifier>, from: Option<string>, st: State)
    requires Valid(ctx.cfg, st)
    ensures ValidAfter(ctx.cfg, st, ExportNamed(ctx, fuel, n, Some(d), specs, from, st))
    decreases fuel, 4, 0
  {
    if d.kind.VariableDeclaration? {
      var names := DeclaredNames(d.kind.declarations);
      var b := ReferenceAll(ctx, fuel, n, names, st);
      ReferenceAllKeepsValid(ctx, fuel, n, names, st);
      if b.vals.Some? {
        RecordKeepsValid(ctx.cfg, b.st, names, b.vals.value);
      }
    } else {
      var a := EvalNode(ctx, fuel, d, st);
      EvalNodeKeepsValid(ctx, fuel, d, st);
      if a.c.Normal? {
        RecordKeepsValid(ctx.cfg, a.st, [], []);
        if DeclarationName(d).Some? {
          RecordKeepsValid(ctx.cfg, a.st, [DeclarationName(d).value], [a.c.value]);
        }
      }
    }
  }

  lemma ReExportKeepsValid(ctx: Context, fuel: nat, n: Node, specs: seq<ExportSpecifier>, source: string, st: State)
    requires Valid(ctx.cfg, st)
    ensures ValidAfter(ctx.cfg, st, ExportNamed(ctx, fuel, n, None, specs, Some(source), st))
  {
    DeepKeepsValid(ctx, source, st);
    ReExportRecordKeepsValid(ctx.cfg, st, Deep(ctx, source, st), specs);
  }

  /** The record a re-export builds from the module it read keeps the state valid. */
  lemma ReExportRecordKeepsValid(cfg: Config, st: State, a: Result, specs: seq<ExportSpecifier>)
    requires ValidAfter(cfg, st, a)
    ensures ValidAfter(cfg, st,
      match a.c
      case Abrupt => a
      case Normal(m) =>
        match ReExported(a.st.heap, m, specs)
        case None => Result(Abrupt, a.st)
        case Some(vs) => Record(a.st, ExportedNames(specs), vs))
  {
    if a.c.Normal? {
      ReExportedFits(a.st.heap, a.c.value, specs);
      var vs := ReExported(a.st.heap, a.c.value, specs);
      if vs.Some? {
        RecordKeepsValid(cfg, a.st, ExportedNames(specs), vs.value);
      }
    }
  }

  lemma {:induction false} FunctionNodeKeepsValid(ctx: Context, fuel: nat, body: Node, isAsync: bool, isArrow: bool, st: State)
    requires Valid(ctx.cfg, st)
    ensures ValidAfter(ctx.cfg, st, FunctionNode(ctx, fuel, body, isAsync, isArrow, st))
    decreases fuel, 2, 0
  {
    var a := EvalNode(ctx, fuel, body, st);
    EvalNodeKeepsValid(ctx, fuel, body, st);
    if a.c.Normal? {
      FunctionValueKeepsValid(ctx.cfg, a.st, isAsync, isArrow, a.c.value);
    }
  }

  lemma {:induction false} DefaultExportKeepsValid(ctx: Context, fuel: nat, declaration: Node, st: State)
    requires Valid(ctx.cfg, st)
    ensures ValidAfter(ctx.cfg, st, DefaultExport(ctx, fuel, declaration, st))
    decreases fuel, 2, 0
  {
    var a := EvalNode(ctx, fuel, declaration, st);
    EvalNodeKeepsValid(ctx, fuel, declaration, st);
    if a.c.Normal? {
      RecordKeepsValid(ctx.cfg, a.st, ["default"], [a.c.value]);
    }
  }

  lemma {:induction false} AnalyzeKeepsValid(ctx: Context, fuel: nat, n: Node, st: State)
    requires Valid(ctx.cfg, st)
    ensures ValidAfter(ctx.cfg, st, Analyze(ctx, fuel, n, st))
    decreases fuel, 6, 0
  {
    if IsModuleKind(n.kind) {
      AnalyzeModuleKeepsValid(ctx, fuel, n, st);
    } else if IsLiteralKind(n.kind) {
      AnalyzeLiteralKeepsValid(ctx, fuel, n, st);
    } else if IsDefinitionKind(n.kind) {
      AnalyzeDefinitionKeepsValid(ctx, fuel, n, st);
    } else if IsOperationKind(n.kind) {
      AnalyzeOperationKeepsValid(ctx, fuel, n, st);
    } else if IsAccessKind(n.kind) {
      AnalyzeAccessKeepsValid(ctx, fuel, n, st);
    } else if IsStatementKind(n.kind) {
      AnalyzeStatementKeepsValid(ctx, fuel, n, st);
    }
  }

  // Each group of kinds is dispatched to lemmas that unfold the dispatch for a few kinds only.

  lemma {:induction false} AnalyzeModuleKeepsValid(ctx: Context, fuel: nat, n: Node, st: State)
    requires Valid(ctx.cfg, st)
    ensures ValidAfter(ctx.cfg, st, AnalyzeModule(ctx, fuel, n, st))
    decreases fuel, 5, 1
  {
    var k := n.kind;
    if k.File? {
      FileKeepsValid(ctx, fuel, n, st);
    } else if k.TSExpression? {
      TypeCastKeepsValid(ctx, fuel, n, st);
    } else if k.TSImportEqualsDeclaration? {
      ImportEqualsKeepsValid(ctx, fuel, n, st);
    } else if k.TSModuleDeclaration? {
      NamespaceKeepsValid(ctx, fuel, n, st);
    } else if k.TSExternalModuleReference? {
      ExternalReferenceKeepsValid(ctx, fuel, n, st);
    } else if k.ExportAllDeclaration? {
      ExportAllKeepsValid(ctx, fuel, n, st);
    } else if k.ImportDeclaration? {
      ImportDeclarationKeepsValid(ctx, fuel, n, st);
    } else if k.TSModuleBlock? {
      ModuleBlockKeepsValid(ctx, fuel, n, st);
    } else if k.Program? {
      ProgramKeepsValid(ctx, fuel, n, st);
    } else if k.TSEnumDeclaration? {
      EnumDeclarationKeepsValid(ctx, fuel, n, st);
    } else if k.ExportDefaultDeclaration? {
      DefaultExportKindKeepsValid(ctx, fuel, n, st);
    } else if k.ExportNamedDeclaration? {
      NamedExportKindKeepsValid(ctx, fuel, n, st);
    } else {
      assert AnalyzeModule(ctx, fuel, n, st) == Done(st, Unknown);
    }
  }

  /** A file is its program's value. */
  lemma {:induction false} FileKeepsValid(ctx: Context, fuel: nat, n: Node, st: State)
    requires Valid(ctx.cfg, st) && n.kind.File?
    ensures ValidAfter(ctx.cfg, st, AnalyzeModule(ctx, fuel, n, st))
    decreases fuel, 5, 0
  {
    EvalNodeKeepsValid(ctx, fuel, n.kind.program, st);
  }

  /** A type-cast expression is its operand's value. */
  lemma {:induction false} TypeCastKeepsValid(ctx: Context, fuel: nat, n: Node, st: State)
    requires Valid(ctx.cfg, st) && n.kind.TSExpression?
    ensures ValidAfter(ctx.cfg, st, AnalyzeModule(ctx, fuel, n, st))
    decreases fuel, 5, 0
  {
    EvalNodeKeepsValid(ctx, fuel, n.kind.expression, st);
  }

  lemma {:induction false} ImportEqualsKeepsValid(ctx: Context, fuel: nat, n: Node, st: State)
    requires Valid(ctx.cfg, st) && n.kind.TSImportEqualsDeclaration?
    ensures ValidAfter(ctx.cfg, st, AnalyzeModule(ctx, fuel, n, st))
    decreases fuel, 5, 0
  {
    EvalNodeKeepsValid(ctx, fuel, n.kind.moduleReference, st);
  }

  lemma {:induction false} NamespaceKeepsValid(ctx: Context, fuel: nat, n: Node, st: State)
    requires Valid(ctx.cfg, st) && n.kind.TSModuleDeclaration?
    ensures ValidAfter(ctx.cfg, st, AnalyzeModule(ctx, fuel, n, st))
    decreases fuel, 5, 0
  {
    EvalNodeKeepsValid(ctx, fuel, n.kind.moduleBody, st);
  }

  /** Module references read the module deeply. */
  lemma {:induction false} ExternalReferenceKeepsValid(ctx: Context, fuel: nat, n: Node, st: State)
    requires Valid(ctx.cfg, st) && n.kind.TSExternalModuleReference?
    ensures ValidAfter(ctx.cfg, st, AnalyzeModule(ctx, fuel, n, st))
    decreases fuel, 5, 0
  {
    DeepKeepsValid(ctx, n.kind.source, st);
  }

  lemma {:induction false} ExportAllKeepsValid(ctx: Context, fuel: nat, n: Node, st: State)
    requires Valid(ctx.cfg, st) && n.kind.ExportAllDeclaration?
    ensures ValidAfter(ctx.cfg, st, AnalyzeModule(ctx, fuel, n, st))
    decreases fuel, 5, 0
  {
    DeepKeepsValid(ctx, n.kind.source, st);
  }

  lemma {:induction false} ImportDeclarationKeepsValid(ctx: Context, fuel: nat, n: Node, st: State)
    requires Valid(ctx.cfg, st) && n.kind.ImportDeclaration?
    ensures ValidAfter(ctx.cfg, st, AnalyzeModule(ctx, fuel, n, st))
    decreases fuel, 5, 0
  {
    DeepKeepsValid(ctx, n.kind.source, st);
  }

  lemma {:induction false} ModuleBlockKeepsValid(ctx: Context, fuel: nat, n: Node, st: State)
    requires Valid(ctx.cfg, st) && n.kind.TSModuleBlock?
    ensures ValidAfter(ctx.cfg, st, AnalyzeModule(ctx, fuel, n, st))
    decreases fuel, 5, 0
  {
    ExportsKeepsValid(ctx, fuel, n.kind.body, st);
  }

  lemma {:induction false} ProgramKeepsValid(ctx: Context, fuel: nat, n: Node, st: State)
    requires Valid(ctx.cfg, st) && n.kind.Program?
    ensures ValidAfter(ctx.cfg, st, AnalyzeModule(ctx, fuel, n, st))
    decreases fuel, 5, 0
  {
    ExportsKeepsValid(ctx, fuel, n.kind.body, st);
  }

  lemma {:induction false} EnumDeclarationKeepsValid(ctx: Context, fuel: nat, n: Node, st: State)
    requires Valid(ctx.cfg, st) && n.kind.TSEnumDeclaration?
    ensures ValidAfter(ctx.cfg, st, AnalyzeModule(ctx, fuel, n, st))
    decreases fuel, 5, 0
  {
    EnumValueKeepsValid(ctx, fuel, n.kind.enumMembers, st);
  }

  lemma {:induction false} DefaultExportKindKeepsValid(ctx: Context, fuel: nat, n: Node, st: State)
    requires Valid(ctx.cfg, st) && n.kind.ExportDefaultDeclaration?
    ensures ValidAfter(ctx.cfg, st, AnalyzeModule(ctx, fuel, n, st))
    decreases fuel, 5, 0
  {
    DefaultExportKeepsValid(ctx, fuel, n.kind.declaration, st);
  }

  lemma {:induction false} NamedExportKindKeepsValid(ctx: Context, fuel: nat, n: Node, st: State)
    requires Valid(ctx.cfg, st) && n.kind.ExportNamedDeclaration?
    ensures ValidAfter(ctx.cfg, st, AnalyzeModule(ctx, fuel, n, st))
    decreases fuel, 5, 0
  {
    ExportNamedKeepsValid(ctx, fuel, n, n.kind.namedDeclaration, n.kind.exportSpecifiers, n.kind.from, st);
  }

  lemma {:induction false} AnalyzeLiteralKeepsValid(ctx: Context, fuel: nat, n: Node, st: State)
    requires Valid(ctx.cfg, st)
    ensures ValidAfter(ctx.cfg, st, AnalyzeLiteral(ctx, fuel, n, st))
    decreases fuel, 5, 1
  {
    var k := n.kind;
    if k.TemplateLiteral? || k.ArrayExpression? {
      SequenceLiteralKeepsValid(ctx, fuel, n, st);
    } else if k.ObjectExpression? || k.RegExpLiteral? {
      ObjectLiteralKeepsValid(ctx, fuel, n, st);
    } else if k.ObjectProperty? || k.SpreadElement? {
      LiteralPartKeepsValid(ctx, fuel, n, st);
    } else {
      var r := AnalyzeLiteral(ctx, fuel, n, st);
      assert r.st == st && (r.c.Normal? ==> !r.c.value.Ref?);
    }
  }

  lemma {:induction false} SequenceLiteralKeepsValid(ctx: Context, fuel: nat, n: Node, st: State)
    requires Valid(ctx.cfg, st) && (n.kind.TemplateLiteral? || n.kind.ArrayExpression?)
    ensures ValidAfter(ctx.cfg, st, AnalyzeLiteral(ctx, fuel, n, st))
    decreases fuel, 5, 0
  {
    if n.kind.TemplateLiteral? {
      TemplateValueKeepsValid(ctx, fuel, n.kind.quasis, n.kind.expressions, st);
    } else {
      ArrayValueKeepsValid(ctx, fuel, n.kind.elements, st);
    }
  }

  lemma {:induction false} ObjectLiteralKeepsValid(ctx: Context, fuel: nat, n: Node, st: State)
    requires Valid(ctx.cfg, st) && (n.kind.ObjectExpression? || n.kind.RegExpLiteral?)
    ensures ValidAfter(ctx.cfg, st, AnalyzeLiteral(ctx, fuel, n, st))
    decreases fuel, 5, 0
  {
    if n.kind.ObjectExpression? {
      ObjectValueKeepsValid(ctx, fuel, n.kind.properties, st);
    } else {
      AllocatedKeepsValid(ctx.cfg, st, RegExpObj(n.kind.pattern, n.kind.flags));
    }
  }

  lemma {:induction false} LiteralPartKeepsValid(ctx: Context, fuel: nat, n: Node, st: State)
    requires Valid(ctx.cfg, st) && (n.kind.ObjectProperty? || n.kind.SpreadElement?)
    ensures ValidAfter(ctx.cfg, st, AnalyzeLiteral(ctx, fuel, n, st))
    decreases fuel, 5, 0
  {
    if n.kind.ObjectProperty? {
      EvalNodeKeepsValid(ctx, fuel, n.kind.value, st);
    } else {
      EvalNodeKeepsValid(ctx, fuel, n.kind.argument, st);
    }
  }

  lemma {:induction false} AnalyzeDefinitionKeepsValid(ctx: Context, fuel: nat, n: Node, st: State)
    requires Valid(ctx.cfg, st)
    ensures ValidAfter(ctx.cfg, st, AnalyzeDefinition(ctx, fuel, n, st))
    decreases fuel, 5, 1
  {
    var k := n.kind;
    if k.ArrowFunctionExpression? || k.ClassMethod? || k.FunctionDeclaration? || k.FunctionExpression? || k.ObjectMethod? {
      FunctionKindKeepsValid(ctx, fuel, n, st);
    } else if k.ClassBody? || k.ClassProperty? {
      ClassPartKeepsValid(ctx, fuel, n, st);
    } else if k.ClassDeclaration? || k.ClassExpression? {
      ClassKindKeepsValid(ctx, fuel, n, st);
    } else {
      assert AnalyzeDefinition(ctx, fuel, n, st) == Done(st, Unknown);
    }
  }

  /** Functions, arrow functions and methods. */
  lemma {:induction false} FunctionKindKeepsValid(ctx: Context, fuel: nat, n: Node, st: State)
    requires Valid(ctx.cfg, st)
    requires n.kind.ArrowFunctionExpression? || n.kind.ClassMethod? || n.kind.FunctionDeclaration? || n.kind.FunctionExpression? || n.kind.ObjectMethod?
    ensures ValidAfter(ctx.cfg, st, AnalyzeDefinition(ctx, fuel, n, st))
    decreases fuel, 5, 0
  {
    FunctionNodeKeepsValid(ctx, fuel, n.kind.fnBody, n.kind.isAsync, n.kind.ArrowFunctionExpression?, st);
  }

  lemma {:induction false} ClassPartKeepsValid(ctx: Context, fuel: nat, n: Node, st: State)
    requires Valid(ctx.cfg, st) && (n.kind.ClassBody? || n.kind.ClassProperty?)
    ensures ValidAfter(ctx.cfg, st, AnalyzeDefinition(ctx, fuel, n, st))
    decreases fuel, 5, 0
  {
    if n.kind.ClassBody? {
      ClassValueKeepsValid(ctx, fuel, n.kind.members, st);
    } else if n.kind.initial.Some? {
      EvalNodeKeepsValid(ctx, fuel, n.kind.initial.value, st);
    }
  }

  lemma {:induction false} ClassKindKeepsValid(ctx: Context, fuel: nat, n: Node, st: State)
    requires Valid(ctx.cfg, st) && (n.kind.ClassDeclaration? || n.kind.ClassExpression?)
    ensures ValidAfter(ctx.cfg, st, AnalyzeDefinition(ctx, fuel, n, st))
    decreases fuel, 5, 0
  {
    EvalNodeKeepsValid(ctx, fuel, n.kind.classBody, st);
  }

  lemma {:induction false} AnalyzeOperationKeepsValid(ctx: Context, fuel: nat, n: Node, st: State)
    requires Valid(ctx.cfg, st)
    ensures ValidAfter(ctx.cfg, st, AnalyzeOperation(ctx, fuel, n, st))
    decreases fuel, 5, 1
  {
    var k := n.kind;
    if k.AssignmentExpression? {
      AssignmentKindKeepsValid(ctx, fuel, n, st);
    } else if k.SequenceExpression? {
      SequenceKindKeepsValid(ctx, fuel, n, st);
    } else if k.BinaryExpression? || k.LogicalExpression? {
      BinaryKindKeepsValid(ctx, fuel, n, st);
    } else if k.UnaryExpression? || k.UpdateExpression? {
      UnaryKindKeepsValid(ctx, fuel, n, st);
    } else if k.AwaitExpression? || k.ConditionalExpression? {
      AwaitOrConditionalKeepsValid(ctx, fuel, n, st);
    } else {
      assert AnalyzeOperation(ctx, fuel, n, st) == Done(st, Unknown);
    }
  }

  lemma {:induction false} AssignmentKindKeepsValid(ctx: Context, fuel: nat, n: Node, st: State)
    requires Valid(ctx.cfg, st) && n.kind.AssignmentExpression?
    ensures ValidAfter(ctx.cfg, st, AnalyzeOperation(ctx, fuel, n, st))
    decreases fuel, 5, 0
  {
    EvalNodeKeepsValid(ctx, fuel, n.kind.right, st);
    BinaryKeepsValid(ctx, fuel, n.kind.operator, n.kind.left, n.kind.right, st);
  }

  /** A sequence is its last expression's value. */
  lemma {:induction false} SequenceKindKeepsValid(ctx: Context, fuel: nat, n: Node, st: State)
    requires Valid(ctx.cfg, st) && n.kind.SequenceExpression?
    ensures ValidAfter(ctx.cfg, st, AnalyzeOperation(ctx, fuel, n, st))
    decreases fuel, 5, 0
  {
    if |n.kind.expressions| > 0 {
      EvalNodeKeepsValid(ctx, fuel, n.kind.expressions[|n.kind.expressions| - 1], st);
    }
  }

  lemma {:induction false} BinaryKindKeepsValid(ctx: Context, fuel: nat, n: Node, st: State)
    requires Valid(ctx.cfg, st) && (n.kind.BinaryExpression? || n.kind.LogicalExpression?)
    ensures ValidAfter(ctx.cfg, st, AnalyzeOperation(ctx, fuel, n, st))
    decreases fuel, 5, 0
  {
    BinaryKeepsValid(ctx, fuel, n.kind.operator, n.kind.left, n.kind.right, st);
  }

  lemma {:induction false} UnaryKindKeepsValid(ctx: Context, fuel: nat, n: Node, st: State)
    requires Valid(ctx.cfg, st) && (n.kind.UnaryExpression? || n.kind.UpdateExpression?)
    ensures ValidAfter(ctx.cfg, st, AnalyzeOperation(ctx, fuel, n, st))
    decreases fuel, 5, 0
  {
    if n.kind.UnaryExpression? {
      UnaryKeepsValid(ctx, fuel, n.kind.operator, true, n.kind.argument, st);
    } else {
      UnaryKeepsValid(ctx, fuel, n.kind.operator, n.kind.prefix, n.kind.argument, st);
    }
  }

  lemma {:induction false} AwaitOrConditionalKeepsValid(ctx: Context, fuel: nat, n: Node, st: State)
    requires Valid(ctx.cfg, st) && (n.kind.AwaitExpression? || n.kind.ConditionalExpression?)
    ensures ValidAfter(ctx.cfg, st, AnalyzeOperation(ctx, fuel, n, st))
    decreases fuel, 5, 0
  {
    if n.kind.AwaitExpression? {
      AwaitKeepsValid(ctx, fuel, n.kind.argument, st);
    } else {
      ConditionalKeepsValid(ctx, fuel, n.kind.test, n.kind.consequent, n.kind.alternate, st);
    }
  }

  lemma {:induction false} AnalyzeAccessKeepsValid(ctx: Context, fuel: nat, n: Node, st: State)
    requires Valid(ctx.cfg, st)
    ensures ValidAfter(ctx.cfg, st, AnalyzeAccess(ctx, fuel, n, st))
    decreases fuel, 5, 1
  {
    var k := n.kind;
    if k.CallExpression? || k.OptionalCallExpression? {
      CallKindKeepsValid(ctx, fuel, n, st);
    } else if k.NewExpression? || k.TaggedTemplateExpression? {
      ConstructKindKeepsValid(ctx, fuel, n, st);
    } else if k.MemberExpression? {
      MemberKindKeepsValid(ctx, fuel, n, st);
    } else if k.OptionalMemberExpression? {
      OptionalMemberKindKeepsValid(ctx, fuel, n, st);
    } else if k.Identifier? {
      IdentifierKeepsValid(ctx, fuel, n, st);
    } else {
      assert AnalyzeAccess(ctx, fuel, n, st) == Done(st, Unknown);
    }
  }

  lemma {:induction false} CallKindKeepsValid(ctx: Context, fuel: nat, n: Node, st: State)
    requires Valid(ctx.cfg, st) && (n.kind.CallExpression? || n.kind.OptionalCallExpression?)
    ensures ValidAfter(ctx.cfg, st, AnalyzeAccess(ctx, fuel, n, st))
    decreases fuel, 5, 0
  {
    if n.kind.CallExpression? {
      CallKeepsValid(ctx, fuel, n.kind.callee, n.kind.arguments, st);
    } else {
      OptionalCallKeepsValid(ctx, fuel, n.kind.callee, n.kind.arguments, st);
    }
  }

  lemma {:induction false} ConstructKindKeepsValid(ctx: Context, fuel: nat, n: Node, st: State)
    requires Valid(ctx.cfg, st) && (n.kind.NewExpression? || n.kind.TaggedTemplateExpression?)
    ensures ValidAfter(ctx.cfg, st, AnalyzeAccess(ctx, fuel, n, st))
    decreases fuel, 5, 0
  {
    if n.kind.NewExpression? {
      NewKeepsValid(ctx, fuel, n.kind.callee, n.kind.arguments, st);
    } else {
      TaggedKeepsValid(ctx, fuel, n.kind.tag, n.kind.quasiElements, n.kind.expressions, st);
    }
  }

  lemma {:induction false} MemberKindKeepsValid(ctx: Context, fuel: nat, n: Node, st: State)
    requires Valid(ctx.cfg, st) && n.kind.MemberExpression?
    ensures ValidAfter(ctx.cfg, st, AnalyzeAccess(ctx, fuel, n, st))
    decreases fuel, 5, 0
  {
    MemberAccessKeepsValid(ctx, fuel, n.kind.obj, n.kind.property, false, st);
  }

  lemma {:induction false} OptionalMemberKindKeepsValid(ctx: Context, fuel: nat, n: Node, st: State)
    requires Valid(ctx.cfg, st) && n.kind.OptionalMemberExpression?
    ensures ValidAfter(ctx.cfg, st, AnalyzeAccess(ctx, fuel, n, st))
    decreases fuel, 5, 0
  {
    MemberAccessKeepsValid(ctx, fuel, n.kind.obj, n.kind.property, true, st);
  }

  lemma {:induction false} IdentifierKeepsValid(ctx: Context, fuel: nat, n: Node, st: State)
    requires Valid(ctx.cfg, st) && n.kind.Identifier?
    ensures ValidAfter(ctx.cfg, st, AnalyzeAccess(ctx, fuel, n, st))
    decreases fuel, 5, 0
  {
    EvaluateReferenceKeepsValid(ctx, fuel, n, n.kind.identifier, st);
  }

  lemma {:induction false} AnalyzeStatementKeepsValid(ctx: Context, fuel: nat, n: Node, st: State)
    requires Valid(ctx.cfg, st)
    ensures ValidAfter(ctx.cfg, st, AnalyzeStatement(ctx, fuel, n, st))
    decreases fuel, 5, 1
  {
    // the node a statement's value is the value of, if any
    var next: Option<Node> := match n.kind
      case BlockStatement(body) =>
        if FirstExit(body).Some? && !FirstExit(body).value.kind.ThrowStatement? then FirstExit(body) else None
      case ExpressionStatement(e) => Some(e)
      case ReturnStatement(returned) => returned
      case _ => None;
    if next.Some? {
      EvalNodeKeepsValid(ctx, fuel, next.value, st);
      assert AnalyzeStatement(ctx, fuel, n, st) == EvalNode(ctx, fuel, next.value, st);
    } else {
      assert AnalyzeStatement(ctx, fuel, n, st).st == st;
    }
  }

  // ---------------------------------------------------------------------------------------
  // Consequences

  /**
   * A run from a valid state (a lawful host, and options, safe set and links that name only
   * objects of the heap) ends in a valid state, with a value that names an object of the heap.
   */
  lemma ParseportNodeKeepsValid(cfg: Config, fuel: nat, root: Node, heap: Heap, safe: set<Handle>, related: map<Handle, Val>)
    requires Valid(cfg, State(map[], heap, safe, related))
    ensures ValidAfter(cfg, State(map[], heap, safe, related), ParseportNode(cfg, fuel, root, heap, safe, related))
  {
    EvalNodeKeepsValid(Context(cfg, AnalyzeScopes(root)), fuel, root, State(map[], heap, safe, related));
  }

  /**
   * A function node evaluated from a valid state is a fresh, unsafe stand-in, so calling or
   * constructing it never runs it: the call is its body's value.
   */
  lemma EvaluatedFunctionCallIsBody(ctx: Context, fuel: nat, body: Node, isArrow: bool, st: State, thisNode: Option<Node>, args: seq<Arg>, isConstruct: bool)
    requires Valid(ctx.cfg, st) && EvalNode(ctx, fuel, body, st).c.Normal?
    ensures var f := FunctionNode(ctx, fuel, body, false, isArrow, st);
      Emulate(ctx, fuel, f.c.value, thisNode, args, isConstruct, f.st) == Result(Normal(EvalNode(ctx, fuel, body, st).c.value), f.st)
  {
    var a := EvalNode(ctx, fuel, body, st);
    EvalNodeKeepsValid(ctx, fuel, body, st);
    FreshHandleIsUnmarked(ctx.cfg, a.st);
    EvaluatorLaws.UnsafeFunctionCallIsBody(ctx, fuel, a.st, isArrow, a.c.value, thisNode, args, isConstruct);
  }

  /** Calling an async function node evaluated from a valid state, and awaiting, gives its body's value. */
  lemma EvaluatedAsyncCallAwaitsBody(ctx: Context, fuel: nat, body: Node, isArrow: bool, st: State, thisNode: Option<Node>, args: seq<Arg>)
    requires Valid(ctx.cfg, st) && EvalNode(ctx, fuel, body, st).c.Normal?
    ensures var f := FunctionNode(ctx, fuel, body, true, isArrow, st);
      var call := Emulate(ctx, fuel, f.c.value, thisNode, args, false, f.st);
      call.c.Normal? && IsThenable(call.st.heap, call.c.value) && ExtractRelated(call.st.related, call.c.value) == EvalNode(ctx, fuel, body, st).c.value
  {
    var a := EvalNode(ctx, fuel, body, st);
    EvalNodeKeepsValid(ctx, fuel, body, st);
    FreshHandleIsUnmarked(ctx.cfg, a.st);
    EvaluatorLaws.UnsafeAsyncCallAwaitsBody(ctx, fuel, a.st, isArrow, a.c.value, thisNode, args);
  }
}
